=== FILE: README.md ===
# Flight-warning computer arbitration (A32NX EWD), modelled in Dafny

This project models the core of the A32NX pseudo flight-warning computer:
`NewPseudoFWC.onUpdate`, one tick of the computer that decides what the
engine/warning display shows. On every tick the computer:

- reads its inputs;
- derives the engine states, the dual engine failure, the flight-control
  conditions reported by the two flight-control data concentrators (FCDC)
  and the T.O. CONFIG test;
- evaluates the two catalogs of messages, `ewdMessageFailures` and
  `ewdMessageMemos`;
- arbitrates.

Arbitration reconciles the tracked failures with the catalog and collects
the line codes of the live, unrecalled failures. It raises and clears the
MASTER WARNING and MASTER CAUTION latches and picks the system page. It then
composes the lower-left pane (failures, or the left memos when there are
none) and the lower-right pane (right memos, with right-side failures
inserted after the special lines), each ordered by `mapOrder` against the
catalog's line order. When both computers have failed, the tick shows the
fixed FWC 1+2 FAULT lines and clears the recall list.

Modules, in dependency order:

| module | what it models |
|---|---|
| `Ordering` | `mapOrder`: the sort of display codes by their position in the catalog's line order |
| `Codes` | the nine-digit line codes: seven-digit entry key followed by a two-digit line number |
| `Messages` | one catalog entry as the arbitration sees it on a tick, and the codes it selects |
| `Arbitration` | the tick: reconciliation, failure loop, memo loop, latches, page, both panes |
| `Arinc429` | the ARINC 429 word as far as the conditions read it |
| `FlightControls` | the ELAC, SEC, FCDC, control-law and elevator conditions from the FCDC words |
| `Conditions` | IR alignment rows, engine states, dual engine failure, T.O. CONFIG test, portable-devices setting |
| `Readings` | the snapshot of everything a tick reads |
| `Catalog` | both catalogs as data, evaluated on a snapshot |
| `Fwc` | `onUpdate`: snapshot to catalogs to arbitration, with the values carried to the next tick |

Several behaviours of the code are modelled as written, because they are
part of what the display does:

- **Iteration order.** JavaScript iterates integer-like object keys in
  ascending numeric order and other string keys in insertion order. The
  failure catalog (keys such as `2600010`) is therefore taken in ascending
  key order, which is not the textual order (the overspeed warnings are
  written first but come late). The memo catalog (keys with leading zeros,
  such as `'0000010'`) is taken in textual order. The left memos are placed
  before the right memos, keeping each side's own order. The memo loop
  treats the two sides independently and no memo has a system page, so this
  changes nothing.
- **Shared arrays.** `failureKeysLeft` starts as the tracked array itself.
  When no failure entry is dropped on a tick, the list is truncated and then
  refilled from itself, so it ends empty. `recallFailureKeys` is refiltered
  from the unchanged recall list for every dropped entry, so only the last
  dropped key leaves it. `failureKeysRight` is always the tracked right array
  itself, so that list ends every tick empty.
- **Values from the previous tick.** The dual engine failure reads
  `aircraftOnGround` and the two engine fire buttons before this tick sets
  them. The ELAC fault conditions read the hydraulic confirm-node outputs
  before this tick writes them. The state carries those values from one tick
  to the next.

**Two builds.** In four places the code evidently does not do what its
authors meant (see Findings): the engine-state store, the NO SMOKING /
PORTABLE DEVICES test, ENG 2 FIRE's missing seventeenth line code and
AUTOBRAKE's line while disarmed. `Conditions.Build` names the two
programs. `AsWritten` is the code as it stands, and `Fwc.Step(AsWritten, s, r)`
is its tick. `Corrected` is the same code with those four places mended.
Each defect has its own as-written member and corrected member, and lemmas
relate the two. In the written build an entry can select an index outside
its line list. The display then carries JavaScript's `undefined`, which
`Codes.Undefined` stands for. `Array.prototype.sort` moves it after every
code (`Ordering.MapOrder`).

## Model

Every source cell is in `fbw-a32nx/src/systems/instruments/src/EWD/NewPseudoFWC.ts`.

| member | source | states |
|---|---|---|
| Ordering.IndexOf | fbw-a32nx/src/systems/instruments/src/EWD/NewPseudoFWC.ts:373 | `indexOf`: the first position of the code in the order list, and -1 exactly when the code is absent |
| Ordering.CompareConsistency | fbw-a32nx/src/systems/instruments/src/EWD/NewPseudoFWC.ts:372-377 | the comparator is antisymmetric exactly for codes at different positions; two codes missing from the order list each compare as smaller than the other |
| Ordering.Place | fbw-a32nx/src/systems/instruments/src/EWD/NewPseudoFWC.ts:371-379 | one insertion step keeps the list ordered, with `undefined` last, and adds exactly the inserted code |
| Ordering.MapOrder | fbw-a32nx/src/systems/instruments/src/EWD/NewPseudoFWC.ts:371-379 | the result is a permutation of the input: every `undefined` comes after all codes, and the codes are sorted by their position in the order list |
| Ordering.OrderedPermutationUnique | fbw-a32nx/src/systems/instruments/src/EWD/NewPseudoFWC.ts:371-379 | two ordered permutations of the same codes are equal when every code other than `undefined` is in the order list |
| Ordering.MapOrderCanonical | fbw-a32nx/src/systems/instruments/src/EWD/NewPseudoFWC.ts:371-379 | when every code other than `undefined` is in the order list, the ordered display depends only on which codes were collected (with multiplicity), not on the order they were collected in |
| Ordering.MapOrderOfSorted | fbw-a32nx/src/systems/instruments/src/EWD/NewPseudoFWC.ts:371-379 | a list already in catalog order is returned unchanged |
| Ordering.MapOrderFollowsCatalog | fbw-a32nx/src/systems/instruments/src/EWD/NewPseudoFWC.ts:371-379 | distinct codes come out at strictly increasing catalog positions, each pair in the order the comparator asks for |
| Codes.ValueOfDigits | fbw-a32nx/src/systems/instruments/src/EWD/NewPseudoFWC.ts:1068-1070 | reading back a zero-padded decimal field gives the number written into it |
| Codes.CodeRoundTrip | fbw-a32nx/src/systems/instruments/src/EWD/NewPseudoFWC.ts:1068-1070 | the first seven digits of a line code are the entry key and the last two the line number |
| Codes.CodeInjective | fbw-a32nx/src/systems/instruments/src/EWD/NewPseudoFWC.ts:1068-1070 | two line codes are equal exactly when key and line number are |
| Codes.LinesDistinct | fbw-a32nx/src/systems/instruments/src/EWD/NewPseudoFWC.ts:1068-1070 | the line codes of one entry are pairwise distinct |
| Codes.LinesDisjoint | fbw-a32nx/src/systems/instruments/src/EWD/NewPseudoFWC.ts:1068-1070 | entries with different keys share no line code |
| Messages.PickFrom | fbw-a32nx/src/systems/instruments/src/EWD/NewPseudoFWC.ts:817-821 | the codes pushed are exactly those named by a non-null index, with `undefined` for an index outside the list; never more codes than indices, and none when every index is null |
| Messages.Picked | fbw-a32nx/src/systems/instruments/src/EWD/NewPseudoFWC.ts:876-879 | an entry's displayed codes are exactly those named by its non-null indices |
| Messages.PickedLines | fbw-a32nx/src/systems/instruments/src/EWD/NewPseudoFWC.ts:876-879 | an entry whose indices are all in range shows only its own lines; an entry without undefined codes shows `undefined` exactly when some index is out of range |
| Messages.Order | fbw-a32nx/src/systems/instruments/src/EWD/NewPseudoFWC.ts:845-854 | the order list of a side holds exactly the line codes of that side's entries |
| Arinc429.DefaultOnlyForInvalidWords | fbw-a32nx/src/systems/instruments/src/EWD/NewPseudoFWC.ts:605-606 | `getBitValueOr` reads the default exactly for a word not in normal operation, and never reads such a word's bits |
| Arbitration.Without | fbw-a32nx/src/systems/instruments/src/EWD/NewPseudoFWC.ts:783-784 | the filter keeps exactly the elements not excluded, and never lengthens the list |
| Arbitration.Keep | fbw-a32nx/src/systems/instruments/src/EWD/NewPseudoFWC.ts:927 | the filter keeps exactly the special lines, and never lengthens the list |
| Arbitration.KeepWithoutSplit | fbw-a32nx/src/systems/instruments/src/EWD/NewPseudoFWC.ts:926-927 | the special and non-special filters together hold every memo line exactly once |
| Arbitration.KeepNothing | fbw-a32nx/src/systems/instruments/src/EWD/NewPseudoFWC.ts:926-932 | with no special line present the non-special filter is the whole list, so both branches of the composition agree |
| Arbitration.DroppedKeys | fbw-a32nx/src/systems/instruments/src/EWD/NewPseudoFWC.ts:780-786 | exactly the keys of the entries that are inactive or inhibited in the current phase |
| Arbitration.LastDroppedIndex | fbw-a32nx/src/systems/instruments/src/EWD/NewPseudoFWC.ts:781-785 | the position of the last dropped entry; every entry after it is live |
| Arbitration.LastDropped | fbw-a32nx/src/systems/instruments/src/EWD/NewPseudoFWC.ts:781-785 | no key exactly when every entry is live, otherwise the key of the last dropped entry |
| Arbitration.RecallAfter | fbw-a32nx/src/systems/instruments/src/EWD/NewPseudoFWC.ts:780-789 | the recall list only shrinks: it is emptied when nothing is dropped, otherwise only the last dropped key leaves it |
| Arbitration.FailurePassLatches | fbw-a32nx/src/systems/instruments/src/EWD/NewPseudoFWC.ts:798-813 | after the failure loop each latch is set exactly when it was set before or some live failure raises it |
| Arbitration.FailureStepCodes | fbw-a32nx/src/systems/instruments/src/EWD/NewPseudoFWC.ts:815-835 | one loop step adds to a side's codes exactly the codes of that entry, when it is live, unrecalled and on that side |
| Arbitration.FailurePassCodes | fbw-a32nx/src/systems/instruments/src/EWD/NewPseudoFWC.ts:815-835 | a side's collected codes are exactly the codes of its live, unrecalled failures |
| Arbitration.FailurePassPages | fbw-a32nx/src/systems/instruments/src/EWD/NewPseudoFWC.ts:816-830 | the system count is zero exactly when no live, unrecalled failure has a system page |
| Arbitration.FailurePassPage | fbw-a32nx/src/systems/instruments/src/EWD/NewPseudoFWC.ts:837-839 | the page request is that of the last live failure with a page, and is unchanged when there is none |
| Arbitration.FailurePassKeys | fbw-a32nx/src/systems/instruments/src/EWD/NewPseudoFWC.ts:792-813 | the keys pushed as new are those of new live left failures; the current keys are those of all live left failures |
| Arbitration.FailurePassIgnoresTracking | fbw-a32nx/src/systems/instruments/src/EWD/NewPseudoFWC.ts:792-841 | collected codes, system count and page request depend on the phase and the recall list, not on the tracked lists, fire tests or latches |
| Arbitration.MemoPassLeft | fbw-a32nx/src/systems/instruments/src/EWD/NewPseudoFWC.ts:872-883 | left memo codes are those of the shown left memos, and none while a left failure code exists |
| Arbitration.MemoPassRight | fbw-a32nx/src/systems/instruments/src/EWD/NewPseudoFWC.ts:884-887 | a right memo code survives exactly when a shown right memo selects it and no later shown right memo lists it |
| Arbitration.MemoPassPage | fbw-a32nx/src/systems/instruments/src/EWD/NewPseudoFWC.ts:889-891 | the page request after the memo loop is that of a shown memo with a page, and is unchanged when there is none |
| Arbitration.MemoPassIgnoresPage | fbw-a32nx/src/systems/instruments/src/EWD/NewPseudoFWC.ts:872-893 | the memo lists do not depend on the incoming page request |
| Arbitration.ComposeRight | fbw-a32nx/src/systems/instruments/src/EWD/NewPseudoFWC.ts:922-934 | with right failures present the pane is the special memo lines, then the failures, then the other memos; otherwise the memos alone; no line is lost or duplicated |
| Arbitration.Arbitrate | fbw-a32nx/src/systems/instruments/src/EWD/NewPseudoFWC.ts:768-936 | a normal tick leaves the right tracked list empty and never adds to the recall list |
| Arbitration.Tick | fbw-a32nx/src/systems/instruments/src/EWD/NewPseudoFWC.ts:453-470 | with both computers failed the panes show the FWC 1+2 FAULT lines, the recall list is cleared and all else is kept |
| Arbitration.FailingIff | fbw-a32nx/src/systems/instruments/src/EWD/NewPseudoFWC.ts:843 | `failLeft`: a side has failure codes exactly when some live, unrecalled failure on it selects a line |
| Arbitration.QuietIff | fbw-a32nx/src/systems/instruments/src/EWD/NewPseudoFWC.ts:909-915 | no failure selects a line exactly when neither side has failure codes: the condition under which the latches clear |
| Arbitration.Latches | fbw-a32nx/src/systems/instruments/src/EWD/NewPseudoFWC.ts:725-915 | each latch is on after a tick exactly when some failure selects a line and the latch survived its push button or was raised on this tick |
| Arbitration.SystemPage | fbw-a32nx/src/systems/instruments/src/EWD/NewPseudoFWC.ts:823-920 | the page request is -1 exactly when no live, unrecalled failure has a page, otherwise the page of a shown memo or of the last live failure that has one |
| Arbitration.LeftPaneFailureCode | fbw-a32nx/src/systems/instruments/src/EWD/NewPseudoFWC.ts:868-870 | while a left failure selects a line, a code is on the left pane exactly when a live, unrecalled left failure selects it |
| Arbitration.LeftPaneMemoCode | fbw-a32nx/src/systems/instruments/src/EWD/NewPseudoFWC.ts:909-910 | otherwise a code is on the left pane exactly when a shown left memo selects it |
| Arbitration.LeftPane | fbw-a32nx/src/systems/instruments/src/EWD/NewPseudoFWC.ts:856-910 | the left pane holds failure codes or memo codes as above, in catalog order |
| Arbitration.RightPaneCode | fbw-a32nx/src/systems/instruments/src/EWD/NewPseudoFWC.ts:922-936 | a code is on the right pane exactly when a live, unrecalled right failure selects it or a right memo code survives |
| Arbitration.RightPaneCodes | fbw-a32nx/src/systems/instruments/src/EWD/NewPseudoFWC.ts:884-936 | the composed right pane holds exactly the right failure codes and the surviving right memo codes, whatever the supply state |
| Arbitration.RightPane | fbw-a32nx/src/systems/instruments/src/EWD/NewPseudoFWC.ts:884-936 | on a normal tick a code is on the right pane exactly when a live, unrecalled right failure selects it or a right memo code survives; with no right failure the pane is in memo catalog order |
| Arbitration.SelectableShowsNoUndefined | fbw-a32nx/src/systems/instruments/src/EWD/NewPseudoFWC.ts:856-936 | when no entry selects outside its lines and no line code is undefined, neither pane shows `undefined`, and each pane is sorted by catalog position |
| Arbitration.UndefinedOnLeft | fbw-a32nx/src/systems/instruments/src/EWD/NewPseudoFWC.ts:815-870 | a live, unrecalled left failure that selects outside its lines puts `undefined` on the left pane, as its last line |
| Arbitration.UndefinedOnRight | fbw-a32nx/src/systems/instruments/src/EWD/NewPseudoFWC.ts:872-936 | a shown right memo that selects outside its lines puts `undefined` on the right pane, as its last line when no right failure is pending |
| Arbitration.RightPaneLayout | fbw-a32nx/src/systems/instruments/src/EWD/NewPseudoFWC.ts:922-934 | with right failures, the pane is special lines, then the failure lines in catalog order, then only non-special lines |
| Arbitration.DisplayIgnoresTracking | fbw-a32nx/src/systems/instruments/src/EWD/NewPseudoFWC.ts:768-936 | the display depends on the recall list and the inputs only, not on the tracked lists, latches or previous page |
| Arbitration.TrackedAfter | fbw-a32nx/src/systems/instruments/src/EWD/NewPseudoFWC.ts:773-863 | the tracked left failures after a tick: empty when nothing is dropped, otherwise the surviving old keys plus the new live left failures; the current list is exactly the live left failures |
| Arbitration.ResolvedForgotten | fbw-a32nx/src/systems/instruments/src/EWD/NewPseudoFWC.ts:780-786 | a failure that is inactive or inhibited is neither tracked nor current after the tick |
| Arbitration.RecallStaysEmpty | fbw-a32nx/src/systems/instruments/src/EWD/NewPseudoFWC.ts:774-798 | an empty recall list stays empty, and then a live left failure is new exactly when it is not tracked |
| FlightControls.ElacFault | fbw-a32nx/src/systems/instruments/src/EWD/NewPseudoFWC.ts:604-609 | an ELAC fault needs bus power; on the ground it is masked by the OFF bit; without the fault bit it needs both servo-loop bits and no low hydraulics; in flight the fault bit alone raises it |
| FlightControls.SecFault | fbw-a32nx/src/systems/instruments/src/EWD/NewPseudoFWC.ts:627-643 | a SEC fault needs bus power and the fault bit, is masked on the ground by the OFF bit, and is raised in flight by the fault bit |
| FlightControls.FcdcFaultsOf | fbw-a32nx/src/systems/instruments/src/EWD/NewPseudoFWC.ts:645-651 | FCDC 1+2, FCDC 1 and FCDC 2 FAULT as functions of which concentrators failed and DC 2 power; at most one of them holds |
| FlightControls.ElacLinesRaiseFault | fbw-a32nx/src/systems/instruments/src/EWD/NewPseudoFWC.ts:604-624 | with bus power, lines 2-4 of an ELAC fault never show without the fault; in flight the OFF bit hides those lines but not the fault |
| FlightControls.LawsReadOnlyTheirWords | fbw-a32nx/src/systems/instruments/src/EWD/NewPseudoFWC.ts:653-674 | ALTN 1, ALTN 2 and DIRECT LAW depend only on word 1 of each concentrator, and L+R ELEV FAULT only on word 3; a double FCDC fault raises none of them |
| FlightControls.ConcentratorsInterchangeable | fbw-a32nx/src/systems/instruments/src/EWD/NewPseudoFWC.ts:653-674 | the two concentrators play the same part in every law and elevator condition |
| FlightControls.GroundPhasesSuppressLaws | fbw-a32nx/src/systems/instruments/src/EWD/NewPseudoFWC.ts:653-674 | in flight phases 1 and 10 no law or elevator condition is raised, whatever the words say |
| FlightControls.NoDataRaisesOnlyFcdcFaults | fbw-a32nx/src/systems/instruments/src/EWD/NewPseudoFWC.ts:604-677 | with no valid word from either concentrator only the FCDC faults can be raised |
| FlightControls.HydraulicLowMasksServoLoop | fbw-a32nx/src/systems/instruments/src/EWD/NewPseudoFWC.ts:604-609 | with low hydraulics confirmed, ELAC 1 FAULT comes from the fault bit alone |
| FlightControls.OneValidFcdcRulesOutElevatorFault | fbw-a32nx/src/systems/instruments/src/EWD/NewPseudoFWC.ts:665-674 | one valid word reporting all four elevator channels available rules out L+R ELEV FAULT |
| Conditions.CeilDiv60 | fbw-a32nx/src/systems/instruments/src/EWD/NewPseudoFWC.ts:385 | `Math.ceil(t / 60)`: the whole number of minutes m with 60(m-1) < t <= 60m |
| Conditions.AdirsMessage1 | fbw-a32nx/src/systems/instruments/src/EWD/NewPseudoFWC.ts:381-414 | the first IR IN ALIGN row: one pair of rows per remaining minute from 7 down to 4, the odd row when an engine runs |
| Conditions.AdirsMessage2 | fbw-a32nx/src/systems/instruments/src/EWD/NewPseudoFWC.ts:416-443 | the second IR IN ALIGN row, for minutes 3 down to 1 in the same pattern, row 0 otherwise |
| Conditions.AlignmentRows | fbw-a32nx/src/systems/instruments/src/EWD/NewPseudoFWC.ts:381-443 | each memo's row tracks the running engine over its own time range; between 180 s and 240 s the second memo shows its first row |
| Conditions.EngineStatesDiffer | fbw-a32nx/src/systems/instruments/src/EWD/NewPseudoFWC.ts:483-484 | the written engine states agree with the engines' own readings only while both read 0, and they count an engine as running on engine 2's reading alone |
| Conditions.DualEngineFault | fbw-a32nx/src/systems/instruments/src/EWD/NewPseudoFWC.ts:519-524 | the dual engine failure is only raised in flight, only for one of the four shutdown indications, and always with both engines shut down |
| Conditions.EngineStateDefectRaisesDualFault | fbw-a32nx/src/systems/instruments/src/EWD/NewPseudoFWC.ts:519-524 | with the written engine states, one engine running at thrust still raises the failure; with the intended states it does not |
| Conditions.OneEngineRunningNoDualFault | fbw-a32nx/src/systems/instruments/src/EWD/NewPseudoFWC.ts:519-524 | with the corrected engine states, one engine running above idle with its valve open and at most one fire button pushed rules the failure out |
| Conditions.OneEngineRunningAsWritten | fbw-a32nx/src/systems/instruments/src/EWD/NewPseudoFWC.ts:519-524 | with the written engine states, engine 1 above idle with its valve open and at most one fire button pushed still gives the failure in flight exactly when engine 2 reads 0 |
| Conditions.TakeoffConfigNormal | fbw-a32nx/src/systems/instruments/src/EWD/NewPseudoFWC.ts:737-755 | passing the test needs both generators, no low hydraulic pressure, both pumps in AUTO, V1 <= VR <= V2, doors shut and locked, brakes not hot, no speed brake command, and the handle at the entered flaps |
| Conditions.TakeoffConfigPasses | fbw-a32nx/src/systems/instruments/src/EWD/NewPseudoFWC.ts:737-764 | the conditions are also sufficient: when all hold, the test writes T.O. CONFIG NORMAL true and raises no T.O. CONFIG failure |
| Conditions.TakeoffConfigFlaps | fbw-a32nx/src/systems/instruments/src/EWD/NewPseudoFWC.ts:752 | flaps never entered are not compared with the handle; once entered, a handle anywhere else fails the test |
| Conditions.ToConfigCheck | fbw-a32nx/src/systems/instruments/src/EWD/NewPseudoFWC.ts:732-764 | the test writes a value exactly when T.O. MEMO shows and the button is pressed; it writes whether the aircraft is in take-off configuration; the failure flag is set exactly when it writes false |
| Conditions.NoSmokingMemosAsWritten | fbw-a32nx/src/systems/instruments/src/EWD/NewPseudoFWC.ts:1398-1417 | as written, NO SMOKING needs an empty setting string and the two memos never show together |
| Conditions.NoSmokingMemos | fbw-a32nx/src/systems/instruments/src/EWD/NewPseudoFWC.ts:1398-1417 | as intended, exactly one of the two memos shows while the signs are on, PORTABLE DEVICES only with the setting "1" |
| Conditions.PortableDevicesSettingOff | fbw-a32nx/src/systems/instruments/src/EWD/NewPseudoFWC.ts:708 | with the stored setting "0" or "1", NO SMOKING never shows as written; with "0" the intended test shows it |
| Catalog.Overspeed | fbw-a32nx/src/systems/instruments/src/EWD/NewPseudoFWC.ts:940-997 | each overspeed warning selects only lines it has |
| Catalog.DualEngine | fbw-a32nx/src/systems/instruments/src/EWD/NewPseudoFWC.ts:998-1015 | DUAL ENGINE FAILURE selects only lines it has |
| Catalog.Eng1Fire | fbw-a32nx/src/systems/instruments/src/EWD/NewPseudoFWC.ts:1016-1045 | ENG 1 FIRE selects only lines it has |
| Catalog.Eng2Fire | fbw-a32nx/src/systems/instruments/src/EWD/NewPseudoFWC.ts:1046-1075 | ENG 2 FIRE as corrected, with a seventeenth line, selects only lines it has |
| Catalog.Eng2FireAsWritten | fbw-a32nx/src/systems/instruments/src/EWD/NewPseudoFWC.ts:1046-1075 | ENG 2 FIRE as written is the corrected entry without its seventeenth line; its indices stay in range exactly unless the second agent is due and not discharged |
| Catalog.ApuFire | fbw-a32nx/src/systems/instruments/src/EWD/NewPseudoFWC.ts:1076-1091 | APU FIRE selects only lines it has |
| Catalog.NotInTakeoffConfig | fbw-a32nx/src/systems/instruments/src/EWD/NewPseudoFWC.ts:1092-1121 | SLATS and FLAPS NOT IN T.O. CONFIG select only lines they have |
| Catalog.Control | fbw-a32nx/src/systems/instruments/src/EWD/NewPseudoFWC.ts:1122-1271 | the flight-control failures select only lines they have |
| Catalog.AscendingDistinct | fbw-a32nx/src/systems/instruments/src/EWD/NewPseudoFWC.ts:939-1283 | keys in ascending iteration order are pairwise distinct |
| Catalog.FireFailures | fbw-a32nx/src/systems/instruments/src/EWD/NewPseudoFWC.ts:1016-1121 | the fire and T.O. CONFIG failures in ascending key order, with the build's ENG 2 FIRE second; every entry but ENG 2 FIRE selects only lines it has, and in the corrected build ENG 2 FIRE does too |
| Catalog.ComputerFailures | fbw-a32nx/src/systems/instruments/src/EWD/NewPseudoFWC.ts:1122-1211 | the ELAC, SEC and FCDC 1+2 failures in ascending key order |
| Catalog.LawFailures | fbw-a32nx/src/systems/instruments/src/EWD/NewPseudoFWC.ts:1212-1283 | the law, elevator, single FCDC and park brake failures in ascending key order |
| Catalog.SpeedFailures | fbw-a32nx/src/systems/instruments/src/EWD/NewPseudoFWC.ts:940-1015 | the overspeed warnings and DUAL ENGINE FAILURE in ascending key order |
| Catalog.Failures | fbw-a32nx/src/systems/instruments/src/EWD/NewPseudoFWC.ts:939-1283 | the 24 failures, all left-side, never memo-inhibited, with a level from 1 to 3, no undefined code, in ascending key order; every entry but ENG 2 FIRE selects only lines it has, and in the corrected build every entry does |
| Catalog.FailureKeysDistinct | fbw-a32nx/src/systems/instruments/src/EWD/NewPseudoFWC.ts:939 | the failure keys are unique, as an object literal's keys are |
| Catalog.FailurePositions | fbw-a32nx/src/systems/instruments/src/EWD/NewPseudoFWC.ts:939-1283 | where ENG 2 FIRE, the FCDC faults, the overspeed warnings and DUAL ENGINE FAILURE sit in iteration order |
| Catalog.SomeFailureAlwaysDropped | fbw-a32nx/src/systems/instruments/src/EWD/NewPseudoFWC.ts:940-961 | at most one flaps position is selected, so some failure entry is dropped on every tick |
| Catalog.FcdcFailuresExclusive | fbw-a32nx/src/systems/instruments/src/EWD/NewPseudoFWC.ts:1202-1271 | FCDC 1+2, FCDC 1 and FCDC 2 FAULT are never active together |
| Catalog.Eng2FireAsWrittenOverruns | fbw-a32nx/src/systems/instruments/src/EWD/NewPseudoFWC.ts:1066-1070 | as written ENG 2 FIRE selects a seventeenth line it does not have; corrected, that line is code 260002017 |
| Catalog.MemoCatalogShape | fbw-a32nx/src/systems/instruments/src/EWD/NewPseudoFWC.ts:1285-1747 | memos have no level and no system page; only left memos are memo-inhibited, exactly while T.O. or LDG MEMO shows, apart from T.O. and LDG MEMO themselves |
| Catalog.PickedLine | fbw-a32nx/src/systems/instruments/src/EWD/NewPseudoFWC.ts:876-879 | line l of an entry is displayed exactly when some index names it |
| Catalog.ChecklistLine | fbw-a32nx/src/systems/instruments/src/EWD/NewPseudoFWC.ts:1288-1298 | checklist item k shows its done line exactly when done and its to-do line exactly when not |
| Catalog.TakeoffMemo | fbw-a32nx/src/systems/instruments/src/EWD/NewPseudoFWC.ts:1286-1304 | T.O. MEMO is a left memo with key 10, never memo-inhibited |
| Catalog.LandingMemo | fbw-a32nx/src/systems/instruments/src/EWD/NewPseudoFWC.ts:1305-1324 | LDG MEMO is a left memo with key 20, never memo-inhibited |
| Catalog.TakeoffMemoItems | fbw-a32nx/src/systems/instruments/src/EWD/NewPseudoFWC.ts:1288-1298 | each of the six T.O. MEMO items (autobrake MAX, signs, cabin, spoilers, flaps, T.O. CONFIG) shows its done line exactly when done, its to-do line otherwise |
| Catalog.LandingMemoItems | fbw-a32nx/src/systems/instruments/src/EWD/NewPseudoFWC.ts:1307-1312 | each of the four LDG MEMO items (gear, signs, cabin, spoilers) shows its done line exactly when done, its to-do line otherwise |
| Catalog.LandingMemoFlaps | fbw-a32nx/src/systems/instruments/src/EWD/NewPseudoFWC.ts:1313-1316 | LDG MEMO shows FLAPS FULL, to do or done, unless GPWS FLAPS 3 is set, and FLAPS CONF 3 otherwise |
| Catalog.Alignment | fbw-a32nx/src/systems/instruments/src/EWD/NewPseudoFWC.ts:1337-1377 | an IR IN ALIGN memo, given a row among its eight lines, is a well-formed left memo, memo-inhibited with the other left memos |
| Catalog.ChecklistMemos | fbw-a32nx/src/systems/instruments/src/EWD/NewPseudoFWC.ts:1286-1377 | T.O. MEMO, LDG MEMO, REFUELING (key 50, shown while refuelling), then IR IN ALIGN keys 30 and 31, with their time ranges and rows, in that order |
| Catalog.CabinMemos | fbw-a32nx/src/systems/instruments/src/EWD/NewPseudoFWC.ts:1378-1449 | the seven cabin and panel left memos, each well formed |
| Catalog.GroundMemos | fbw-a32nx/src/systems/instruments/src/EWD/NewPseudoFWC.ts:1450-1524 | the inhibit, speed brake, park brake and nose-wheel steering memos, each well formed |
| Catalog.PowerMemos | fbw-a32nx/src/systems/instruments/src/EWD/NewPseudoFWC.ts:1525-1554 | the PTU, RAT and ignition memos, each well formed |
| Catalog.SurveillanceMemos | fbw-a32nx/src/systems/instruments/src/EWD/NewPseudoFWC.ts:1555-1604 | the windshear, terrain, TCAS and company-message memos, each well formed |
| Catalog.AntiIceApuMemos | fbw-a32nx/src/systems/instruments/src/EWD/NewPseudoFWC.ts:1605-1676 | the anti-ice, APU, landing light and brake fan memos, each well formed |
| Catalog.CockpitMemos | fbw-a32nx/src/systems/instruments/src/EWD/NewPseudoFWC.ts:1677-1706 | SWITCHING PNL (key 290, while the ND transfer or DMC switching knob reads other than 1), GPWS FLAPS 3 (key 300, while selected) and the build's AUTOBRAKE memo, in that order; every memo but AUTOBRAKE selects only lines it has, and in the corrected build AUTOBRAKE does too |
| Catalog.PanelMemos | fbw-a32nx/src/systems/instruments/src/EWD/NewPseudoFWC.ts:1707-1746 | the landing elevation, fuel crossfeed, ADIRS switching and VHF 3 memos, each well formed |
| Catalog.Memos | fbw-a32nx/src/systems/instruments/src/EWD/NewPseudoFWC.ts:1285-1747 | the 38 memos: no level, no page, no undefined code, memo-inhibited exactly as the catalog says; every memo but AUTOBRAKE selects only lines it has, and in the corrected build every memo does |
| Catalog.AutobrakeAsWritten | fbw-a32nx/src/systems/instruments/src/EWD/NewPseudoFWC.ts:1697-1706 | AUTOBRAKE as written: a right memo shown in flight phases 7 and 8 whose index is in range exactly for modes 1 to 4; it is the corrected entry then, and shows `undefined` otherwise |
| Catalog.AutobrakePosition | fbw-a32nx/src/systems/instruments/src/EWD/NewPseudoFWC.ts:1285-1747 | AUTOBRAKE is the thirty-fourth memo in iteration order |
| Catalog.AutobrakeAsWrittenOverruns | fbw-a32nx/src/systems/instruments/src/EWD/NewPseudoFWC.ts:1700 | as written, a disarmed autobrake selects line -1; corrected, no line, and the two agree when armed |
| Fwc.Step | fbw-a32nx/src/systems/instruments/src/EWD/NewPseudoFWC.ts:445-936 | each build's tick: after total loss it shows the fault lines and clears recall; a normal tick carries the ground signal, fire buttons and hydraulic node outputs to the next tick and reports its writes |
| Fwc.StepOn | fbw-a32nx/src/systems/instruments/src/EWD/NewPseudoFWC.ts:453-936 | the tick over given arbitration inputs: the total-loss return, or the arbitration tick together with this tick's writes |
| Fwc.StepArbitrates | fbw-a32nx/src/systems/instruments/src/EWD/NewPseudoFWC.ts:768-936 | a normal tick of either build is the arbitration over the inputs that build evaluates |
| Fwc.InputsWellFormed | fbw-a32nx/src/systems/instruments/src/EWD/NewPseudoFWC.ts:939-1747 | each build's inputs are left-side failures in key order without undefined codes and memos without pages, and some failure is always dropped; only ENG 2 FIRE and AUTOBRAKE can select outside their lines, and in the corrected build nothing does |
| Fwc.CorrectedShowsNoUndefined | fbw-a32nx/src/systems/instruments/src/EWD/NewPseudoFWC.ts:768-936 | in the corrected build neither pane shows `undefined`, and the right pane is in memo catalog order |
| Fwc.AutobrakeInput | fbw-a32nx/src/systems/instruments/src/EWD/NewPseudoFWC.ts:1697-1706 | AUTOBRAKE is the thirty-fourth memo of each build's tick, a right memo shown in flight phases 7 and 8 |
| Fwc.AutobrakeAsWrittenShowsUndefined | fbw-a32nx/src/systems/instruments/src/EWD/NewPseudoFWC.ts:1697-1706 | as written, in flight phase 7 or 8 with no mode from 1 to 4 armed, the right pane ends with `undefined` |
| Fwc.Eng2FireInput | fbw-a32nx/src/systems/instruments/src/EWD/NewPseudoFWC.ts:1046-1075 | ENG 2 FIRE is the second failure of each build's tick, a left failure live whenever its test or fire button is on |
| Fwc.Eng2FireAsWrittenShowsUndefined | fbw-a32nx/src/systems/instruments/src/EWD/NewPseudoFWC.ts:1066-1070 | as written, a live, unrecalled ENG 2 FIRE whose second agent is due and not discharged puts `undefined` last on the left pane |
| Fwc.DualFaultByBuild | fbw-a32nx/src/systems/instruments/src/EWD/NewPseudoFWC.ts:519-524 | with engine 1 above idle and its valve open and at most one fire button pushed, the written tick raises the failure in flight exactly when engine 2 reads 0; the corrected tick never does while engine 1 reads non-zero |
| Fwc.DualFaultRaisesWarning | fbw-a32nx/src/systems/instruments/src/EWD/NewPseudoFWC.ts:998-1015 | DUAL ENGINE FAILURE is the last failure of the tick and is active exactly when the build computes the dual engine fault |
| Fwc.SmokingByBuild | fbw-a32nx/src/systems/instruments/src/EWD/NewPseudoFWC.ts:1398-1417 | with the signs on and the setting "0", the written tick shows PORTABLE DEVICES and not NO SMOKING, the corrected tick NO SMOKING |
| Fwc.RightPaneShowsOnlyMemos | fbw-a32nx/src/systems/instruments/src/EWD/NewPseudoFWC.ts:922-936 | since every failure is left-side, the right pane holds exactly the surviving right memo codes, in catalog order with any `undefined` last |
| Fwc.SystemPageFromFailures | fbw-a32nx/src/systems/instruments/src/EWD/NewPseudoFWC.ts:837-920 | the page request comes from the failures alone: -1 when none counts, otherwise the page of the last live failure with one |
| Fwc.TrackingCarriesOver | fbw-a32nx/src/systems/instruments/src/EWD/NewPseudoFWC.ts:780-863 | because some failure is always dropped, tracked keys carry over while their entries stay live, and new live left failures are added |
| Fwc.DualFaultLagsGroundSignal | fbw-a32nx/src/systems/instruments/src/EWD/NewPseudoFWC.ts:519-554 | on the tick the aircraft leaves the ground the failure cannot be raised; on the tick it lands it is still raised with both engines at 0 |
| Fwc.TakeoffConfigTest | fbw-a32nx/src/systems/instruments/src/EWD/NewPseudoFWC.ts:732-764 | the test writes exactly when T.O. MEMO shows and the button is pressed; taking the write to be visible to the same tick's reads, T.O. MEMO reads the written value |
| Fwc.CabinCallSetsCabinReady | fbw-a32nx/src/systems/instruments/src/EWD/NewPseudoFWC.ts:712-717 | a cabin call writes cabin ready; taking the write to be visible to the same tick's reads, the memos see it set |
| Fwc.ElacFaultReadsPreviousHydraulics | fbw-a32nx/src/systems/instruments/src/EWD/NewPseudoFWC.ts:607-612 | low hydraulics confirmed on the previous tick masks the servo-loop ELAC 1 FAULT on this one |

## Left out

- SimVar reads and writes, `NXDataStore` and the display subjects. A tick
  reads a `Readings.Snapshot` and returns its writes as `Fwc.Effects`.
- Fwc.TakeoffConfigTest, Fwc.CabinCallSetsCabinReady: `SimVar.SetSimVarValue`
  and `SimVar.GetSimVarValue` belong to the simulator and are not part of
  this model. Cabin ready (written at 716) and T.O. CONFIG NORMAL (written
  at 756 and 759) are the only simulator variables the tick both writes and
  reads (at 1293, 1297, 1312, 1558 and 1568). The model assumes a write is
  visible to the reads later in the same tick, so `Fwc.DerivedOf` takes
  these two values from the tick's own writes rather than from the
  snapshot. If the simulator delays a write to the next frame, the memos
  read the snapshot's value on that tick, and the same-tick clauses of
  these two lemmas are not promised.
- The timing of the confirm nodes, the take-off and landing inhibit timers
  and the agent-discharge timers. Their outputs on the current tick are
  readings (`Readings.NodeOutputs`). The flight-phase inhibit override and
  the hydraulic pressure switches feed only those nodes.
- The `Arinc429Word` class is not part of this model. A word is either in
  normal operation, with a set of bits, or not, and `Arinc429.GetBitValueOr`
  returns the bit or the default accordingly.
- Floating point. Speeds, angles, altitudes, throttle positions,
  percentages and the IR alignment time are whole numbers. `Math.round(CAS / 2) * 2` and the N1 idle
  comparison are readings.
- Readings the tick stores but no condition of the core uses, such as the
  cargo fire agent discharge and the fuel door opening.
- The LAND ASAP and ICE NOT DETECTED memos, which are commented out in the
  catalog.
- Ordering.MapOrder: modelled as a stable insertion sort that puts every
  `undefined` last, as `Array.prototype.sort` does without consulting the
  comparator. The source's comparator never returns 0, so it is
  inconsistent for equal codes and for codes outside the order list, and
  the engine's sort algorithm decides their order. Every line code an
  entry lists is in its side's order list, so only `undefined` falls
  outside it, and `Ordering.MapOrderCanonical` shows that every correct
  sort then gives the same result.
- `undefined` on the display is modelled as the empty code
  `Codes.Undefined`, which no catalog lists. What the display subjects then
  render is not part of this model.
- Catalog.TakeoffMemo, Catalog.LandingMemo: the contracts state only the
  memo's shape. Their line selection is stated by
  `Catalog.TakeoffMemoItems`, `Catalog.LandingMemoItems` and
  `Catalog.LandingMemoFlaps`.
- Catalog.Overspeed, Catalog.DualEngine, Catalog.Eng1Fire, Catalog.Eng2Fire,
  Catalog.ApuFire, Catalog.NotInTakeoffConfig, Catalog.Control: the contracts
  state only that every selected index names a line of the entry. Which line
  each condition selects is the entry's definition, transcribed from the
  catalog.
- Catalog.CabinMemos, Catalog.GroundMemos, Catalog.PowerMemos,
  Catalog.SurveillanceMemos, Catalog.AntiIceApuMemos, Catalog.PanelMemos,
  Catalog.Alignment: the contracts state the memos' shape, not their
  activation conditions, which are transcribed from the catalog.

## Findings

| source | as written | input that shows it | evidently intended | confidence | as-written member | corrected member |
|---|---|---|---|---|---|---|
| fbw-a32nx/src/systems/instruments/src/EWD/NewPseudoFWC.ts:1066-1070 | ENG 2 FIRE can select line index 16 but lists only 16 codes (indices 0 to 15), so `codesToReturn[16]` is undefined and an undefined code is pushed | fire button 2 pushed, second agent due (`agent2Eng2Discharge` = 1) and not discharged (`Catalog.Eng2FireAsWrittenOverruns`) | a seventeenth code 260002017, as ENG 1 FIRE has 260001017 | high, not executed | Catalog.Eng2FireAsWritten | Catalog.Eng2Fire |
| fbw-a32nx/src/systems/instruments/src/EWD/NewPseudoFWC.ts:483-484 | both engine-state reads are written to `engine1State`; `engine2State` is never set and stays 0 | in flight, engine 1 running (state 1) with its valve open and N1 above idle, engine 2 reading 0: DUAL ENGINE FAILURE is raised (`Conditions.EngineStateDefectRaisesDualFault`) | line 484 sets `engine2State` | high, not executed | Conditions.EngineStatesAsWritten | Conditions.EngineStates |
| fbw-a32nx/src/systems/instruments/src/EWD/NewPseudoFWC.ts:1400-1410 | NO SMOKING tests `!configPortableDevices` and PORTABLE DEVICES tests `!!configPortableDevices`, but the setting is the string "0" or "1" (default "0", line 708), and both are truthy | signs on with the setting "0": PORTABLE DEVICES shows and NO SMOKING never can (`Conditions.PortableDevicesSettingOff`) | compare the setting with "1" | medium, not executed | Conditions.NoSmokingMemosAsWritten | Conditions.NoSmokingMemos |
| fbw-a32nx/src/systems/instruments/src/EWD/NewPseudoFWC.ts:1697-1706 | AUTOBRAKE selects line `autoBrake - 1`, which is -1 while the autobrake is disarmed, so `codesToReturn[-1]` (undefined) is pushed | flight phase 7 or 8 with the autobrake disarmed (mode 0) (`Catalog.AutobrakeAsWrittenOverruns`) | no line while disarmed | medium, not executed | Catalog.AutobrakeAsWritten | Catalog.Autobrake |

=== FILE: arbitration.dfy ===
/**
  The arbitration tick of the flight-warning computer (`onUpdate`, source
  lines 445-470 and 768-936): it reconciles the tracked failures with the
  catalog, raises and clears the master caution and master warning latches,
  selects the system page, and composes the two lower display panes.

  The source's lists are arrays shared by reference, and that sharing is
  part of the behaviour:
  - `failureKeysLeft` is the tracked-failure array itself until the first
    filter replaces it by a copy. When no failure entry is dropped on a tick,
    the tracked list is truncated and refilled from itself, so it ends empty.
  - `recallFailureKeys` is refiltered from the unchanged recall list on every
    dropped entry, so only the last dropped key leaves the recall list; when
    nothing is dropped the recall list ends empty in the same way.
  - `failureKeysRight` is always the right tracked array itself, so that
    list ends every tick empty.
 */
module Arbitration {
  import opened Codes
  import opened Ordering
  import opened Messages

  /** Lower-left display while both FWCs have failed (source lines 453-458). */
  const LossLeft: seq<Code> := ["0", "310000701", "310000702", "310000703"]

  /** Lower-right display while both FWCs have failed (source lines 459-466). */
  const LossRight: seq<Code> := ["310000704", "310000705", "310000706", "310000707", "310000708", "310000709"]

  /** Right memo lines that stay above right-side failures (source line 925). */
  const SpecialLines: seq<Code> := ["000014001", "000015001", "000035001", "000036001", "220001501", "220002101"]

  /** What the computer keeps from one tick to the next. */
  datatype State = State(
    failuresLeft: seq<Key>,
    failuresRight: seq<Key>,
    recall: seq<Key>,
    allCurrent: seq<Key>,
    masterCaution: bool,
    masterWarning: bool,
    /** The last value written to the system-page request. */
    sfail: int
  )

  /** The inputs of one tick, with both catalogs already evaluated. */
  datatype Inputs = Inputs(
    fwc1Normal: bool,
    fwc2Normal: bool,
    phase: int,
    /** Either MASTER CAUT push button is pressed. */
    cautionAck: bool,
    /** Either MASTER WARN push button is pressed. */
    warningAck: bool,
    /** Any engine, APU or cargo fire test is on. */
    fireTest: bool,
    failures: seq<Entry>,
    memos: seq<Entry>
  )

  datatype Display = Display(left: seq<Code>, right: seq<Code>)

  datatype Outcome = Outcome(next: State, display: Display)

  // ---------------------------------------------------------------------
  // Array filters

  /** `s.filter((e) => !xs.includes(e))`. */
  function Without<T(==,!new)>(s: seq<T>, xs: seq<T>): (r: seq<T>)
    ensures forall y :: y in r <==> y in s && y !in xs
    ensures |r| <= |s|
    decreases |s|
  {
    if s == [] then []
    else (if s[0] in xs then [] else [s[0]]) + Without(s[1..], xs)
  }

  /** `s.filter((e) => xs.includes(e))`. */
  function Keep<T(==,!new)>(s: seq<T>, xs: seq<T>): (r: seq<T>)
    ensures forall y :: y in r <==> y in s && y in xs
    ensures |r| <= |s|
    decreases |s|
  {
    if s == [] then []
    else (if s[0] in xs then [s[0]] else []) + Keep(s[1..], xs)
  }

  /** Splitting by membership loses and invents nothing. */
  lemma {:induction false} KeepWithoutSplit<T(!new)>(s: seq<T>, xs: seq<T>)
    ensures multiset(Keep(s, xs)) + multiset(Without(s, xs)) == multiset(s)
    decreases |s|
  {
    if s != [] {
      KeepWithoutSplit(s[1..], xs);
      assert s == [s[0]] + s[1..];
    }
  }

  /** When nothing is kept, nothing is removed. */
  lemma {:induction false} KeepNothing<T(!new)>(s: seq<T>, xs: seq<T>)
    requires Keep(s, xs) == []
    ensures Without(s, xs) == s
    decreases |s|
  {
    if s != [] {
      assert s[0] !in xs;
      KeepNothing(s[1..], xs);
      assert s == [s[0]] + s[1..];
    }
  }

  // ---------------------------------------------------------------------
  // Reconciliation (source lines 780-789)

  /** The keys of the failure entries that are inactive or inhibited, in catalog order. */
  function DroppedKeys(cat: seq<Entry>, phase: int): (r: seq<Key>)
    ensures forall k :: k in r <==> exists i :: 0 <= i < |cat| && !Live(cat[i], phase) && cat[i].key == k
    decreases |cat|
  {
    if cat == [] then []
    else
      var rest := DroppedKeys(cat[1..], phase);
      assert forall i :: 0 <= i < |cat| - 1 ==> cat[1..][i] == cat[i + 1];
      (if Live(cat[0], phase) then [] else [cat[0].key]) + rest
  }

  /** The position of the last entry that is inactive or inhibited, -1 if every entry is live. */
  function LastDroppedIndex(cat: seq<Entry>, phase: int): (r: int)
    ensures -1 <= r < |cat|
    ensures r >= 0 ==> !Live(cat[r], phase)
    ensures forall j :: r < j < |cat| ==> Live(cat[j], phase)
    decreases |cat|
  {
    if cat == [] then -1
    else if !Live(cat[|cat| - 1], phase) then |cat| - 1
    else LastDroppedIndex(cat[..|cat| - 1], phase)
  }

  /** The key of the last dropped entry: the one whose filter of the recall list survives. */
  function LastDropped(cat: seq<Entry>, phase: int): (r: Option<Key>)
    ensures r.None? <==> forall i :: 0 <= i < |cat| ==> Live(cat[i], phase)
    ensures r.Some? ==> r.value == cat[LastDroppedIndex(cat, phase)].key
  {
    var i := LastDroppedIndex(cat, phase);
    if i < 0 then None else Some(cat[i].key)
  }

  /** The recall list after the reconciliation loop and the copy back (lines 780-789). */
  function RecallAfter(recall: seq<Key>, cat: seq<Entry>, phase: int): (r: seq<Key>)
    ensures forall k :: k in r ==> k in recall
    ensures LastDropped(cat, phase).None? ==> r == []
    ensures LastDropped(cat, phase).Some? ==>
      forall k :: k in r <==> k in recall && k != LastDropped(cat, phase).value
  {
    match LastDropped(cat, phase)
    case None => []
    case Some(k) => Without(recall, [k])
  }

  // ---------------------------------------------------------------------
  // The failure loop (source lines 792-841)

  /** What the failure loop reads: phase, pre-tick tracked lists, new recall list, fire tests. */
  datatype Ctx = Ctx(phase: int, trackedLeft: seq<Key>, trackedRight: seq<Key>, recall: seq<Key>, fireTest: bool)

  /**
    The failure loop's running values: keys pushed as new, keys of live left
    failures, collected codes, the count of live unrecalled failures with a
    system page, the two latches and the system-page request.
   */
  datatype Pass = Pass(
    newLeft: seq<Key>,
    newRight: seq<Key>,
    current: seq<Key>,
    codesLeft: seq<Code>,
    codesRight: seq<Code>,
    pages: nat,
    caution: bool,
    warning: bool,
    sfail: int
  )

  /**
    A live failure not already tracked on its side (and, on the left, not
    recalled). Keys are unique, so checking the pre-tick tracked list is the
    same as checking the list the loop is appending to.
   */
  predicate IsNew(c: Ctx, e: Entry)
  {
    (e.side == Left && e.key !in c.trackedLeft && e.key !in c.recall)
    || (e.side == Right && e.key !in c.trackedRight)
  }

  function FailureStep(c: Ctx, p: Pass, e: Entry): Pass
  {
    if !Live(e, c.phase) then p
    else
      var isNew := IsNew(c, e);
      var recalled := e.key in c.recall;
      var codes := if recalled then [] else Picked(e);
      Pass(
        if isNew && e.side == Left then p.newLeft + [e.key] else p.newLeft,
        if isNew && e.side == Right then p.newRight + [e.key] else p.newRight,
        if e.side == Left then p.current + [e.key] else p.current,
        if e.side == Left then p.codesLeft + codes else p.codesLeft,
        if e.side == Right then p.codesRight + codes else p.codesRight,
        if !recalled && e.sysPage > -1 then p.pages + 1 else p.pages,
        p.caution || (isNew && e.severity == 2),
        p.warning || (isNew && e.severity == 3) || (!isNew && c.fireTest),
        if e.sysPage > -1 then e.sysPage else p.sfail)
  }

  /** The failure loop over the catalog in iteration order. */
  function FailurePass(c: Ctx, cat: seq<Entry>, init: Pass): Pass
    decreases |cat|
  {
    if cat == [] then init
    else FailureStep(c, FailurePass(c, cat[..|cat| - 1], init), cat[|cat| - 1])
  }

  /** A live failure that sets MASTER WARNING: new with level 3, or already known during a fire test. */
  predicate RaisesWarning(c: Ctx, e: Entry)
  {
    Live(e, c.phase) && ((IsNew(c, e) && e.severity == 3) || (!IsNew(c, e) && c.fireTest))
  }

  /** A live failure that sets MASTER CAUTION: new with level 2. */
  predicate RaisesCaution(c: Ctx, e: Entry)
  {
    Live(e, c.phase) && IsNew(c, e) && e.severity == 2
  }

  /** A live, unrecalled failure on `side` that puts code `x` on the display. */
  predicate Contributes(c: Ctx, e: Entry, side: Side, x: Code)
  {
    Live(e, c.phase) && e.side == side && e.key !in c.recall && x in Picked(e)
  }

  /** A live, unrecalled failure with a system page: what `leftFailureSystemCount` counts. */
  predicate CountsPage(c: Ctx, e: Entry)
  {
    Live(e, c.phase) && e.key !in c.recall && e.sysPage > -1
  }

  /** A live failure that writes its system page. */
  predicate WritesPage(c: Ctx, e: Entry)
  {
    Live(e, c.phase) && e.sysPage > -1
  }

  /** The latches after the loop: set exactly when set before or raised by some live failure. */
  lemma {:induction false} FailurePassLatches(c: Ctx, cat: seq<Entry>, init: Pass)
    ensures FailurePass(c, cat, init).warning <==>
      init.warning || exists i :: 0 <= i < |cat| && RaisesWarning(c, cat[i])
    ensures FailurePass(c, cat, init).caution <==>
      init.caution || exists i :: 0 <= i < |cat| && RaisesCaution(c, cat[i])
    decreases |cat|
  {
    if cat != [] {
      var n := |cat| - 1;
      var pre := cat[..n];
      FailurePassLatches(c, pre, init);
      assert forall i :: 0 <= i < n ==> pre[i] == cat[i];
      if exists i :: 0 <= i < |cat| && RaisesWarning(c, cat[i]) {
        var i :| 0 <= i < |cat| && RaisesWarning(c, cat[i]);
        if i < n {
          assert RaisesWarning(c, pre[i]);
        }
      }
      if exists i :: 0 <= i < |cat| && RaisesCaution(c, cat[i]) {
        var i :| 0 <= i < |cat| && RaisesCaution(c, cat[i]);
        if i < n {
          assert RaisesCaution(c, pre[i]);
        }
      }
    }
  }

  /** The codes one failure step collects on `side`: the earlier ones, plus the entry's if it contributes there. */
  lemma FailureStepCodes(c: Ctx, p: Pass, e: Entry, side: Side, x: Code)
    ensures var q := FailureStep(c, p, e);
      x in (if side == Left then q.codesLeft else q.codesRight) <==>
      x in (if side == Left then p.codesLeft else p.codesRight) || Contributes(c, e, side, x)
  {
  }

  lemma ContributesSplit(c: Ctx, cat: seq<Entry>, side: Side, x: Code)
    requires cat != []
    ensures var pre := cat[..|cat| - 1];
      (exists i :: 0 <= i < |cat| && Contributes(c, cat[i], side, x)) <==>
      (exists i :: 0 <= i < |pre| && Contributes(c, pre[i], side, x)) || Contributes(c, cat[|cat| - 1], side, x)
  {
    var n := |cat| - 1;
    if exists i :: 0 <= i < |cat| && Contributes(c, cat[i], side, x) {
      var i :| 0 <= i < |cat| && Contributes(c, cat[i], side, x);
      if i < n {
        assert Contributes(c, cat[..n][i], side, x);
      }
    }
  }

  /** The collected codes of a side are exactly the codes of its live, unrecalled failures. */
  lemma {:induction false} FailurePassCodes(c: Ctx, cat: seq<Entry>, init: Pass, side: Side, x: Code)
    ensures var p := FailurePass(c, cat, init);
      x in (if side == Left then p.codesLeft else p.codesRight) <==>
      x in (if side == Left then init.codesLeft else init.codesRight)
      || exists i :: 0 <= i < |cat| && Contributes(c, cat[i], side, x)
    decreases |cat|
  {
    if cat != [] {
      var n := |cat| - 1;
      ContributesSplit(c, cat, side, x);
      FailurePassCodes(c, cat[..n], init, side, x);
      FailureStepCodes(c, FailurePass(c, cat[..n], init), cat[n], side, x);
    }
  }

  /** The page count is zero exactly when no live, unrecalled failure has a system page. */
  lemma {:induction false} FailurePassPages(c: Ctx, cat: seq<Entry>, init: Pass)
    ensures FailurePass(c, cat, init).pages == 0 <==>
      init.pages == 0 && forall i :: 0 <= i < |cat| ==> !CountsPage(c, cat[i])
    decreases |cat|
  {
    if cat != [] {
      var n := |cat| - 1;
      var pre := cat[..n];
      FailurePassPages(c, pre, init);
      assert forall i :: 0 <= i < n ==> pre[i] == cat[i];
    }
  }

  /** The system-page request after the loop is the page of the last live failure that has one. */
  lemma {:induction false} FailurePassPage(c: Ctx, cat: seq<Entry>, init: Pass)
    ensures (forall i :: 0 <= i < |cat| ==> !WritesPage(c, cat[i])) ==>
      FailurePass(c, cat, init).sfail == init.sfail
    ensures (exists i :: 0 <= i < |cat| && WritesPage(c, cat[i])) ==>
      exists i :: 0 <= i < |cat| && WritesPage(c, cat[i]) && FailurePass(c, cat, init).sfail == cat[i].sysPage
        && forall j :: i < j < |cat| ==> !WritesPage(c, cat[j])
    decreases |cat|
  {
    if cat != [] {
      var n := |cat| - 1;
      var pre := cat[..n];
      FailurePassPage(c, pre, init);
      assert forall i :: 0 <= i < n ==> pre[i] == cat[i];
      if !WritesPage(c, cat[n]) && exists i :: 0 <= i < |cat| && WritesPage(c, cat[i]) {
        var i :| 0 <= i < |cat| && WritesPage(c, cat[i]);
        assert WritesPage(c, pre[i]);
      }
    }
  }

  /** A key is pushed as new on the left exactly when a live left failure with that key is new. */
  lemma KeysSplit(c: Ctx, cat: seq<Entry>, k: Key)
    requires cat != []
    ensures var pre := cat[..|cat| - 1];
      && ((exists i :: 0 <= i < |cat| && Live(cat[i], c.phase) && cat[i].side == Left && IsNew(c, cat[i]) && cat[i].key == k) <==>
        (exists i :: 0 <= i < |pre| && Live(pre[i], c.phase) && pre[i].side == Left && IsNew(c, pre[i]) && pre[i].key == k)
        || (Live(cat[|cat| - 1], c.phase) && cat[|cat| - 1].side == Left && IsNew(c, cat[|cat| - 1]) && cat[|cat| - 1].key == k))
      && ((exists i :: 0 <= i < |cat| && Live(cat[i], c.phase) && cat[i].side == Left && cat[i].key == k) <==>
        (exists i :: 0 <= i < |pre| && Live(pre[i], c.phase) && pre[i].side == Left && pre[i].key == k)
        || (Live(cat[|cat| - 1], c.phase) && cat[|cat| - 1].side == Left && cat[|cat| - 1].key == k))
  {
    var n := |cat| - 1;
    var pre := cat[..n];
    if exists i :: 0 <= i < |cat| && Live(cat[i], c.phase) && cat[i].side == Left && IsNew(c, cat[i]) && cat[i].key == k {
      var i :| 0 <= i < |cat| && Live(cat[i], c.phase) && cat[i].side == Left && IsNew(c, cat[i]) && cat[i].key == k;
      if i < n {
        assert Live(pre[i], c.phase) && pre[i].side == Left && IsNew(c, pre[i]) && pre[i].key == k;
      }
    }
    if exists i :: 0 <= i < |cat| && Live(cat[i], c.phase) && cat[i].side == Left && cat[i].key == k {
      var i :| 0 <= i < |cat| && Live(cat[i], c.phase) && cat[i].side == Left && cat[i].key == k;
      if i < n {
        assert Live(pre[i], c.phase) && pre[i].side == Left && pre[i].key == k;
      }
    }
  }

  /** The new and current left keys are those of the live left failures (new ones only for `newLeft`). */
  lemma {:induction false} FailurePassKeys(c: Ctx, cat: seq<Entry>, init: Pass, k: Key)
    ensures var p := FailurePass(c, cat, init);
      (k in p.newLeft <==>
        (k in init.newLeft || exists i :: 0 <= i < |cat| && Live(cat[i], c.phase) && cat[i].side == Left && IsNew(c, cat[i]) && cat[i].key == k))
      && (k in p.current <==>
        (k in init.current || exists i :: 0 <= i < |cat| && Live(cat[i], c.phase) && cat[i].side == Left && cat[i].key == k))
    decreases |cat|
  {
    if cat != [] {
      var n := |cat| - 1;
      KeysSplit(c, cat, k);
      FailurePassKeys(c, cat[..n], init, k);
    }
  }

  /**
    The codes, the system count and the page request do not depend on the
    tracked lists, the fire tests or the latches.
   */
  lemma {:induction false} FailurePassIgnoresTracking(c1: Ctx, c2: Ctx, cat: seq<Entry>, i1: Pass, i2: Pass)
    requires c1.phase == c2.phase && c1.recall == c2.recall
    requires i1.codesLeft == i2.codesLeft && i1.codesRight == i2.codesRight
    requires i1.pages == i2.pages
    ensures var p1 := FailurePass(c1, cat, i1); var p2 := FailurePass(c2, cat, i2);
      p1.codesLeft == p2.codesLeft && p1.codesRight == p2.codesRight && p1.pages == p2.pages
      && (i1.sfail == i2.sfail ==> p1.sfail == p2.sfail)
    decreases |cat|
  {
    if cat != [] {
      FailurePassIgnoresTracking(c1, c2, cat[..|cat| - 1], i1, i2);
    }
  }

  // ---------------------------------------------------------------------
  // The memo loop (source lines 872-893)

  datatype MemoAcc = MemoAcc(left: seq<Code>, right: seq<Code>, sfail: int)

  /**
    One shown memo: on the left its codes are collected only while no left
    failure code exists; on the right every code of the memo's own line list
    is first removed and the selected codes appended.
   */
  function MemoStep(phase: int, failLeft: bool, a: MemoAcc, m: Entry): MemoAcc
  {
    if !Shown(m, phase) then a
    else
      var codes := Picked(m);
      MemoAcc(
        if m.side == Left && !failLeft then a.left + codes else a.left,
        if m.side == Right then Without(a.right, m.lines) + codes else a.right,
        if m.sysPage > -1 then m.sysPage else a.sfail)
  }

  function MemoPass(phase: int, failLeft: bool, cat: seq<Entry>, init: MemoAcc): MemoAcc
    decreases |cat|
  {
    if cat == [] then init
    else MemoStep(phase, failLeft, MemoPass(phase, failLeft, cat[..|cat| - 1], init), cat[|cat| - 1])
  }

  /** A shown memo on `side` that selects code `x`. */
  predicate ShowsMemo(phase: int, m: Entry, side: Side, x: Code)
  {
    Shown(m, phase) && m.side == side && x in Picked(m)
  }

  /** A shown right memo whose line list holds `x`, and so removes it before adding its own. */
  predicate ClearsLine(phase: int, m: Entry, x: Code)
  {
    Shown(m, phase) && m.side == Right && x in m.lines
  }

  /** A shown memo that writes its system page. */
  predicate MemoWritesPage(phase: int, m: Entry)
  {
    Shown(m, phase) && m.sysPage > -1
  }

  /** Left memo codes: those of the shown left memos, and none at all while a left failure shows. */
  lemma {:induction false} MemoPassLeft(phase: int, failLeft: bool, cat: seq<Entry>, init: MemoAcc, x: Code)
    ensures x in MemoPass(phase, failLeft, cat, init).left <==>
      x in init.left || (!failLeft && exists i :: 0 <= i < |cat| && ShowsMemo(phase, cat[i], Left, x))
    decreases |cat|
  {
    if cat != [] {
      var n := |cat| - 1;
      var pre := cat[..n];
      MemoPassLeft(phase, failLeft, pre, init, x);
      assert forall i :: 0 <= i < n ==> pre[i] == cat[i];
      if exists i :: 0 <= i < |cat| && ShowsMemo(phase, cat[i], Left, x) {
        var i :| 0 <= i < |cat| && ShowsMemo(phase, cat[i], Left, x);
        if i < n {
          assert ShowsMemo(phase, pre[i], Left, x);
        }
      }
    }
  }

  /** Memo `i` selects `x` on the right and no later shown right memo lists `x`. */
  predicate Survives(phase: int, cat: seq<Entry>, i: int, x: Code)
    requires 0 <= i < |cat|
  {
    ShowsMemo(phase, cat[i], Right, x) && forall j :: i < j < |cat| ==> !ClearsLine(phase, cat[j], x)
  }

  lemma SurvivesPrefix(phase: int, cat: seq<Entry>, i: int, x: Code)
    requires 0 <= i < |cat| - 1
    ensures Survives(phase, cat, i, x) <==>
      Survives(phase, cat[..|cat| - 1], i, x) && !ClearsLine(phase, cat[|cat| - 1], x)
  {
    assert forall j :: 0 <= j < |cat| - 1 ==> cat[..|cat| - 1][j] == cat[j];
  }

  /**
    A code ends on the right memo list exactly when some shown right memo
    selects it and no later shown right memo lists it among its lines.
   */
  lemma {:induction false} MemoPassRight(phase: int, failLeft: bool, cat: seq<Entry>, init: MemoAcc, x: Code)
    requires init.right == []
    ensures x in MemoPass(phase, failLeft, cat, init).right <==>
      exists i :: 0 <= i < |cat| && Survives(phase, cat, i, x)
    decreases |cat|
  {
    if cat != [] {
      var n := |cat| - 1;
      var pre := cat[..n];
      MemoPassRight(phase, failLeft, pre, init, x);
      var last := cat[n];
      var r0 := MemoPass(phase, failLeft, pre, init).right;
      if x in MemoPass(phase, failLeft, cat, init).right {
        if Survives(phase, cat, n, x) {
        } else {
          assert x in r0 && !ClearsLine(phase, last, x);
          var i :| 0 <= i < n && Survives(phase, pre, i, x);
          SurvivesPrefix(phase, cat, i, x);
        }
      }
      if exists i :: 0 <= i < |cat| && Survives(phase, cat, i, x) {
        var i :| 0 <= i < |cat| && Survives(phase, cat, i, x);
        if i < n {
          SurvivesPrefix(phase, cat, i, x);
          assert x in r0;
        }
      }
    }
  }

  /** The page request after the memo loop is unchanged when no shown memo has a page, and otherwise some shown memo's page. */
  lemma {:induction false} MemoPassPage(phase: int, failLeft: bool, cat: seq<Entry>, init: MemoAcc)
    ensures (forall i :: 0 <= i < |cat| ==> !MemoWritesPage(phase, cat[i])) ==>
      MemoPass(phase, failLeft, cat, init).sfail == init.sfail
    ensures (exists i :: 0 <= i < |cat| && MemoWritesPage(phase, cat[i])) ==>
      exists i :: 0 <= i < |cat| && MemoWritesPage(phase, cat[i])
        && MemoPass(phase, failLeft, cat, init).sfail == cat[i].sysPage
    decreases |cat|
  {
    if cat != [] {
      var n := |cat| - 1;
      var pre := cat[..n];
      MemoPassPage(phase, failLeft, pre, init);
      assert forall i :: 0 <= i < n ==> pre[i] == cat[i];
      if !MemoWritesPage(phase, cat[n]) && exists i :: 0 <= i < |cat| && MemoWritesPage(phase, cat[i]) {
        var i :| 0 <= i < |cat| && MemoWritesPage(phase, cat[i]);
        assert MemoWritesPage(phase, pre[i]);
      }
    }
  }

  /** The memo lists and page request do not depend on the incoming page request except through it. */
  lemma {:induction false} MemoPassIgnoresPage(phase: int, failLeft: bool, cat: seq<Entry>, i1: MemoAcc, i2: MemoAcc)
    requires i1.left == i2.left && i1.right == i2.right
    ensures MemoPass(phase, failLeft, cat, i1).left == MemoPass(phase, failLeft, cat, i2).left
    ensures MemoPass(phase, failLeft, cat, i1).right == MemoPass(phase, failLeft, cat, i2).right
    ensures i1.sfail == i2.sfail ==> MemoPass(phase, failLeft, cat, i1) == MemoPass(phase, failLeft, cat, i2)
    decreases |cat|
  {
    if cat != [] {
      MemoPassIgnoresPage(phase, failLeft, cat[..|cat| - 1], i1, i2);
    }
  }

  // ---------------------------------------------------------------------
  // Composition of the right pane (source lines 922-934)

  /**
    With right-side failures present, the special memo lines stay on top,
    then the failures, then the remaining memos; otherwise the memos alone.
   */
  function ComposeRight(memos: seq<Code>, fails: seq<Code>, specials: seq<Code>): (r: seq<Code>)
    ensures fails == [] ==> r == memos
    ensures fails != [] ==> r == Keep(memos, specials) + fails + Without(memos, specials)
    ensures multiset(r) == multiset(memos) + multiset(fails)
  {
    if fails == [] then memos
    else
      ComposeSplit(memos, fails, specials);
      if Keep(memos, specials) != [] then Keep(memos, specials) + fails + Without(memos, specials)
      else fails + memos
  }

  lemma ComposeSplit(memos: seq<Code>, fails: seq<Code>, specials: seq<Code>)
    ensures Keep(memos, specials) == [] ==> Keep(memos, specials) + fails + Without(memos, specials) == fails + memos
    ensures multiset(Keep(memos, specials) + fails + Without(memos, specials)) == multiset(memos) + multiset(fails)
  {
    KeepWithoutSplit(memos, specials);
    ComposeEmpty(memos, fails, specials);
    ComposeCount(Keep(memos, specials), fails, Without(memos, specials), memos);
  }

  lemma ComposeEmpty(memos: seq<Code>, fails: seq<Code>, specials: seq<Code>)
    ensures Keep(memos, specials) == [] ==> Keep(memos, specials) + fails + Without(memos, specials) == fails + memos
  {
    if Keep(memos, specials) == [] {
      KeepNothing(memos, specials);
    }
  }

  lemma ComposeCount(specials: seq<Code>, fails: seq<Code>, rest: seq<Code>, memos: seq<Code>)
    requires multiset(specials) + multiset(rest) == multiset(memos)
    ensures multiset(specials + fails + rest) == multiset(memos) + multiset(fails)
  {
  }

  // ---------------------------------------------------------------------
  // The tick

  /** The recall list as the failure loop sees it, and as it is stored. */
  function RecallOf(s: State, t: Inputs): seq<Key>
  {
    RecallAfter(s.recall, t.failures, t.phase)
  }

  function CtxOf(s: State, t: Inputs): Ctx
  {
    Ctx(t.phase, s.failuresLeft, s.failuresRight, RecallOf(s, t), t.fireTest)
  }

  /** The loop's starting values: the push buttons have already reset their latch (lines 725-730). */
  function StartOf(s: State, t: Inputs): Pass
  {
    Pass([], [], [], [], [], 0, s.masterCaution && !t.cautionAck, s.masterWarning && !t.warningAck, s.sfail)
  }

  function FailuresOf(s: State, t: Inputs): Pass
  {
    FailurePass(CtxOf(s, t), t.failures, StartOf(s, t))
  }

  function MemosOf(t: Inputs, p: Pass): MemoAcc
  {
    MemoPass(t.phase, p.codesLeft != [], t.memos, MemoAcc([], [], p.sfail))
  }

  /** The lower-left pane: failure codes while there are any, otherwise the left memos (lines 856, 868-870, 906, 909-910). */
  function LeftPaneOf(t: Inputs, p: Pass, m: MemoAcc): seq<Code>
  {
    if p.codesLeft != [] then MapOrder(p.codesLeft, Order(t.failures, Left), Undefined)
    else MapOrder(m.left, Order(t.memos, Left), Undefined)
  }

  /** The lower-right pane (lines 857, 907, 922-936). */
  function RightPaneOf(t: Inputs, p: Pass, m: MemoAcc): seq<Code>
  {
    ComposeRight(MapOrder(m.right, Order(t.memos, Right), Undefined), MapOrder(p.codesRight, Order(t.failures, Right), Undefined), SpecialLines)
  }

  /** The tracked left failures as copied back at lines 862-863. */
  function TrackedOf(s: State, t: Inputs, p: Pass): seq<Key>
  {
    if LastDropped(t.failures, t.phase).Some? then Without(s.failuresLeft, DroppedKeys(t.failures, t.phase)) + p.newLeft
    else []
  }

  /** The normal-operation part of the tick (source lines 472-936). */
  function Arbitrate(s: State, t: Inputs): (o: Outcome)
    ensures o.next.failuresRight == []
    ensures forall k :: k in o.next.recall ==> k in s.recall
  {
    var p := FailuresOf(s, t);
    var m := MemosOf(t, p);
    var clear := p.codesLeft == [] && p.codesRight == [];
    Outcome(
      State(TrackedOf(s, t, p), [], RecallOf(s, t), p.current, p.caution && !clear, p.warning && !clear,
        if p.pages == 0 then -1 else m.sfail),
      Display(LeftPaneOf(t, p, m), RightPaneOf(t, p, m)))
  }

  /** One `onUpdate` call. */
  function Tick(s: State, t: Inputs): (o: Outcome)
    ensures !t.fwc1Normal && !t.fwc2Normal ==>
      o.display == Display(LossLeft, LossRight) && o.next == s.(recall := [])
    ensures t.fwc1Normal || t.fwc2Normal ==> o.next.failuresRight == []
    ensures forall k :: k in o.next.recall ==> k in s.recall
  {
    if !t.fwc1Normal && !t.fwc2Normal then Outcome(s.(recall := []), Display(LossLeft, LossRight))
    else Arbitrate(s, t)
  }

  // ---------------------------------------------------------------------
  // Properties of the tick

  /** No live, unrecalled failure selects a line: the condition under which both latches self-clear. */
  predicate Quiet(s: State, t: Inputs)
  {
    forall i :: 0 <= i < |t.failures| && Live(t.failures[i], t.phase) && t.failures[i].key !in RecallOf(s, t)
      ==> Picked(t.failures[i]) == []
  }

  /** Some live, unrecalled failure on `side` selects a line. */
  predicate Failing(s: State, t: Inputs, side: Side)
  {
    exists i :: 0 <= i < |t.failures| && Live(t.failures[i], t.phase) && t.failures[i].side == side
      && t.failures[i].key !in RecallOf(s, t) && Picked(t.failures[i]) != []
  }

  lemma FailingIff(s: State, t: Inputs, side: Side)
    ensures var p := FailuresOf(s, t);
      Failing(s, t, side) <==> (if side == Left then p.codesLeft else p.codesRight) != []
  {
    var p := FailuresOf(s, t);
    var c := CtxOf(s, t);
    var codes := if side == Left then p.codesLeft else p.codesRight;
    if Failing(s, t, side) {
      var i :| 0 <= i < |t.failures| && Live(t.failures[i], t.phase) && t.failures[i].side == side
        && t.failures[i].key !in RecallOf(s, t) && Picked(t.failures[i]) != [];
      var x := Picked(t.failures[i])[0];
      assert Contributes(c, t.failures[i], side, x);
      FailurePassCodes(c, t.failures, StartOf(s, t), side, x);
    }
    if codes != [] {
      var x := codes[0];
      FailurePassCodes(c, t.failures, StartOf(s, t), side, x);
      var i :| 0 <= i < |t.failures| && Contributes(c, t.failures[i], side, x);
      assert x in Picked(t.failures[i]);
    }
  }

  lemma QuietIff(s: State, t: Inputs)
    ensures Quiet(s, t) <==> !Failing(s, t, Left) && !Failing(s, t, Right)
  {
    if !Quiet(s, t) {
      var i :| 0 <= i < |t.failures| && Live(t.failures[i], t.phase) && t.failures[i].key !in RecallOf(s, t)
        && Picked(t.failures[i]) != [];
      assert Failing(s, t, t.failures[i].side);
    }
  }

  /**
    MASTER WARNING and MASTER CAUTION after a tick: each is on exactly when
    some failure still selects a line and the latch either survived its push
    button or was raised on this tick (warning: a new level-3 failure, or a
    known failure during a fire test; caution: a new level-2 failure).
   */
  lemma Latches(s: State, t: Inputs)
    requires t.fwc1Normal || t.fwc2Normal
    ensures Tick(s, t).next.masterWarning <==>
      !Quiet(s, t) && ((s.masterWarning && !t.warningAck)
        || exists i :: 0 <= i < |t.failures| && RaisesWarning(CtxOf(s, t), t.failures[i]))
    ensures Tick(s, t).next.masterCaution <==>
      !Quiet(s, t) && ((s.masterCaution && !t.cautionAck)
        || exists i :: 0 <= i < |t.failures| && RaisesCaution(CtxOf(s, t), t.failures[i]))
  {
    FailurePassLatches(CtxOf(s, t), t.failures, StartOf(s, t));
    FailingIff(s, t, Left);
    FailingIff(s, t, Right);
    QuietIff(s, t);
  }

  /**
    The system-page request after a tick is -1 exactly when no live,
    unrecalled failure has a system page; otherwise it is the page of the last
    shown memo that has one, or failing that of the last live failure that has one.
   */
  lemma SystemPage(s: State, t: Inputs)
    requires t.fwc1Normal || t.fwc2Normal
    ensures Tick(s, t).next.sfail == -1 <==> forall i :: 0 <= i < |t.failures| ==> !CountsPage(CtxOf(s, t), t.failures[i])
    ensures Tick(s, t).next.sfail != -1 ==> Tick(s, t).next.sfail >= 0
    ensures Tick(s, t).next.sfail != -1 && (exists i :: 0 <= i < |t.memos| && MemoWritesPage(t.phase, t.memos[i])) ==>
      exists i :: 0 <= i < |t.memos| && MemoWritesPage(t.phase, t.memos[i]) && Tick(s, t).next.sfail == t.memos[i].sysPage
    ensures Tick(s, t).next.sfail != -1 && (forall i :: 0 <= i < |t.memos| ==> !MemoWritesPage(t.phase, t.memos[i])) ==>
      exists i :: 0 <= i < |t.failures| && WritesPage(CtxOf(s, t), t.failures[i]) && Tick(s, t).next.sfail == t.failures[i].sysPage
        && forall j :: i < j < |t.failures| ==> !WritesPage(CtxOf(s, t), t.failures[j])
  {
    var c := CtxOf(s, t);
    var p := FailuresOf(s, t);
    FailurePassPages(c, t.failures, StartOf(s, t));
    FailurePassPage(c, t.failures, StartOf(s, t));
    MemoPassPage(t.phase, p.codesLeft != [], t.memos, MemoAcc([], [], p.sfail));
    if p.pages != 0 {
      var i :| 0 <= i < |t.failures| && CountsPage(c, t.failures[i]);
      assert WritesPage(c, t.failures[i]);
    }
  }

  /** A failure code is on the left pane exactly when a live, unrecalled left failure selects it. */
  lemma LeftPaneFailureCode(s: State, t: Inputs, x: Code)
    requires Failing(s, t, Left)
    ensures var p := FailuresOf(s, t);
      x in LeftPaneOf(t, p, MemosOf(t, p)) <==>
        exists i :: 0 <= i < |t.failures| && Contributes(CtxOf(s, t), t.failures[i], Left, x)
  {
    var p := FailuresOf(s, t);
    FailingIff(s, t, Left);
    FailurePassCodes(CtxOf(s, t), t.failures, StartOf(s, t), Left, x);
    var d := MapOrder(p.codesLeft, Order(t.failures, Left), Undefined);
    assert x in d <==> x in multiset(d);
  }

  /** Without left failure codes, a code is on the left pane exactly when a shown left memo selects it. */
  lemma LeftPaneMemoCode(s: State, t: Inputs, x: Code)
    requires !Failing(s, t, Left)
    ensures var p := FailuresOf(s, t);
      x in LeftPaneOf(t, p, MemosOf(t, p)) <==>
        exists i :: 0 <= i < |t.memos| && ShowsMemo(t.phase, t.memos[i], Left, x)
  {
    var p := FailuresOf(s, t);
    FailingIff(s, t, Left);
    MemoPassLeft(t.phase, false, t.memos, MemoAcc([], [], p.sfail), x);
    var d := MapOrder(MemosOf(t, p).left, Order(t.memos, Left), Undefined);
    assert x in d <==> x in multiset(d);
  }

  /**
    The lower-left pane: while some left failure selects a line it shows
    exactly the codes of the live, unrecalled left failures, otherwise
    exactly those of the shown left memos, in either case in catalog order
    with any `Undefined` last.
   */
  lemma LeftPane(s: State, t: Inputs)
    requires t.fwc1Normal || t.fwc2Normal
    ensures Failing(s, t, Left) ==>
      OrderedBy(Order(t.failures, Left), Tick(s, t).display.left, Undefined)
      && forall x :: x in Tick(s, t).display.left <==>
        exists i :: 0 <= i < |t.failures| && Contributes(CtxOf(s, t), t.failures[i], Left, x)
    ensures !Failing(s, t, Left) ==>
      OrderedBy(Order(t.memos, Left), Tick(s, t).display.left, Undefined)
      && forall x :: x in Tick(s, t).display.left <==>
        exists i :: 0 <= i < |t.memos| && ShowsMemo(t.phase, t.memos[i], Left, x)
  {
    var p := FailuresOf(s, t);
    assert Tick(s, t).display.left == LeftPaneOf(t, p, MemosOf(t, p));
    LeftPaneOrdered(s, t);
    LeftPaneCodes(s, t);
  }

  lemma LeftPaneCodes(s: State, t: Inputs)
    ensures var p := FailuresOf(s, t); var d := LeftPaneOf(t, p, MemosOf(t, p));
      && (Failing(s, t, Left) ==> forall x :: x in d <==>
        exists i :: 0 <= i < |t.failures| && Contributes(CtxOf(s, t), t.failures[i], Left, x))
      && (!Failing(s, t, Left) ==> forall x :: x in d <==>
        exists i :: 0 <= i < |t.memos| && ShowsMemo(t.phase, t.memos[i], Left, x))
  {
    var p := FailuresOf(s, t);
    var d := LeftPaneOf(t, p, MemosOf(t, p));
    if Failing(s, t, Left) {
      forall x
        ensures x in d <==> exists i :: 0 <= i < |t.failures| && Contributes(CtxOf(s, t), t.failures[i], Left, x)
      {
        LeftPaneFailureCode(s, t, x);
      }
    } else {
      forall x
        ensures x in d <==> exists i :: 0 <= i < |t.memos| && ShowsMemo(t.phase, t.memos[i], Left, x)
      {
        LeftPaneMemoCode(s, t, x);
      }
    }
  }

  lemma LeftPaneOrdered(s: State, t: Inputs)
    ensures var p := FailuresOf(s, t); var d := LeftPaneOf(t, p, MemosOf(t, p));
      && (Failing(s, t, Left) ==> OrderedBy(Order(t.failures, Left), d, Undefined))
      && (!Failing(s, t, Left) ==> OrderedBy(Order(t.memos, Left), d, Undefined))
  {
    FailingIff(s, t, Left);
  }

  lemma RightPaneCode(s: State, t: Inputs, x: Code)
    ensures var p := FailuresOf(s, t);
      x in RightPaneOf(t, p, MemosOf(t, p)) <==>
        (exists i :: 0 <= i < |t.failures| && Contributes(CtxOf(s, t), t.failures[i], Right, x))
        || (exists i :: 0 <= i < |t.memos| && Survives(t.phase, t.memos, i, x))
  {
    var p := FailuresOf(s, t);
    var m := MemosOf(t, p);
    var mr := MapOrder(m.right, Order(t.memos, Right), Undefined);
    var fr := MapOrder(p.codesRight, Order(t.failures, Right), Undefined);
    var d := RightPaneOf(t, p, m);
    assert multiset(d) == multiset(mr) + multiset(fr);
    FailurePassCodes(CtxOf(s, t), t.failures, StartOf(s, t), Right, x);
    MemoPassRight(t.phase, p.codesLeft != [], t.memos, MemoAcc([], [], p.sfail), x);
    assert x in d <==> x in multiset(d);
    assert x in mr <==> x in multiset(mr);
    assert x in fr <==> x in multiset(fr);
  }

  /**
    Code `x` is on the lower-right pane exactly when a live, unrecalled right
    failure selects it or a shown right memo selects it and no later shown
    right memo lists it; without right failure lines the pane is in catalog
    order with any `Undefined` last.
   */
  lemma RightPane(s: State, t: Inputs)
    requires t.fwc1Normal || t.fwc2Normal
    ensures forall x :: x in Tick(s, t).display.right <==>
      (exists i :: 0 <= i < |t.failures| && Contributes(CtxOf(s, t), t.failures[i], Right, x))
      || (exists i :: 0 <= i < |t.memos| && Survives(t.phase, t.memos, i, x))
    ensures !Failing(s, t, Right) ==> OrderedBy(Order(t.memos, Right), Tick(s, t).display.right, Undefined)
  {
    var p := FailuresOf(s, t);
    assert Tick(s, t).display.right == RightPaneOf(t, p, MemosOf(t, p));
    RightPaneCodes(s, t);
    if !Failing(s, t, Right) {
      RightPaneMemosOnly(s, t);
    }
  }

  lemma RightPaneMemosOnly(s: State, t: Inputs)
    requires !Failing(s, t, Right)
    ensures var p := FailuresOf(s, t); var m := MemosOf(t, p);
      RightPaneOf(t, p, m) == MapOrder(m.right, Order(t.memos, Right), Undefined)
  {
    var p := FailuresOf(s, t);
    FailingIff(s, t, Right);
    assert |MapOrder(p.codesRight, Order(t.failures, Right), Undefined)| == 0;
  }

  lemma RightPaneCodes(s: State, t: Inputs)
    ensures var p := FailuresOf(s, t);
      forall x :: x in RightPaneOf(t, p, MemosOf(t, p)) <==>
        (exists i :: 0 <= i < |t.failures| && Contributes(CtxOf(s, t), t.failures[i], Right, x))
        || (exists i :: 0 <= i < |t.memos| && Survives(t.phase, t.memos, i, x))
  {
    var p := FailuresOf(s, t);
    forall x
      ensures x in RightPaneOf(t, p, MemosOf(t, p)) <==>
        (exists i :: 0 <= i < |t.failures| && Contributes(CtxOf(s, t), t.failures[i], Right, x))
        || (exists i :: 0 <= i < |t.memos| && Survives(t.phase, t.memos, i, x))
    {
      RightPaneCode(s, t, x);
    }
  }

  /**
    With right-side failure lines present, the special memo lines come first,
    then the failure lines in catalog order (any `Undefined` last among
    them), then the other memo lines.
   */
  lemma RightPaneLayout(s: State, t: Inputs)
    requires t.fwc1Normal || t.fwc2Normal
    requires Failing(s, t, Right)
    ensures exists a, f, b ::
      && Tick(s, t).display.right == a + f + b && f != []
      && (forall k :: 0 <= k < |a| ==> a[k] in SpecialLines)
      && (forall k :: 0 <= k < |b| ==> b[k] !in SpecialLines)
      && OrderedBy(Order(t.failures, Right), f, Undefined)
      && multiset(f) == multiset(FailuresOf(s, t).codesRight)
  {
    var p := FailuresOf(s, t);
    var m := MemosOf(t, p);
    var mr := MapOrder(m.right, Order(t.memos, Right), Undefined);
    var fr := MapOrder(p.codesRight, Order(t.failures, Right), Undefined);
    assert Tick(s, t).display.right == RightPaneOf(t, p, m);
    RightPaneSplit(s, t);
    var a := Keep(mr, SpecialLines);
    var b := Without(mr, SpecialLines);
    assert forall k :: 0 <= k < |a| ==> a[k] in SpecialLines;
    assert forall k :: 0 <= k < |b| ==> b[k] !in SpecialLines;
    assert OrderedBy(Order(t.failures, Right), fr, Undefined);
  }

  lemma RightPaneSplit(s: State, t: Inputs)
    requires Failing(s, t, Right)
    ensures var p := FailuresOf(s, t); var m := MemosOf(t, p);
      var mr := MapOrder(m.right, Order(t.memos, Right), Undefined);
      var fr := MapOrder(p.codesRight, Order(t.failures, Right), Undefined);
      && RightPaneOf(t, p, m) == Keep(mr, SpecialLines) + fr + Without(mr, SpecialLines)
      && fr != [] && multiset(fr) == multiset(p.codesRight)
  {
    var p := FailuresOf(s, t);
    var fr := MapOrder(p.codesRight, Order(t.failures, Right), Undefined);
    FailingIff(s, t, Right);
    assert fr != [] by {
      assert p.codesRight[0] in multiset(fr);
    }
  }

  /** An ordered sequence holding `Undefined` ends with it. */
  lemma UndefinedLast(order: seq<Code>, d: seq<Code>)
    requires OrderedBy(order, d, Undefined) && Undefined in d
    ensures d[|d| - 1] == Undefined
  {
    var k :| 0 <= k < |d| && d[k] == Undefined;
    if k < |d| - 1 {
      assert d[k] == Undefined;
    }
  }

  /**
    With every selection in range and no catalog line `Undefined`, neither
    pane shows `Undefined`, so each pane is sorted by catalog position.
   */
  lemma SelectableShowsNoUndefined(s: State, t: Inputs)
    requires t.fwc1Normal || t.fwc2Normal
    requires Selectable(t.failures) && Selectable(t.memos) && CodesDefined(t.failures) && CodesDefined(t.memos)
    ensures Undefined !in Tick(s, t).display.left && Undefined !in Tick(s, t).display.right
    ensures Failing(s, t, Left) ==> SortedBy(Order(t.failures, Left), Tick(s, t).display.left)
    ensures !Failing(s, t, Left) ==> SortedBy(Order(t.memos, Left), Tick(s, t).display.left)
    ensures !Failing(s, t, Right) ==> SortedBy(Order(t.memos, Right), Tick(s, t).display.right)
  {
    var o := Tick(s, t);
    LeftPane(s, t);
    RightPane(s, t);
    forall i | 0 <= i < |t.failures|
      ensures Undefined !in Picked(t.failures[i])
    {
      PickedLines(t.failures[i]);
    }
    forall i | 0 <= i < |t.memos|
      ensures Undefined !in Picked(t.memos[i])
    {
      PickedLines(t.memos[i]);
    }
    assert Undefined !in o.display.left;
    assert Undefined !in o.display.right;
    OrderedBySorted(Order(t.failures, Left), o.display.left, Undefined);
    OrderedBySorted(Order(t.memos, Left), o.display.left, Undefined);
    OrderedBySorted(Order(t.memos, Right), o.display.right, Undefined);
  }

  /**
    A live, unrecalled left failure with a line index outside its lines
    puts `Undefined` on the lower-left pane, which the sort moves to the end.
   */
  lemma UndefinedOnLeft(s: State, t: Inputs, i: int)
    requires t.fwc1Normal || t.fwc2Normal
    requires 0 <= i < |t.failures| && Live(t.failures[i], t.phase) && t.failures[i].side == Left
    requires t.failures[i].key !in s.recall
    requires Undefined !in t.failures[i].lines && !ValidSelection(t.failures[i])
    ensures Failing(s, t, Left)
    ensures var d := Tick(s, t).display.left; Undefined in d && d[|d| - 1] == Undefined
  {
    var e := t.failures[i];
    assert e.key !in RecallOf(s, t);
    PickedLines(e);
    assert Contributes(CtxOf(s, t), e, Left, Undefined);
    assert Failing(s, t, Left);
    LeftPaneUndefinedLast(s, t);
  }

  lemma LeftPaneUndefinedLast(s: State, t: Inputs)
    requires t.fwc1Normal || t.fwc2Normal
    requires Failing(s, t, Left)
    requires exists i :: 0 <= i < |t.failures| && Contributes(CtxOf(s, t), t.failures[i], Left, Undefined)
    ensures var d := Tick(s, t).display.left; Undefined in d && d[|d| - 1] == Undefined
  {
    LeftPane(s, t);
    UndefinedLast(Order(t.failures, Left), Tick(s, t).display.left);
  }

  /**
    A shown right memo with a line index outside its lines puts `Undefined`
    on the lower-right pane when no memo line is `Undefined`: no later memo
    can clear it. Without right failure lines it is the pane's last line.
   */
  lemma UndefinedOnRight(s: State, t: Inputs, i: int)
    requires t.fwc1Normal || t.fwc2Normal
    requires 0 <= i < |t.memos| && Shown(t.memos[i], t.phase) && t.memos[i].side == Right
    requires CodesDefined(t.memos) && !ValidSelection(t.memos[i])
    ensures var d := Tick(s, t).display.right;
      Undefined in d && (!Failing(s, t, Right) ==> d[|d| - 1] == Undefined)
  {
    PickedLines(t.memos[i]);
    assert Survives(t.phase, t.memos, i, Undefined);
    RightPane(s, t);
    if !Failing(s, t, Right) {
      UndefinedLast(Order(t.memos, Right), Tick(s, t).display.right);
    }
  }

  /**
    What is displayed does not depend on the tracked-failure lists, the
    latches or the previous page request: only the recall list and the
    inputs matter.
   */
  lemma DisplayIgnoresTracking(s1: State, s2: State, t: Inputs)
    requires s1.recall == s2.recall
    ensures Tick(s1, t).display == Tick(s2, t).display
  {
    if t.fwc1Normal || t.fwc2Normal {
      var p1 := FailuresOf(s1, t);
      var p2 := FailuresOf(s2, t);
      FailurePassIgnoresTracking(CtxOf(s1, t), CtxOf(s2, t), t.failures, StartOf(s1, t), StartOf(s2, t));
      MemoPassIgnoresPage(t.phase, p1.codesLeft != [], t.memos, MemoAcc([], [], p1.sfail), MemoAcc([], [], p2.sfail));
    }
  }

  /**
    The tracked left failures after a tick: empty when no failure entry was
    dropped (the shared-array effect), otherwise the previous ones that were
    not dropped followed by the new live left failures. The current-failure
    list holds exactly the live left failures.
   */
  lemma TrackedAfter(s: State, t: Inputs, k: Key)
    requires t.fwc1Normal || t.fwc2Normal
    ensures k in Tick(s, t).next.failuresLeft <==>
      LastDropped(t.failures, t.phase).Some? && (
        (k in s.failuresLeft && forall i :: 0 <= i < |t.failures| && t.failures[i].key == k ==> Live(t.failures[i], t.phase))
        || (exists i :: 0 <= i < |t.failures| && Live(t.failures[i], t.phase) && t.failures[i].side == Left
              && IsNew(CtxOf(s, t), t.failures[i]) && t.failures[i].key == k))
    ensures k in Tick(s, t).next.allCurrent <==>
      exists i :: 0 <= i < |t.failures| && Live(t.failures[i], t.phase) && t.failures[i].side == Left && t.failures[i].key == k
  {
    var p := FailuresOf(s, t);
    assert Tick(s, t).next.failuresLeft == TrackedOf(s, t, p);
    assert Tick(s, t).next.allCurrent == p.current;
    FailurePassKeys(CtxOf(s, t), t.failures, StartOf(s, t), k);
  }

  /** A failure whose condition has gone, or which its phase inhibits, is no longer tracked or current. */
  lemma ResolvedForgotten(s: State, t: Inputs, i: int)
    requires DistinctKeys(t.failures)
    requires t.fwc1Normal || t.fwc2Normal
    requires 0 <= i < |t.failures| && !Live(t.failures[i], t.phase)
    ensures t.failures[i].key !in Tick(s, t).next.failuresLeft
    ensures t.failures[i].key !in Tick(s, t).next.allCurrent
  {
    var k := t.failures[i].key;
    TrackedAfter(s, t, k);
    assert forall j :: 0 <= j < |t.failures| && t.failures[j].key == k ==> j == i;
  }

  /**
    Nothing in the tick adds to the recall list, so a computer that starts
    with an empty recall list keeps it empty, and then a live left failure is
    new exactly when it is not tracked.
   */
  lemma RecallStaysEmpty(s: State, t: Inputs)
    requires s.recall == []
    ensures Tick(s, t).next.recall == []
    ensures forall i :: 0 <= i < |t.failures| && t.failures[i].side == Left ==>
      (IsNew(CtxOf(s, t), t.failures[i]) <==> t.failures[i].key !in s.failuresLeft)
  {
  }
}

=== FILE: arinc429.dfy ===
/**
  The part of an ARINC 429 data word that the flight-warning computer
  reads: its sign/status matrix and its discrete bits.

  The word class itself is not part of this model. Its two behaviours the
  computer relies on are taken as follows: a word reports failure warning
  exactly when its status matrix says so, and `getBitValueOr(bit, d)` gives
  the bit when the word is in normal operation and `d` otherwise.
 */
module Arinc429 {

  datatype Ssm = FailureWarning | NoComputedData | FunctionalTest | NormalOperation

  /** A discrete word: its status and the set of bit numbers that are 1. */
  datatype Word = Word(ssm: Ssm, bits: set<nat>)

  predicate IsNormalOperation(w: Word)
  {
    w.ssm == NormalOperation
  }

  predicate IsFailureWarning(w: Word)
  {
    w.ssm == FailureWarning
  }

  /** `getBitValueOr`: the bit of a valid word, the default for any other. */
  function GetBitValueOr(w: Word, bit: nat, default: bool): (r: bool)
    ensures IsNormalOperation(w) ==> (r <==> bit in w.bits)
    ensures !IsNormalOperation(w) ==> r == default
  {
    if IsNormalOperation(w) then bit in w.bits else default
  }

  /**
    The default is read exactly for words not in normal operation, and the
    bits of such a word are never read.
   */
  lemma DefaultOnlyForInvalidWords(w: Word, bit: nat, default: bool)
    ensures GetBitValueOr(w, bit, true) == GetBitValueOr(w, bit, false) <==> IsNormalOperation(w)
    ensures !IsNormalOperation(w) ==> GetBitValueOr(w, bit, default) == GetBitValueOr(w.(bits := {}), bit, default)
    ensures IsNormalOperation(w) ==> GetBitValueOr(w.(bits := w.bits + {bit}), bit, default)
  {
  }
}

=== FILE: catalog.dfy ===
/**
  The two message catalogs, `ewdMessageFailures` (source lines 939-1283)
  and `ewdMessageMemos` (lines 1285-1747), evaluated on one tick.

  Failure keys are integer-like, so the catalog is iterated in ascending key
  order; memo keys have leading zeros, so that catalog is iterated in the
  order it is written. Both sequences below follow those orders.

  Two entries have a written and a corrected form, and the catalogs take
  the one of the given build: ENG 2 FIRE (`Eng2FireAsWritten`, one line code
  short) and AUTOBRAKE (`AutobrakeAsWritten`, index -1 when disarmed). Every
  other entry selects only lines it has.
 */
module Catalog {
  import opened Codes
  import opened Messages
  import opened FlightControls
  import opened Conditions
  import opened Readings

  /** The values computed earlier in the tick that the catalogs read. */
  datatype Derived = Derived(
    engines: Engines,
    dualFault: bool,
    /** Phase, bus power and the previous tick's hydraulic confirm outputs. */
    status: Status,
    toConfigFail: bool,
    /** T.O. CONFIG NORMAL as the memos read it: this tick's write if any, taken to be visible to the same tick's reads. */
    toConfigNormal: bool,
    /** Cabin ready as the memos read it: this tick's write if any, taken to be visible to the same tick's reads. */
    cabinReady: bool,
    /** NO SMOKING and PORTABLE DEVICES activity. */
    smoking: (bool, bool)
  )

  function When(c: bool, i: int): Option<int>
  {
    if c then Some(i) else None
  }

  /** The selection of an entry whose k-th line index is k, present when `conds[k]` holds. */
  function Flags(conds: seq<bool>): (sel: seq<Option<int>>)
    ensures |sel| == |conds|
    ensures forall k :: 0 <= k < |sel| ==> sel[k] == When(conds[k], k)
  {
    seq(|conds|, k requires 0 <= k < |conds| => When(conds[k], k))
  }

  lemma FlagsValid(key: Key, n: nat, conds: seq<bool>, e: Entry)
    requires e.lines == Lines(key, n) && e.select == Flags(conds) && |conds| <= n
    ensures ValidSelection(e)
  {
  }

  function Failure(key: Key, inhibit: seq<int>, active: bool, select: seq<Option<int>>, n: nat, severity: int, page: int): Entry
  {
    Entry(key, Left, severity, page, inhibit, Lines(key, n), active, select, false)
  }

  function Memo(key: Key, side: Side, inhibit: seq<int>, active: bool, select: seq<Option<int>>, n: nat, memoInhibit: bool): Entry
  {
    Entry(key, side, 0, -1, inhibit, Lines(key, n), active, select, memoInhibit)
  }

  // ---------------------------------------------------------------------
  // Failures

  /** The overspeed warning for flaps position `index` above `limit` knots. */
  function Overspeed(key: Key, index: int, limit: int, r: Snapshot): (e: Entry)
    ensures ValidSelection(e)
  {
    var e := Failure(key, [2, 3, 4, 8, 9, 10], r.aero.flapsIndex == index && r.aero.airspeedToNearest2 > limit, Flags([true, true]), 2, 3, -1);
    FlagsValid(key, 2, [true, true], e);
    e
  }

  function DualEngine(r: Snapshot, d: Derived): (e: Entry)
    ensures ValidSelection(e)
  {
    Failure(7700027, [], d.dualFault,
      [Some(0), When(!(r.power.emergencyGeneratorPotential > 0), 1), Some(5),
       When(!(r.power.apuMasterSwitch == 1 || r.power.apuAvail == 1) && r.aero.radioAltitude < 2500, 6),
       When(r.eng.n1AboveIdle1 || r.eng.n1AboveIdle2, 7), When(r.aero.fac1Failed == 1, 8), Some(9), Some(10), Some(11)],
      12, 3, 0)
  }

  /**
    The line conditions of an engine fire procedure, for the engine whose own
    throttle, fuel valve, fire button and agents are given.
   */
  function FireConds(onGround: bool, parkBrake: bool, throttle: int, otherThrottle: int, valve: bool, fireButton: bool,
                     agent1Discharge: int, agent1: bool, agent2Discharge: int, agent2: bool): (c: seq<bool>)
    ensures |c| == 17
  {
    [true,
     throttle != 0 && !onGround,
     (throttle != 0 || otherThrottle != 0) && onGround,
     !parkBrake && onGround,
     !parkBrake && onGround,
     onGround,
     onGround,
     valve,
     !fireButton,
     !onGround && agent1Discharge == 1 && !agent1,
     agent1Discharge == 2 && !onGround && !agent1,
     !agent1 && onGround,
     !agent2 && onGround,
     onGround,
     !onGround,
     agent2Discharge == 1 && !agent2,
     (agent2Discharge == 1 && !agent2) || (agent2Discharge == 2 && !agent2)]
  }

  function Eng1FireConds(r: Snapshot): (c: seq<bool>)
    ensures |c| == 17
  {
    FireConds(r.gear.onGround, r.gear.parkBrake, r.eng.throttle1, r.eng.throttle2, r.eng.valve1, r.fire.fireButton1,
      r.nodes.agent1Eng1Discharge, r.fire.eng1Agent1, r.nodes.agent2Eng1Discharge, r.fire.eng1Agent2)
  }

  function Eng2FireConds(r: Snapshot): (c: seq<bool>)
    ensures |c| == 17
  {
    FireConds(r.gear.onGround, r.gear.parkBrake, r.eng.throttle2, r.eng.throttle1, r.eng.valve2, r.fire.fireButton2,
      r.nodes.agent1Eng2Discharge, r.fire.eng2Agent1, r.nodes.agent2Eng2Discharge, r.fire.eng2Agent2)
  }

  function EngineFire(key: Key, lines: nat, active: bool, conds: seq<bool>): Entry
  {
    Failure(key, [], active, Flags(conds), lines, 3, 0)
  }

  function Eng1Fire(r: Snapshot): (e: Entry)
    ensures ValidSelection(e)
  {
    var e := EngineFire(2600010, 17, r.fire.eng1FireTest || r.fire.fireButton1, Eng1FireConds(r));
    FlagsValid(2600010, 17, Eng1FireConds(r), e);
    e
  }

  /**
    ENG 2 FIRE as written: the corrected entry without its seventeenth line
    code. Its selection stays in range except while the second agent is due
    (discharge node output 1 or 2) and not yet discharged, when it names
    index 16.
   */
  function Eng2FireAsWritten(r: Snapshot): (e: Entry)
    ensures e == Eng2Fire(r).(lines := Eng2Fire(r).lines[..16])
    ensures e.key == 2600020 && e.inhibit == [] && (e.active <==> r.fire.eng2FireTest || r.fire.fireButton2)
    ensures ValidSelection(e) <==> !((r.nodes.agent2Eng2Discharge == 1 || r.nodes.agent2Eng2Discharge == 2) && !r.fire.eng2Agent2)
  {
    var e := EngineFire(2600020, 16, r.fire.eng2FireTest || r.fire.fireButton2, Eng2FireConds(r));
    assert Lines(2600020, 16) == Lines(2600020, 17)[..16];
    assert e.select[16] == When(Eng2FireConds(r)[16], 16);
    e
  }

  /** ENG 2 FIRE with its seventeenth line code, as ENG 1 FIRE has. */
  function Eng2Fire(r: Snapshot): (e: Entry)
    ensures ValidSelection(e)
  {
    var e := EngineFire(2600020, 17, r.fire.eng2FireTest || r.fire.fireButton2, Eng2FireConds(r));
    FlagsValid(2600020, 17, Eng2FireConds(r), e);
    e
  }

  function ApuFire(r: Snapshot): (e: Entry)
    ensures ValidSelection(e)
  {
    var conds := [true, !r.fire.fireButtonApu, r.nodes.agentApuDischarge == 1 && !r.fire.apuAgent, r.nodes.agentApuDischarge == 2 && !r.fire.apuAgent, r.power.apuMasterSwitch == 1];
    var e := Failure(2600030, [], r.fire.apuFireTest || r.fire.fireButtonApu, Flags(conds), 5, 3, 6);
    FlagsValid(2600030, 5, conds, e);
    e
  }

  /** SLATS (`angle` = slats) or FLAPS NOT IN T.O. CONFIG. */
  function NotInTakeoffConfig(key: Key, angleOut: bool, r: Snapshot, d: Derived): (e: Entry)
    ensures ValidSelection(e)
  {
    var active := (r.aero.flapsEntered && r.aero.flapsHandle != r.aero.flapsEnteredValue && r.phase in [1, 2, 9] && d.toConfigFail)
      || (r.phase in [3, 4, 5] && angleOut);
    var e := Failure(key, [5, 6, 7, 8], active, Flags([true, true]), 2, 3, -1);
    FlagsValid(key, 2, [true, true], e);
    e
  }

  /** A flight-control failure with a fixed selection pattern. */
  function Control(key: Key, inhibit: seq<int>, active: bool, conds: seq<bool>, severity: int, page: int): (e: Entry)
    ensures ValidSelection(e)
  {
    var e := Failure(key, inhibit, active, Flags(conds), |conds|, severity, page);
    FlagsValid(key, |conds|, conds, e);
    e
  }

  function Elac1(r: Snapshot): Entry
  {
    var l := Elac1Lines123(r.fcdc1, r.fcdc2);
    Control(2700110, [3, 4, 5, 7, 8], r.nodes.elac1FaultConfirmed, [true, l, l, l, false, false], 2, 10)
  }

  function Elac2(r: Snapshot): Entry
  {
    var l := Elac2Lines123(r.fcdc1, r.fcdc2);
    Control(2700120, [3, 4, 5, 7, 8], r.nodes.elac2FaultConfirmed, [true, l, l, l, false, false], 2, 10)
  }

  function Sec1(r: Snapshot, d: Derived): Entry
  {
    var l := SecLines123(r.fcdc1, r.fcdc2, 27);
    Control(2700210, [3, 4, 5], Sec1Fault(r.fcdc1, r.fcdc2, d.status), [true, l, l, l, false], 2, 10)
  }

  function Sec2(r: Snapshot, d: Derived): Entry
  {
    var l := SecLines123(r.fcdc1, r.fcdc2, 28);
    Control(2700220, [3, 4, 5], Sec2Fault(r.fcdc1, r.fcdc2, d.status), [true, l, l, l], 2, 10)
  }

  function Sec3(r: Snapshot, d: Derived): Entry
  {
    var l := SecLines123(r.fcdc1, r.fcdc2, 29);
    Control(2700230, [3, 4, 5], Sec3Fault(r.fcdc1, r.fcdc2, d.status), [true, l, l, l], 2, 10)
  }

  function Fcdc12(r: Snapshot): Entry
  {
    Control(2700360, [3, 4, 5, 7], FcdcFaultsOf(r.fcdc1, r.fcdc2, r.power.dc2Powered).both, [true, true], 2, 10)
  }

  function Direct(r: Snapshot): Entry
  {
    Control(2700365, [4, 5, 7, 8], DirectLaw(r.fcdc1, r.fcdc2, r.phase), [true, true, true, true, true, false, true, true], 2, 10)
  }

  function Altn2(r: Snapshot): Entry
  {
    Control(2700375, [4, 5, 7, 8], r.nodes.altn2LawConfirmed, [true, true, false, true, true, false, true], 2, 10)
  }

  function Altn1(r: Snapshot): Entry
  {
    Control(2700390, [4, 5, 7, 8], r.nodes.altn1LawConfirmed, [true, true, false, true, true, false, true], 2, 10)
  }

  function LrElev(r: Snapshot): Entry
  {
    Control(2700400, [], LrElevFault(r.fcdc1, r.fcdc2, r.phase), [true, true, true, false, false, true], 3, 10)
  }

  function Fcdc1(r: Snapshot): Entry
  {
    Control(2700555, [3, 4, 5, 7, 8], FcdcFaultsOf(r.fcdc1, r.fcdc2, r.power.dc2Powered).first, [true], 1, -1)
  }

  function Fcdc2(r: Snapshot): Entry
  {
    Control(2700557, [3, 4, 5, 7, 8], FcdcFaultsOf(r.fcdc1, r.fcdc2, r.power.dc2Powered).second, [true], 1, -1)
  }

  function ParkBrakeOn(r: Snapshot): Entry
  {
    Control(3200050, [1, 4, 5, 6, 7, 8, 9, 10], r.phase == 3 && r.gear.parkBrake, [true], 3, -1)
  }

  /** Keys strictly ascending: the order integer-like keys are iterated in, and pairwise distinct. */
  predicate Ascending(cat: seq<Entry>)
  {
    forall i :: 0 <= i < |cat| - 1 ==> cat[i].key < cat[i + 1].key
  }

  lemma {:induction false} AscendingDistinct(cat: seq<Entry>)
    requires Ascending(cat)
    ensures DistinctKeys(cat)
    ensures forall i, j :: 0 <= i < j < |cat| ==> cat[i].key < cat[j].key
  {
    forall i, j | 0 <= i < j < |cat|
      ensures cat[i].key < cat[j].key
    {
      var k := i;
      while k < j
        invariant i <= k <= j
        invariant cat[i].key <= cat[k].key
        invariant k > i ==> cat[i].key < cat[k].key
      {
        k := k + 1;
      }
    }
  }

  /** The fixed part of a failure: left side, never memo-inhibited, a level from 1 to 3, no `Undefined` line code. */
  predicate FailureShape(e: Entry)
  {
    e.side == Left && !e.memoInhibit && 1 <= e.severity <= 3 && Undefined !in e.lines
  }

  /** What the arbitration needs of the failure catalog, and what the source's catalog has. */
  predicate FailureCatalog(cat: seq<Entry>)
  {
    && CodesDefined(cat)
    && Ascending(cat)
    && forall i :: 0 <= i < |cat| ==> cat[i].side == Left && !cat[i].memoInhibit && 1 <= cat[i].severity <= 3
  }

  /** A failure of failure shape that selects only lines it has unless its key is `key`. */
  predicate FailureEntry(e: Entry, key: Key)
  {
    FailureShape(e) && (e.key != key ==> ValidSelection(e))
  }

  lemma FailureList5(e0: Entry, e1: Entry, e2: Entry, e3: Entry, e4: Entry, key: Key)
    requires FailureEntry(e0, key) && FailureEntry(e1, key) && FailureEntry(e2, key) && FailureEntry(e3, key) && FailureEntry(e4, key)
    requires e0.key < e1.key < e2.key < e3.key < e4.key
    ensures FailureCatalog([e0, e1, e2, e3, e4]) && SelectableExcept([e0, e1, e2, e3, e4], key)
    ensures ValidSelection(e0) && ValidSelection(e1) && ValidSelection(e2) && ValidSelection(e3) && ValidSelection(e4) ==>
      Selectable([e0, e1, e2, e3, e4])
  {
  }

  lemma FailureList6(e0: Entry, e1: Entry, e2: Entry, e3: Entry, e4: Entry, e5: Entry, key: Key)
    requires FailureEntry(e0, key) && FailureEntry(e1, key) && FailureEntry(e2, key) && FailureEntry(e3, key)
    requires FailureEntry(e4, key) && FailureEntry(e5, key)
    requires key < e0.key < e1.key < e2.key < e3.key < e4.key < e5.key
    ensures FailureCatalog([e0, e1, e2, e3, e4, e5]) && Selectable([e0, e1, e2, e3, e4, e5])
  {
  }

  lemma FailureList7(e0: Entry, e1: Entry, e2: Entry, e3: Entry, e4: Entry, e5: Entry, e6: Entry, key: Key)
    requires FailureEntry(e0, key) && FailureEntry(e1, key) && FailureEntry(e2, key) && FailureEntry(e3, key)
    requires FailureEntry(e4, key) && FailureEntry(e5, key) && FailureEntry(e6, key)
    requires key < e0.key < e1.key < e2.key < e3.key < e4.key < e5.key < e6.key
    ensures FailureCatalog([e0, e1, e2, e3, e4, e5, e6]) && Selectable([e0, e1, e2, e3, e4, e5, e6])
  {
  }

  lemma FailureCatalogConcat(a: seq<Entry>, b: seq<Entry>)
    requires FailureCatalog(a) && FailureCatalog(b)
    requires a != [] && b != [] && a[|a| - 1].key < b[0].key
    ensures FailureCatalog(a + b)
  {
    var c := a + b;
    assert forall i :: 0 <= i < |a| ==> c[i] == a[i];
    assert forall i :: |a| <= i < |c| ==> c[i] == b[i - |a|];
  }

  /** Every entry except the one with key `key` selects only lines it has. */
  predicate SelectableExcept(cat: seq<Entry>, key: Key)
  {
    forall i :: 0 <= i < |cat| && cat[i].key != key ==> ValidSelection(cat[i])
  }

  lemma SelectableConcat(a: seq<Entry>, b: seq<Entry>, key: Key)
    ensures SelectableExcept(a, key) && SelectableExcept(b, key) ==> SelectableExcept(a + b, key)
    ensures Selectable(a) && Selectable(b) ==> Selectable(a + b)
  {
    var c := a + b;
    assert forall i :: 0 <= i < |a| ==> c[i] == a[i];
    assert forall i :: |a| <= i < |c| ==> c[i] == b[i - |a|];
  }

  /** ENG 2 FIRE of the given build. */
  function Eng2FireOf(b: Build, r: Snapshot): Entry
  {
    if b == AsWritten then Eng2FireAsWritten(r) else Eng2Fire(r)
  }

  function FireFailures(b: Build, r: Snapshot, d: Derived): (cat: seq<Entry>)
    ensures FailureCatalog(cat) && |cat| == 5
    ensures cat[0].key == 2600010 && cat[4].key == 2700090
    ensures cat[1] == Eng2FireOf(b, r)
    ensures SelectableExcept(cat, 2600020)
    ensures b == Corrected ==> Selectable(cat)
  {
    var e0 := Eng1Fire(r);
    var e1 := Eng2FireOf(b, r);
    var e2 := ApuFire(r);
    var e3 := NotInTakeoffConfig(2700085, r.aero.slatsAngle <= 17 || r.aero.slatsAngle >= 25, r, d);
    var e4 := NotInTakeoffConfig(2700090, r.aero.flapsAngle <= 2 || r.aero.flapsAngle >= 24, r, d);
    FailureList5(e0, e1, e2, e3, e4, 2600020);
    [e0, e1, e2, e3, e4]
  }

  function ComputerFailures(r: Snapshot, d: Derived): (cat: seq<Entry>)
    ensures FailureCatalog(cat) && |cat| == 6
    ensures cat[0].key == 2700110 && cat[5].key == 2700360
    ensures cat[5] == Fcdc12(r)
    ensures Selectable(cat)
  {
    FailureList6(Elac1(r), Elac2(r), Sec1(r, d), Sec2(r, d), Sec3(r, d), Fcdc12(r), 2600020);
    [Elac1(r), Elac2(r), Sec1(r, d), Sec2(r, d), Sec3(r, d), Fcdc12(r)]
  }

  function LawFailures(r: Snapshot): (cat: seq<Entry>)
    ensures FailureCatalog(cat) && |cat| == 7
    ensures cat[0].key == 2700365 && cat[6].key == 3200050
    ensures cat[4] == Fcdc1(r) && cat[5] == Fcdc2(r)
    ensures Selectable(cat)
  {
    FailureList7(Direct(r), Altn2(r), Altn1(r), LrElev(r), Fcdc1(r), Fcdc2(r), ParkBrakeOn(r), 2600020);
    [Direct(r), Altn2(r), Altn1(r), LrElev(r), Fcdc1(r), Fcdc2(r), ParkBrakeOn(r)]
  }

  function SpeedFailures(r: Snapshot, d: Derived): (cat: seq<Entry>)
    ensures FailureCatalog(cat) && |cat| == 6
    ensures cat[0].key == 3400210 && cat[5].key == 7700027
    ensures cat[0] == Overspeed(3400210, 5, 181, r) && cat[1] == Overspeed(3400220, 4, 189, r)
    ensures cat[5] == DualEngine(r, d)
    ensures Selectable(cat)
  {
    FailureList6(Overspeed(3400210, 5, 181, r), Overspeed(3400220, 4, 189, r), Overspeed(3400230, 3, 203, r),
      Overspeed(3400235, 2, 219, r), Overspeed(3400240, 1, 233, r), DualEngine(r, d), 2600020);
    [Overspeed(3400210, 5, 181, r), Overspeed(3400220, 4, 189, r), Overspeed(3400230, 3, 203, r),
     Overspeed(3400235, 2, 219, r), Overspeed(3400240, 1, 233, r),
     DualEngine(r, d)]
  }

  /**
    The failure catalog on this tick, in iteration order. Every entry but
    ENG 2 FIRE selects only lines it has, and in the corrected build ENG 2
    FIRE does too.
   */
  function Failures(b: Build, r: Snapshot, d: Derived): (cat: seq<Entry>)
    ensures |cat| == 24
    ensures FailureCatalog(cat)
    ensures SelectableExcept(cat, 2600020)
    ensures b == Corrected ==> Selectable(cat)
  {
    var f := FireFailures(b, r, d);
    var c := ComputerFailures(r, d);
    var l := LawFailures(r);
    var sp := SpeedFailures(r, d);
    FailureGroups(f, c, l, sp, 2600020);
    f + c + l + sp
  }

  /** Four failure groups in ascending key order make one failure catalog. */
  lemma FailureGroups(f: seq<Entry>, c: seq<Entry>, l: seq<Entry>, sp: seq<Entry>, key: Key)
    requires FailureCatalog(f) && FailureCatalog(c) && FailureCatalog(l) && FailureCatalog(sp)
    requires f != [] && c != [] && l != [] && sp != []
    requires f[|f| - 1].key < c[0].key && c[|c| - 1].key < l[0].key && l[|l| - 1].key < sp[0].key
    requires SelectableExcept(f, key) && Selectable(c) && Selectable(l) && Selectable(sp)
    ensures FailureCatalog(f + c + l + sp) && SelectableExcept(f + c + l + sp, key)
    ensures Selectable(f) ==> Selectable(f + c + l + sp)
  {
    FailureCatalogConcat(f, c);
    FailureCatalogConcat(f + c, l);
    assert (f + c)[|f + c| - 1] == c[|c| - 1];
    FailureCatalogConcat(f + c + l, sp);
    assert (f + c + l)[|f + c + l| - 1] == l[|l| - 1];
    SelectableConcat(f, c, key);
    SelectableConcat(f + c, l, key);
    SelectableConcat(f + c + l, sp, key);
  }

  /** Dictionary keys are unique, as an object literal's must be. */
  lemma FailureKeysDistinct(b: Build, r: Snapshot, d: Derived)
    ensures DistinctKeys(Failures(b, r, d))
  {
    AscendingDistinct(Failures(b, r, d));
  }

  /** Where ENG 2 FIRE, the three FCDC failures, the FULL and CONF 3 overspeed warnings and DUAL ENGINE FAILURE sit in the catalog. */
  lemma FailurePositions(b: Build, r: Snapshot, d: Derived)
    ensures var cat := Failures(b, r, d);
      && cat[1] == Eng2FireOf(b, r)
      && cat[10] == Fcdc12(r) && cat[15] == Fcdc1(r) && cat[16] == Fcdc2(r)
      && cat[18] == Overspeed(3400210, 5, 181, r) && cat[19] == Overspeed(3400220, 4, 189, r) && cat[23] == DualEngine(r, d)
  {
    var f := FireFailures(b, r, d);
    var c := ComputerFailures(r, d);
    var l := LawFailures(r);
    var sp := SpeedFailures(r, d);
    assert Failures(b, r, d) == f + c + l + sp;
    GroupIndex(f, c, l, sp);
  }

  lemma GroupIndex(f: seq<Entry>, c: seq<Entry>, l: seq<Entry>, sp: seq<Entry>)
    requires |f| == 5 && |c| == 6 && |l| == 7 && |sp| == 6
    ensures var cat := f + c + l + sp;
      cat[1] == f[1] && cat[10] == c[5] && cat[15] == l[4] && cat[16] == l[5] && cat[18] == sp[0] && cat[19] == sp[1] && cat[23] == sp[5]
  {
  }

  /**
    At most one flaps position is selected, so at most one overspeed warning
    is active: some failure entry is always inactive, and so dropped by the
    reconciliation.
   */
  lemma SomeFailureAlwaysDropped(b: Build, r: Snapshot, d: Derived)
    ensures exists i :: 0 <= i < |Failures(b, r, d)| && !Live(Failures(b, r, d)[i], r.phase)
  {
    FailurePositions(b, r, d);
    var cat := Failures(b, r, d);
    if Live(cat[18], r.phase) {
      assert !Live(cat[19], r.phase);
    }
  }

  /** FCDC 1+2 FAULT, FCDC 1 FAULT and FCDC 2 FAULT are never active together. */
  lemma FcdcFailuresExclusive(b: Build, r: Snapshot, d: Derived)
    ensures var cat := Failures(b, r, d);
      !(cat[10].active && cat[15].active) && !(cat[10].active && cat[16].active) && !(cat[15].active && cat[16].active)
  {
    FailurePositions(b, r, d);
  }

  /**
    ENG 2 FIRE as written selects its seventeenth line once the second agent
    is due and not yet discharged, but has only sixteen line codes; with the
    seventeenth code the same line is DISCH AGENT 2, code 260002017.
   */
  lemma Eng2FireAsWrittenOverruns(r: Snapshot)
    requires r.nodes.agent2Eng2Discharge == 1 && !r.fire.eng2Agent2
    ensures !ValidSelection(Eng2FireAsWritten(r))
    ensures Eng2Fire(r).select[16] == Some(16) && Eng2Fire(r).lines[16] == LineCode(2600020, 17)
  {
    var e := Eng2FireAsWritten(r);
    assert e.select[16] == Some(16);
  }

  // ---------------------------------------------------------------------
  // Memos

  /** A memo's fixed part: no level, no system page, on `side`, memo-inhibited exactly when `inhibited`, no line code `Undefined`. */
  predicate MemoShape(e: Entry, side: Side, inhibited: bool)
  {
    e.severity == 0 && e.sysPage == -1 && e.side == side && e.memoInhibit == inhibited && Undefined !in e.lines
  }

  /** A memo on the left pane, memo-inhibited exactly when `inhibited`, selecting only lines it has. */
  predicate LeftMemo(e: Entry, inhibited: bool)
  {
    ValidSelection(e) && MemoShape(e, Left, inhibited)
  }

  /** A memo on the right pane, never memo-inhibited, selecting only lines it has. */
  predicate RightMemo(e: Entry)
  {
    ValidSelection(e) && MemoShape(e, Right, false)
  }

  /** T.O. MEMO and LDG MEMO themselves are never memo-inhibited; every other left memo is while either shows. */
  predicate MemoEntry(e: Entry, inhibited: bool)
  {
    MemoShape(e, Right, false) || MemoShape(e, Left, inhibited) || ((e.key == 10 || e.key == 20) && MemoShape(e, Left, false))
  }

  predicate MemoCatalog(cat: seq<Entry>, inhibited: bool)
  {
    forall i :: 0 <= i < |cat| ==> MemoEntry(cat[i], inhibited)
  }

  /** A memo catalog entry that selects only lines it has. */
  predicate MemoOk(e: Entry, inhibited: bool)
  {
    ValidSelection(e) && MemoEntry(e, inhibited)
  }

  lemma MemoList5(e0: Entry, e1: Entry, e2: Entry, e3: Entry, e4: Entry, inhibited: bool)
    requires MemoOk(e0, inhibited) && MemoOk(e1, inhibited) && MemoOk(e2, inhibited) && MemoOk(e3, inhibited) && MemoOk(e4, inhibited)
    ensures MemoCatalog([e0, e1, e2, e3, e4], inhibited) && Selectable([e0, e1, e2, e3, e4])
  {
  }

  /** Three memo groups make one memo catalog. */
  lemma MemoGroups(a: seq<Entry>, c: seq<Entry>, p: seq<Entry>, key: Key, inhibited: bool)
    requires MemoCatalog(a, inhibited) && MemoCatalog(c, inhibited) && MemoCatalog(p, inhibited)
    requires SelectableExcept(a, key) && SelectableExcept(c, key) && SelectableExcept(p, key)
    ensures MemoCatalog(a + c + p, inhibited) && SelectableExcept(a + c + p, key)
    ensures Selectable(a) && Selectable(c) && Selectable(p) ==> Selectable(a + c + p)
  {
    MemoCatalogConcat(a, c, inhibited);
    MemoCatalogConcat(a + c, p, inhibited);
    SelectableConcat(a, c, key);
    SelectableConcat(a + c, p, key);
  }

  lemma MemoCatalogConcat(a: seq<Entry>, b: seq<Entry>, inhibited: bool)
    requires MemoCatalog(a, inhibited) && MemoCatalog(b, inhibited)
    ensures MemoCatalog(a + b, inhibited)
  {
    var c := a + b;
    assert forall i :: 0 <= i < |a| ==> c[i] == a[i];
    assert forall i :: |a| <= i < |c| ==> c[i] == b[i - |a|];
  }

  /** What the memo catalog promises the arbitration: no `Undefined` line code, no warning level, no system page. */
  lemma MemoCatalogShape(cat: seq<Entry>, inhibited: bool)
    requires MemoCatalog(cat, inhibited)
    ensures CodesDefined(cat)
    ensures forall i :: 0 <= i < |cat| ==> cat[i].severity == 0 && cat[i].sysPage == -1
    ensures forall i :: 0 <= i < |cat| && cat[i].memoInhibit ==> cat[i].side == Left && inhibited
    ensures forall i :: 0 <= i < |cat| && cat[i].side == Left && cat[i].key != 10 && cat[i].key != 20 ==> cat[i].memoInhibit == inhibited
  {
  }

  /** A one-line left memo. */
  function LeftSingle(key: Key, active: bool, inhibited: bool): (e: Entry)
    ensures LeftMemo(e, inhibited)
  {
    Memo(key, Left, [], active, [Some(0)], 1, inhibited)
  }

  /** A one-line right memo. */
  function RightSingle(key: Key, inhibit: seq<int>, active: bool): (e: Entry)
    ensures RightMemo(e)
  {
    Memo(key, Right, inhibit, active, [Some(0)], 1, false)
  }

  /** A two-line right memo showing its second line when `second` holds, its first otherwise. */
  function Pair(key: Key, inhibit: seq<int>, active: bool, second: bool): (e: Entry)
    ensures RightMemo(e)
    ensures e.select == [Some(if second then 1 else 0)]
  {
    Memo(key, Right, inhibit, active, [Some(if second then 1 else 0)], 2, false)
  }

  /**
    Item `k` of a memo checklist: lines 2k and 2k+1 are the item to do and
    the item done, and the selection shows the second once `done` holds.
   */
  function Item(k: nat, done: bool): (o: Option<int>)
    ensures o.Some? && o.value == if done then 2 * k + 1 else 2 * k
  {
    Some(if done then 2 * k + 1 else 2 * k)
  }

  /** The selection of a checklist, one item per element of `done`. */
  function Checklist(done: seq<bool>): (sel: seq<Option<int>>)
    ensures |sel| == |done|
    ensures forall k :: 0 <= k < |sel| ==> sel[k] == Item(k, done[k])
  {
    seq(|done|, k requires 0 <= k < |done| => Item(k, done[k]))
  }

  lemma ChecklistValid(key: Key, n: nat, done: seq<bool>, rest: seq<Option<int>>, e: Entry)
    requires e.lines == Lines(key, n) && e.select == Checklist(done) + rest && 2 * |done| <= n
    requires forall k :: 0 <= k < |rest| && rest[k].Some? ==> 0 <= rest[k].value < n
    ensures ValidSelection(e)
  {
    var c := Checklist(done);
    forall k | 0 <= k < |e.select| && e.select[k].Some?
      ensures 0 <= e.select[k].value < |e.lines|
    {
      if k < |c| {
        assert e.select[k] == c[k];
      } else {
        assert e.select[k] == rest[k - |c|];
      }
    }
  }

  /** Line `l` of an entry is on the display exactly when some selection index names it. */
  lemma PickedLine(key: Key, n: nat, e: Entry, l: nat)
    requires e.lines == Lines(key, n) && ValidSelection(e)
    requires ValidKey(key) && n < Pow10(LineWidth) && 1 <= l <= n
    ensures LineCode(key, l) in Picked(e) <==> exists j :: 0 <= j < |e.select| && e.select[j] == Some(l - 1)
  {
    var x := LineCode(key, l);
    assert e.lines[l - 1] == x;
    if x in Picked(e) {
      var j :| 0 <= j < |e.select| && e.select[j].Some? && LineAt(e.lines, e.select[j].value) == x;
      LinesDistinct(key, n);
      assert e.select[j] == Some(l - 1);
    }
    if exists j :: 0 <= j < |e.select| && e.select[j] == Some(l - 1) {
      var j :| 0 <= j < |e.select| && e.select[j] == Some(l - 1);
      assert Selects(e.lines, e.select, x);
    }
  }

  /**
    Within a checklist followed by selections above it, item `k`'s done
    line 2k+2 (index 2k+1) is selected exactly when the item is done, and
    its to-do line 2k+1 (index 2k) exactly when it is not.
   */
  lemma ChecklistSelects(done: seq<bool>, rest: seq<Option<int>>, sel: seq<Option<int>>, k: nat, l: nat)
    requires sel == Checklist(done) + rest
    requires forall j :: 0 <= j < |rest| && rest[j].Some? ==> 2 * |done| <= rest[j].value
    requires k < |done| && (l == 2 * k + 1 || l == 2 * k + 2)
    ensures (exists j :: 0 <= j < |sel| && sel[j] == Some(l - 1)) <==> (l == 2 * k + 2 <==> done[k])
  {
    var c := Checklist(done);
    assert sel[k] == c[k];
    if exists j :: 0 <= j < |sel| && sel[j] == Some(l - 1) {
      var j :| 0 <= j < |sel| && sel[j] == Some(l - 1);
      if j < |c| {
        assert sel[j] == c[j];
      }
    }
  }

  /**
    A checklist shows item `k`'s done line (line 2k+2) exactly when the item
    is done and its to-do line (2k+1) exactly when it is not, provided the
    selections after the checklist stay below its lines.
   */
  lemma ChecklistLine(key: Key, n: nat, done: seq<bool>, rest: seq<Option<int>>, e: Entry, k: nat, l: nat)
    requires e.lines == Lines(key, n) && e.select == Checklist(done) + rest && 2 * |done| <= n
    requires ValidKey(key) && n < Pow10(LineWidth)
    requires forall j :: 0 <= j < |rest| && rest[j].Some? ==> 2 * |done| <= rest[j].value < n
    requires k < |done| && (l == 2 * k + 1 || l == 2 * k + 2)
    ensures ValidSelection(e)
    ensures LineCode(key, l) in Picked(e) <==> (l == 2 * k + 2 <==> done[k])
  {
    ChecklistValid(key, n, done, rest, e);
    ChecklistSelects(done, rest, e.select, k, l);
    PickedLine(key, n, e, l);
  }

  /** The T.O. MEMO checklist items, done or not: autobrake MAX, signs on, cabin ready, spoilers armed, flaps T.O., T.O. CONFIG NORMAL. */
  function TakeoffItems(r: Snapshot, d: Derived): (done: seq<bool>)
    ensures |done| == 6
  {
    [r.memo.autoBrake == 3, r.memo.noSmoking == 1 && r.memo.seatBelts, d.cabinReady,
      SpoilersArmed(r.fcdc1, r.fcdc2), 1 <= r.aero.flapsHandle <= 3, d.toConfigNormal]
  }

  function TakeoffMemo(r: Snapshot, d: Derived): (e: Entry)
    ensures LeftMemo(e, false) && e.key == 10
  {
    var done := TakeoffItems(r, d);
    var e := Memo(10, Left, [1, 3, 6, 10], r.memo.toMemo, Checklist(done), 12, false);
    ChecklistValid(10, 12, done, [], e);
    e
  }

  /** The LDG MEMO checklist items, done or not: gear down, signs on, cabin ready, spoilers armed. */
  function LandingItems(r: Snapshot, d: Derived): (done: seq<bool>)
    ensures |done| == 4
  {
    [r.memo.gearHandleDown, r.memo.noSmokingSwitch != 2 && r.memo.seatBelts, d.cabinReady, SpoilersArmed(r.fcdc1, r.fcdc2)]
  }

  /**
    The LDG MEMO flaps lines: FULL or CONF 3 according to the GPWS FLAPS 3
    setting, to do or done.
   */
  function LandingFlaps(r: Snapshot): (sel: seq<Option<int>>)
    ensures |sel| == 4
  {
    var f3 := r.panel.gpwsFlaps3;
    [When(!f3 && r.aero.flapsHandle != 4, 8), When(!f3 && r.aero.flapsHandle == 4, 9),
      When(f3 && r.aero.flapsHandle != 3, 10), When(f3 && r.aero.flapsHandle == 3, 11)]
  }

  function LandingMemo(r: Snapshot, d: Derived): (e: Entry)
    ensures LeftMemo(e, false) && e.key == 20
  {
    var done := LandingItems(r, d);
    var e := Memo(20, Left, [1, 2, 3, 4, 5, 9, 10], r.memo.ldgMemo, Checklist(done) + LandingFlaps(r), 12, false);
    ChecklistValid(20, 12, done, LandingFlaps(r), e);
    e
  }

  /** T.O. MEMO shows item `k`'s done line exactly when the item is done, and its to-do line otherwise (source lines 1289-1298). */
  lemma TakeoffMemoItems(r: Snapshot, d: Derived, k: nat)
    requires k < 6
    ensures LineCode(10, 2 * k + 2) in Picked(TakeoffMemo(r, d)) <==> TakeoffItems(r, d)[k]
    ensures LineCode(10, 2 * k + 1) in Picked(TakeoffMemo(r, d)) <==> !TakeoffItems(r, d)[k]
  {
    ChecklistLine(10, 12, TakeoffItems(r, d), [], TakeoffMemo(r, d), k, 2 * k + 2);
    ChecklistLine(10, 12, TakeoffItems(r, d), [], TakeoffMemo(r, d), k, 2 * k + 1);
  }

  /** LDG MEMO shows item `k`'s done line exactly when the item is done, and its to-do line otherwise (source lines 1308-1312). */
  lemma LandingMemoItems(r: Snapshot, d: Derived, k: nat)
    requires k < 4
    ensures LineCode(20, 2 * k + 2) in Picked(LandingMemo(r, d)) <==> LandingItems(r, d)[k]
    ensures LineCode(20, 2 * k + 1) in Picked(LandingMemo(r, d)) <==> !LandingItems(r, d)[k]
  {
    ChecklistLine(20, 12, LandingItems(r, d), LandingFlaps(r), LandingMemo(r, d), k, 2 * k + 2);
    ChecklistLine(20, 12, LandingItems(r, d), LandingFlaps(r), LandingMemo(r, d), k, 2 * k + 1);
  }

  /**
    LDG MEMO shows exactly one flaps line: FLAPS FULL (to do or done) unless
    GPWS FLAPS 3 is set, FLAPS CONF 3 otherwise (source lines 1313-1316).
   */
  lemma LandingMemoFlaps(r: Snapshot, d: Derived)
    ensures var p := Picked(LandingMemo(r, d));
      && (LineCode(20, 9) in p <==> !r.panel.gpwsFlaps3 && r.aero.flapsHandle != 4)
      && (LineCode(20, 10) in p <==> !r.panel.gpwsFlaps3 && r.aero.flapsHandle == 4)
      && (LineCode(20, 11) in p <==> r.panel.gpwsFlaps3 && r.aero.flapsHandle != 3)
      && (LineCode(20, 12) in p <==> r.panel.gpwsFlaps3 && r.aero.flapsHandle == 3)
  {
    var e := LandingMemo(r, d);
    var c := Checklist(LandingItems(r, d));
    var flaps := LandingFlaps(r);
    assert e.select == c + flaps;
    assert forall j :: 0 <= j < 4 ==> e.select[j] == c[j];
    forall j, v | 0 <= j < |e.select| && 8 <= v < 12 && e.select[j] == Some(v)
      ensures j == v - 4
    {
    }
    PickedLine(20, 12, e, 9);
    PickedLine(20, 12, e, 10);
    PickedLine(20, 12, e, 11);
    PickedLine(20, 12, e, 12);
    assert e.select[4] == flaps[0] && e.select[5] == flaps[1] && e.select[6] == flaps[2] && e.select[7] == flaps[3];
  }

  /** An IR IN ALIGN memo showing the given row of its eight. */
  function Alignment(key: Key, active: bool, row: int, inhibited: bool): (e: Entry)
    requires 0 <= row < 8
    ensures LeftMemo(e, inhibited)
  {
    Memo(key, Left, [3, 4, 5, 6, 7, 8, 9, 10], active, [Some(row)], 8, inhibited)
  }

  predicate AdirusAligning(r: Snapshot)
  {
    r.adirs.adiru1State == 1 && r.adirs.adiru2State == 1 && r.adirs.adiru3State == 1
  }

  /**
    T.O. MEMO, LDG MEMO, REFUELING (shown while the refuel panel reads 100 or
    the user started refuelling) and the two IR IN ALIGN memos: the first
    from four minutes of alignment left on, the second below, each showing
    the row for the time left and whether an engine runs.
   */
  function ChecklistMemos(r: Snapshot, d: Derived): (cat: seq<Entry>)
    ensures MemoCatalog(cat, r.memo.toMemo || r.memo.ldgMemo) && Selectable(cat) && |cat| == 5
    ensures cat[0] == TakeoffMemo(r, d) && cat[1] == LandingMemo(r, d)
    ensures cat[2] == LeftSingle(50, r.memo.refuelPanel == 100 || r.memo.refuelStartedByUser, r.memo.toMemo || r.memo.ldgMemo)
    ensures cat[3] == Alignment(30, r.adirs.alignTime >= 240 && AdirusAligning(r),
      AdirsMessage1(r.adirs.alignTime, EngineRunning(d.engines)), r.memo.toMemo || r.memo.ldgMemo)
    ensures cat[4] == Alignment(31, 0 < r.adirs.alignTime < 240 && AdirusAligning(r),
      AdirsMessage2(r.adirs.alignTime, EngineRunning(d.engines)), r.memo.toMemo || r.memo.ldgMemo)
  {
    var inhibited := r.memo.toMemo || r.memo.ldgMemo;
    var running := EngineRunning(d.engines);
    var e0 := TakeoffMemo(r, d);
    var e1 := LandingMemo(r, d);
    var e2 := LeftSingle(50, r.memo.refuelPanel == 100 || r.memo.refuelStartedByUser, inhibited);
    var e3 := Alignment(30, r.adirs.alignTime >= 240 && AdirusAligning(r), AdirsMessage1(r.adirs.alignTime, running), inhibited);
    var e4 := Alignment(31, 0 < r.adirs.alignTime < 240 && AdirusAligning(r), AdirsMessage2(r.adirs.alignTime, running), inhibited);
    MemoList5(e0, e1, e2, e3, e4, inhibited);
    [e0, e1, e2, e3, e4]
  }

  function CabinMemos(r: Snapshot, d: Derived): (cat: seq<Entry>)
    ensures MemoCatalog(cat, r.memo.toMemo || r.memo.ldgMemo) && Selectable(cat) && |cat| == 7
  {
    var inhibited := r.memo.toMemo || r.memo.ldgMemo;
    [LeftSingle(55, SpoilersArmed(r.fcdc1, r.fcdc2), inhibited),
     LeftSingle(80, r.memo.seatBelts, inhibited),
     LeftSingle(90, d.smoking.0, inhibited),
     LeftSingle(95, d.smoking.1, inhibited),
     LeftSingle(100, !r.gear.onGround && r.memo.strobe == 2, inhibited),
     LeftSingle(105, r.panel.leftOuterInnerValve || r.panel.rightOuterInnerValve, inhibited),
     LeftSingle(305, r.panel.gpwsFlapMode, inhibited)]
  }

  function GroundMemos(r: Snapshot, d: Derived): (cat: seq<Entry>)
    ensures MemoCatalog(cat, r.memo.toMemo || r.memo.ldgMemo) && Selectable(cat) && |cat| == 5
  {
    var e0 := RightSingle(140, [], r.nodes.showTakeoffInhibit);
    var e1 := RightSingle(150, [], r.nodes.showLandingInhibit);
    var e2 := Pair(60, [1, 8, 9, 10], SpeedBrakeCommand(r.fcdc1, r.fcdc2), r.phase != 6 && r.phase != 7);
    var e3 := RightSingle(200, [3, 4, 5, 6, 7, 8], r.gear.parkBrake);
    var e4 := Pair(40, [], r.gear.nwSteeringDisc, d.engines.state1 > 0 || d.engines.state2 > 0);
    MemoList5(e0, e1, e2, e3, e4, r.memo.toMemo || r.memo.ldgMemo);
    [e0, e1, e2, e3, e4]
  }

  function PowerMemos(r: Snapshot): (cat: seq<Entry>)
    ensures MemoCatalog(cat, r.memo.toMemo || r.memo.ldgMemo) && Selectable(cat) && |cat| == 3
  {
    [RightSingle(160, [], r.hyd.ptuOn),
     Pair(210, [], r.hyd.ratStowPosition > 0, r.phase == 1 || r.phase == 2),
     RightSingle(70, [], r.eng.engineModeSelector == 2)]
  }

  function SurveillanceMemos(r: Snapshot, d: Derived): (cat: seq<Entry>)
    ensures MemoCatalog(cat, r.memo.toMemo || r.memo.ldgMemo) && Selectable(cat) && |cat| == 5
  {
    var armed := r.phase in [3, 4, 5, 7, 8, 9] || d.toConfigNormal;
    var e0 := Pair(540, [1, 10], !r.panel.predictiveWindshearOn, armed);
    var e1 := Pair(545, [1, 10], r.panel.gpwsTerrOff, armed);
    var e2 := RightSingle(320, [], r.panel.tcasSensitivity == 1 && r.phase != 6);
    var e3 := RightSingle(325, [], r.panel.tcasSensitivity == 1 && r.phase == 6);
    var e4 := RightSingle(552, [3, 4, 5, 7, 8], r.panel.companyMessages > 0);
    MemoList5(e0, e1, e2, e3, e4, r.memo.toMemo || r.memo.ldgMemo);
    [e0, e1, e2, e3, e4]
  }

  function AntiIceApuMemos(r: Snapshot): (cat: seq<Entry>)
    ensures MemoCatalog(cat, r.memo.toMemo || r.memo.ldgMemo) && Selectable(cat) && |cat| == 6
  {
    [RightSingle(260, [3, 4, 5, 7, 8], r.eng.eng1AntiIce || r.eng.eng2AntiIce),
     RightSingle(270, [], r.panel.wingAntiIce),
     RightSingle(170, [], r.power.apuAvail == 1 && !r.power.apuBleedValveOpen),
     RightSingle(180, [], r.power.apuAvail == 1 && r.power.apuBleedValveOpen),
     RightSingle(190, [], !r.gear.landingLight2Retracted || !r.gear.landingLight3Retracted),
     RightSingle(220, [], r.gear.brakeFan)]
  }

  /**
    AUTOBRAKE as written: line `mode - 1`, shown in flight phases 7 and 8.
    It is the corrected entry while a mode from 1 to 4 is armed; otherwise
    the index is outside the four lines and the entry shows `Undefined`.
   */
  function AutobrakeAsWritten(r: Snapshot): (e: Entry)
    ensures MemoShape(e, Right, false) && e.key == 22
    ensures e.inhibit == [] && (e.active <==> r.phase == 7 || r.phase == 8)
    ensures ValidSelection(e) <==> 1 <= r.memo.autoBrake <= 4
    ensures 1 <= r.memo.autoBrake <= 4 ==> e == Autobrake(r)
    ensures !(1 <= r.memo.autoBrake <= 4) ==> Picked(e) == [Undefined]
  {
    var e := Memo(22, Right, [], r.phase == 7 || r.phase == 8, [Some(r.memo.autoBrake - 1)], 4, false);
    assert Picked(e) == [LineAt(e.lines, r.memo.autoBrake - 1)] + PickFrom(e.lines, []);
    e
  }

  /** AUTOBRAKE showing the line of the armed mode, modes 1 to 4, and nothing while disarmed; shown in flight phases 7 and 8. */
  function Autobrake(r: Snapshot): (e: Entry)
    ensures RightMemo(e) && e.key == 22
    ensures e.active <==> r.phase == 7 || r.phase == 8
    ensures Picked(e) == [] <==> !(1 <= r.memo.autoBrake <= 4)
    ensures 1 <= r.memo.autoBrake <= 4 ==> Picked(e) == [LineCode(22, r.memo.autoBrake)]
  {
    var armed := 1 <= r.memo.autoBrake <= 4;
    var e := Memo(22, Right, [], r.phase == 7 || r.phase == 8, [When(armed, r.memo.autoBrake - 1)], 4, false);
    assert Picked(e) == (if armed then [e.lines[r.memo.autoBrake - 1]] else []) + PickFrom(e.lines, []);
    e
  }

  /** AUTOBRAKE of the given build. */
  function AutobrakeOf(b: Build, r: Snapshot): Entry
  {
    if b == AsWritten then AutobrakeAsWritten(r) else Autobrake(r)
  }

  /**
    AUTOBRAKE as written selects line -1 while it is shown with the autobrake
    disarmed (mode 0); the corrected entry selects no line then, and agrees
    with the written one whenever a mode is armed.
   */
  lemma AutobrakeAsWrittenOverruns(r: Snapshot)
    ensures r.memo.autoBrake == 0 ==>
      !ValidSelection(AutobrakeAsWritten(r)) && Picked(AutobrakeAsWritten(r)) == [Undefined] && Picked(Autobrake(r)) == []
    ensures 1 <= r.memo.autoBrake <= 4 ==> Autobrake(r) == AutobrakeAsWritten(r)
  {
  }

  function CockpitMemos(b: Build, r: Snapshot): (cat: seq<Entry>)
    ensures MemoCatalog(cat, r.memo.toMemo || r.memo.ldgMemo) && |cat| == 3
    ensures cat[0] == RightSingle(290, [], r.panel.ndXfrKnob != 1 || r.panel.dmcKnob != 1)
    ensures cat[1] == RightSingle(300, [], r.panel.gpwsFlaps3)
    ensures cat[2] == AutobrakeOf(b, r)
    ensures SelectableExcept(cat, 22)
    ensures b == Corrected ==> Selectable(cat)
  {
    [RightSingle(290, [], r.panel.ndXfrKnob != 1 || r.panel.dmcKnob != 1),
     RightSingle(300, [], r.panel.gpwsFlaps3),
     AutobrakeOf(b, r)]
  }

  function PanelMemos(r: Snapshot): (cat: seq<Entry>)
    ensures MemoCatalog(cat, r.memo.toMemo || r.memo.ldgMemo) && Selectable(cat) && |cat| == 4
  {
    [RightSingle(230, [], r.panel.manLandingElevation > 0),
     Pair(250, [], r.panel.fuelCrossFeed, r.phase == 3 || r.phase == 4 || r.phase == 5),
     RightSingle(680, [], r.panel.attKnob != 1 || r.panel.airKnob != 1),
     RightSingle(567, [3, 4, 5, 7, 8], r.panel.vhf3Frequency != 0)]
  }

  /**
    The memo catalog on this tick, in iteration order: left memos first, then
    right memos. Every memo but AUTOBRAKE selects only lines it has, and in
    the corrected build AUTOBRAKE does too.
   */
  function Memos(b: Build, r: Snapshot, d: Derived): (cat: seq<Entry>)
    ensures |cat| == 38
    ensures MemoCatalog(cat, r.memo.toMemo || r.memo.ldgMemo)
    ensures SelectableExcept(cat, 22)
    ensures b == Corrected ==> Selectable(cat)
  {
    var left := MemoLeft(r, d);
    var right1 := MemoRight1(r, d);
    var right2 := MemoRight2(b, r);
    MemoGroups(left, right1, right2, 22, r.memo.toMemo || r.memo.ldgMemo);
    left + right1 + right2
  }

  /** The left memos, in iteration order. */
  function MemoLeft(r: Snapshot, d: Derived): (cat: seq<Entry>)
    ensures |cat| == 12 && MemoCatalog(cat, r.memo.toMemo || r.memo.ldgMemo) && Selectable(cat)
    ensures SelectableExcept(cat, 22)
  {
    MemoCatalogConcat(ChecklistMemos(r, d), CabinMemos(r, d), r.memo.toMemo || r.memo.ldgMemo);
    SelectableConcat(ChecklistMemos(r, d), CabinMemos(r, d), 22);
    ChecklistMemos(r, d) + CabinMemos(r, d)
  }

  /** The ground, power and surveillance right memos, in iteration order. */
  function MemoRight1(r: Snapshot, d: Derived): (cat: seq<Entry>)
    ensures |cat| == 13 && MemoCatalog(cat, r.memo.toMemo || r.memo.ldgMemo) && Selectable(cat)
    ensures SelectableExcept(cat, 22)
  {
    var g := GroundMemos(r, d);
    var p := PowerMemos(r);
    var v := SurveillanceMemos(r, d);
    MemoGroups(g, p, v, 22, r.memo.toMemo || r.memo.ldgMemo);
    g + p + v
  }

  /** The anti-ice and APU, cockpit and panel right memos, in iteration order; AUTOBRAKE is the ninth. */
  function MemoRight2(b: Build, r: Snapshot): (cat: seq<Entry>)
    ensures |cat| == 13 && MemoCatalog(cat, r.memo.toMemo || r.memo.ldgMemo)
    ensures cat[8] == AutobrakeOf(b, r)
    ensures SelectableExcept(cat, 22)
    ensures b == Corrected ==> Selectable(cat)
  {
    var a := AntiIceApuMemos(r);
    var c := CockpitMemos(b, r);
    var p := PanelMemos(r);
    MemoGroups(a, c, p, 22, r.memo.toMemo || r.memo.ldgMemo);
    assert (a + c + p)[8] == c[2];
    a + c + p
  }

  /** Where AUTOBRAKE sits in the memo catalog. */
  lemma AutobrakePosition(b: Build, r: Snapshot, d: Derived)
    ensures Memos(b, r, d)[33] == AutobrakeOf(b, r)
  {
    var left := MemoLeft(r, d);
    var right1 := MemoRight1(r, d);
    var right2 := MemoRight2(b, r);
    assert Memos(b, r, d) == left + right1 + right2;
    ThirdGroupIndex(left, right1, right2, 8);
  }

  lemma ThirdGroupIndex(a: seq<Entry>, c: seq<Entry>, p: seq<Entry>, i: int)
    requires 0 <= i < |p|
    ensures (a + c + p)[|a| + |c| + i] == p[i]
  {
  }
}

=== FILE: codes.dfy ===
/**
  Message line codes of the flight-warning display.

  Every line code of both message catalogs is the entry's seven-digit key
  followed by the one-based line number written on two digits: line 3 of
  entry 2600010 (ENG 1 FIRE) is "260001003", line 1 of memo 0000140
  (T.O. INHIBIT) is "000014001". The catalogs are therefore generated with
  `Lines`, and `CodeRoundTrip` shows that a code names its entry and line
  uniquely.
 */
module Codes {

  type Code = string

  /** Number of digits of an entry key in a line code. */
  const KeyWidth: nat := 7

  /** Number of digits of a line number in a line code. */
  const LineWidth: nat := 2

  function Pow10(w: nat): (r: nat)
    ensures r >= 1
  {
    if w == 0 then 1 else 10 * Pow10(w - 1)
  }

  function DigitChar(d: nat): char
    requires d < 10
  {
    (48 + d) as char
  }

  function DigitValue(c: char): nat
  {
    if '0' <= c <= '9' then c as int - 48 else 0
  }

  predicate IsDigit(c: char)
  {
    '0' <= c <= '9'
  }

  /** Zero-padded decimal text of `n` on exactly `width` characters. */
  function Digits(n: nat, width: nat): (s: string)
    ensures |s| == width
    ensures forall i :: 0 <= i < |s| ==> IsDigit(s[i])
  {
    if width == 0 then "" else Digits(n / 10, width - 1) + [DigitChar(n % 10)]
  }

  /** The number a string of decimal digits denotes. */
  function Value(s: string): nat
  {
    if s == [] then 0 else 10 * Value(s[..|s| - 1]) + DigitValue(s[|s| - 1])
  }

  lemma {:induction false} ValueOfDigits(n: nat, width: nat)
    requires n < Pow10(width)
    ensures Value(Digits(n, width)) == n
  {
    if width > 0 {
      assert n / 10 < Pow10(width - 1);
      ValueOfDigits(n / 10, width - 1);
      var s := Digits(n, width);
      assert s[..|s| - 1] == Digits(n / 10, width - 1);
      assert DigitValue(s[|s| - 1]) == n % 10;
    }
  }

  /** The line code of line `line` (one-based) of the entry with key `key`. */
  function LineCode(key: nat, line: nat): (c: Code)
    ensures |c| == KeyWidth + LineWidth
  {
    Digits(key, KeyWidth) + Digits(line, LineWidth)
  }

  /** The entry key a line code belongs to. */
  function KeyOf(c: Code): nat
    requires |c| == KeyWidth + LineWidth
  {
    Value(c[..KeyWidth])
  }

  /** The one-based line number a line code stands for. */
  function LineOf(c: Code): nat
    requires |c| == KeyWidth + LineWidth
  {
    Value(c[KeyWidth..])
  }

  predicate ValidKey(key: nat)
  {
    key < Pow10(KeyWidth)
  }

  predicate ValidLine(line: nat)
  {
    line < Pow10(LineWidth)
  }

  /** Decoding a code gives back the key and line it was built from. */
  lemma CodeRoundTrip(key: nat, line: nat)
    requires ValidKey(key) && ValidLine(line)
    ensures KeyOf(LineCode(key, line)) == key
    ensures LineOf(LineCode(key, line)) == line
  {
    var c := LineCode(key, line);
    assert c[..KeyWidth] == Digits(key, KeyWidth);
    assert c[KeyWidth..] == Digits(line, LineWidth);
    ValueOfDigits(key, KeyWidth);
    ValueOfDigits(line, LineWidth);
  }

  /** Two codes are equal exactly when they name the same entry and line. */
  lemma CodeInjective(k1: nat, l1: nat, k2: nat, l2: nat)
    requires ValidKey(k1) && ValidLine(l1) && ValidKey(k2) && ValidLine(l2)
    ensures LineCode(k1, l1) == LineCode(k2, l2) <==> k1 == k2 && l1 == l2
  {
    CodeRoundTrip(k1, l1);
    CodeRoundTrip(k2, l2);
  }

  /**
    What `codesToReturn[i]` reads for an index outside an entry's line list:
    JavaScript's `undefined`, which the display arrays then carry like a
    code. The empty string stands for it, and no line code is empty
    (`Lines`).
   */
  const Undefined: Code := ""

  /** The `n` line codes of entry `key`, lines 1 to `n`, in order; none of them is `Undefined`. */
  function Lines(key: nat, n: nat): (ls: seq<Code>)
    ensures |ls| == n
    ensures Undefined !in ls
  {
    var ls := seq(n, i requires 0 <= i < n => LineCode(key, i + 1));
    assert forall i :: 0 <= i < n ==> |ls[i]| == KeyWidth + LineWidth;
    ls
  }

  /** Codes of one entry are pairwise distinct. */
  lemma LinesDistinct(key: nat, n: nat)
    requires ValidKey(key) && n < Pow10(LineWidth)
    ensures forall i, j :: 0 <= i < j < n ==> Lines(key, n)[i] != Lines(key, n)[j]
  {
    forall i, j | 0 <= i < j < n
      ensures Lines(key, n)[i] != Lines(key, n)[j]
    {
      CodeInjective(key, i + 1, key, j + 1);
    }
  }

  /** Codes of two entries with different keys never coincide. */
  lemma LinesDisjoint(k1: nat, n1: nat, k2: nat, n2: nat)
    requires ValidKey(k1) && ValidKey(k2) && k1 != k2
    requires n1 < Pow10(LineWidth) && n2 < Pow10(LineWidth)
    ensures forall i, j :: 0 <= i < n1 && 0 <= j < n2 ==> Lines(k1, n1)[i] != Lines(k2, n2)[j]
  {
    forall i, j | 0 <= i < n1 && 0 <= j < n2
      ensures Lines(k1, n1)[i] != Lines(k2, n2)[j]
    {
      CodeInjective(k1, i + 1, k2, j + 1);
    }
  }
}

=== FILE: conditions.dfy ===
/**
  The smaller conditions the flight-warning computer derives on every tick
  before arbitration: the IR alignment rows, the engine states and the dual
  engine failure, the T.O. CONFIG test, and the portable-devices setting.
 */
module Conditions {
  import opened Messages

  /**
    Which program a tick runs. `AsWritten` is the code as it stands;
    `Corrected` mends its four defects as evidently intended: the engine
    states (`EngineStates`), the portable-devices test (`NoSmokingMemos`),
    ENG 2 FIRE's seventeenth line code and AUTOBRAKE's disarmed selection
    (in the catalog module).
   */
  datatype Build = AsWritten | Corrected

  // ---------------------------------------------------------------------
  // IR alignment rows (source lines 381-443)

  /** `Math.ceil(t / 60)` for a whole number of seconds. */
  function CeilDiv60(t: int): (m: int)
    ensures 60 * (m - 1) < t <= 60 * m
  {
    -((-t) / 60)
  }

  function Bit(b: bool): int
  {
    if b then 1 else 0
  }

  /**
    The row of IR IN ALIGN (memo 0000030) while at least four minutes of
    alignment remain: one pair of rows per remaining minute from 7 down to
    4, the second row of a pair when an engine is running.
   */
  function AdirsMessage1(t: int, engineRunning: bool): (r: int)
    ensures 0 <= r <= 7
    ensures var m := CeilDiv60(t);
      r == if m >= 7 then Bit(engineRunning) else if m >= 4 then 2 * (7 - m) + Bit(engineRunning) else 0
  {
    var m := CeilDiv60(t);
    if m >= 7 && !engineRunning then 0
    else if m >= 7 && engineRunning then 1
    else if m == 6 && !engineRunning then 2
    else if m == 6 && engineRunning then 3
    else if m == 5 && !engineRunning then 4
    else if m == 5 && engineRunning then 5
    else if m == 4 && !engineRunning then 6
    else if m == 4 && engineRunning then 7
    else 0
  }

  /** The row of IR IN ALIGN (memo 0000031) for the last three minutes. */
  function AdirsMessage2(t: int, engineRunning: bool): (r: int)
    ensures 0 <= r <= 5
    ensures var m := CeilDiv60(t);
      r == if 1 <= m <= 3 then 2 * (3 - m) + Bit(engineRunning) else 0
  {
    var m := CeilDiv60(t);
    if m == 3 && !engineRunning then 0
    else if m == 3 && engineRunning then 1
    else if m == 2 && !engineRunning then 2
    else if m == 2 && engineRunning then 3
    else if m == 1 && !engineRunning then 4
    else if m == 1 && engineRunning then 5
    else 0
  }

  /**
    Where each IR IN ALIGN memo's row comes from, over the range in which
    that memo is active: from 240 s on the first memo counts whole minutes
    down to 4; below 180 s the second memo counts 3 to 1; between 180 s and
    240 s the ceiling is 4, which the second memo does not handle, so it
    shows its first row whether or not an engine runs.
   */
  lemma {:induction false} AlignmentRows(t: int, engineRunning: bool)
    ensures t >= 240 ==> AdirsMessage1(t, engineRunning) % 2 == Bit(engineRunning)
    ensures 0 < t <= 180 ==> AdirsMessage2(t, engineRunning) % 2 == Bit(engineRunning)
    ensures 180 < t < 240 ==> AdirsMessage2(t, engineRunning) == 0
  {
    var m := CeilDiv60(t);
    if t >= 240 {
      assert m >= 4;
    }
    if 0 < t <= 180 {
      assert 1 <= m <= 3;
    }
    if 180 < t < 240 {
      assert m == 4;
    }
  }

  // ---------------------------------------------------------------------
  // Engine states (source lines 483-484)

  datatype Engines = Engines(state1: int, state2: int)

  /**
    The engine states as the source stores them: both reads are written to
    engine 1's state, so engine 1 takes engine 2's value and engine 2's state
    keeps its initial 0.
   */
  function EngineStatesAsWritten(raw1: int, raw2: int): (e: Engines)
    ensures e.state2 == 0
    ensures e.state1 == raw2
  {
    Engines(raw2, 0)
  }

  /** The engine states as evidently intended: each engine's own reading. */
  function EngineStates(raw1: int, raw2: int): (e: Engines)
    ensures e.state1 == raw1 && e.state2 == raw2
  {
    Engines(raw1, raw2)
  }

  /** The engine states the given build stores. */
  function EngineStatesOf(b: Build, raw1: int, raw2: int): Engines
  {
    if b == AsWritten then EngineStatesAsWritten(raw1, raw2) else EngineStates(raw1, raw2)
  }

  /**
    The written store agrees with each engine's own reading only while both
    engines read 0, and it takes an engine to be running on engine 2's
    reading alone.
   */
  lemma EngineStatesDiffer(raw1: int, raw2: int)
    ensures EngineStatesAsWritten(raw1, raw2) == EngineStates(raw1, raw2) <==> raw1 == 0 && raw2 == 0
    ensures EngineRunning(EngineStatesAsWritten(raw1, raw2)) <==> 0 < raw2 < 4
    ensures EngineRunning(EngineStates(raw1, raw2)) <==> 0 < raw1 < 4 || 0 < raw2 < 4
  {
  }

  /** An engine is starting or running (state 1 to 3). */
  predicate EngineRunning(e: Engines)
  {
    (0 < e.state1 < 4) || (0 < e.state2 < 4)
  }

  // ---------------------------------------------------------------------
  // Dual engine failure (source lines 519-524)

  /**
    The dual engine failure condition. `onGround` and the two fire buttons are
    the values stored on the previous tick: the source updates them further
    down the same tick (lines 554 and 686-687).
   */
  function DualEngineFault(onGround: bool, fireButton1: bool, fireButton2: bool, valve1: bool, valve2: bool, e: Engines, n1AboveIdle1: bool, n1AboveIdle2: bool): (r: bool)
    ensures r ==> !onGround
    ensures r ==> (fireButton1 && fireButton2) || (!valve1 && !valve2) || (e.state1 == 0 && e.state2 == 0) || (!n1AboveIdle1 && !n1AboveIdle2)
    ensures !onGround && e.state1 == 0 && e.state2 == 0 ==> r
  {
    !onGround && ((fireButton1 && fireButton2) || (!valve1 && !valve2) || (e.state1 == 0 && e.state2 == 0) || (!n1AboveIdle1 && !n1AboveIdle2))
  }

  /**
    The engine-state defect raises DUAL ENGINE FAILURE in flight with engine 1
    running at thrust and its fuel valve open, as soon as engine 2 reads 0;
    with each engine's own state the same inputs raise nothing.
   */
  lemma EngineStateDefectRaisesDualFault()
    ensures DualEngineFault(false, false, false, true, false, EngineStatesAsWritten(1, 0), true, false)
    ensures !DualEngineFault(false, false, false, true, false, EngineStates(1, 0), true, false)
  {
  }

  /**
    With each engine's own state, one engine running above idle with its fuel
    valve open and at most one fire button pushed rules the failure out.
   */
  lemma OneEngineRunningNoDualFault(onGround: bool, fireButton1: bool, fireButton2: bool, valve2: bool, raw1: int, raw2: int, n1AboveIdle2: bool)
    requires raw1 != 0 && !(fireButton1 && fireButton2)
    ensures !DualEngineFault(onGround, fireButton1, fireButton2, true, valve2, EngineStates(raw1, raw2), true, n1AboveIdle2)
  {
  }

  /**
    With the written engine states, engine 1 running above idle with its
    fuel valve open rules nothing out: in flight, with at most one fire
    button pushed, the failure is raised exactly when engine 2 reads 0,
    whatever engine 1 reads.
   */
  lemma OneEngineRunningAsWritten(onGround: bool, fireButton1: bool, fireButton2: bool, valve2: bool, raw1: int, raw2: int, n1AboveIdle2: bool)
    requires !(fireButton1 && fireButton2)
    ensures DualEngineFault(onGround, fireButton1, fireButton2, true, valve2, EngineStatesAsWritten(raw1, raw2), true, n1AboveIdle2)
      <==> !onGround && raw2 == 0
  {
  }

  // ---------------------------------------------------------------------
  // T.O. CONFIG test (source lines 732-764)

  /** What the T.O. CONFIG test reads. Speeds in knots, door openings in percent. */
  datatype TakeoffInputs = TakeoffInputs(
    generator1: bool, generator2: bool,
    greenLowPressure: bool, yellowLowPressure: bool, blueLowPressure: bool,
    pump1Auto: bool, pump2Auto: bool,
    v1: int, vr: int, v2: int,
    cabinDoor: int, cateringDoor: int, fwdCargoLocked: bool, aftCargoLocked: bool,
    brakesHot: bool,
    flapsEntered: bool, flapsHandle: int, flapsEnteredValue: int,
    speedBrakeCommand: bool
  )

  /**
    The aircraft is in take-off configuration: both generators on line, no
    hydraulic system at low pressure, both pumps in AUTO, V1 <= VR <= V2,
    brakes not hot, cabin and catering doors shut and both cargo doors locked,
    the flaps handle at the entered take-off flaps when some are entered, and
    no speed brake command. Fuel-tank low pressure is not part of the test.
   */
  function TakeoffConfigNormal(t: TakeoffInputs): (r: bool)
    ensures r ==> t.generator1 && t.generator2 && t.pump1Auto && t.pump2Auto
    ensures r ==> !t.greenLowPressure && !t.yellowLowPressure && !t.blueLowPressure
    ensures r ==> t.v1 <= t.vr <= t.v2
    ensures r ==> t.cabinDoor == 0 && t.cateringDoor == 0 && t.fwdCargoLocked && t.aftCargoLocked
    ensures r ==> !t.brakesHot && !t.speedBrakeCommand
    ensures r && t.flapsEntered ==> t.flapsHandle == t.flapsEnteredValue
  {
    var systemStatus := t.generator1 && t.generator2 && !t.greenLowPressure && !t.yellowLowPressure
      && !t.blueLowPressure && t.pump1Auto && t.pump2Auto;
    var speeds := t.v1 <= t.vr && t.vr <= t.v2;
    var doors := t.cabinDoor == 0 && t.cateringDoor == 0 && t.aftCargoLocked && t.fwdCargoLocked;
    var flapsAgree := !t.flapsEntered || t.flapsHandle == t.flapsEnteredValue;
    systemStatus && speeds && !t.brakesHot && doors && flapsAgree && !t.speedBrakeCommand
  }

  /**
    Flaps that were never entered are not compared: the handle position then
    plays no part in the test, and once flaps are entered a handle anywhere
    else fails it.
   */
  lemma TakeoffConfigFlaps(t: TakeoffInputs, handle: int)
    ensures !t.flapsEntered ==> TakeoffConfigNormal(t.(flapsHandle := handle)) == TakeoffConfigNormal(t)
    ensures t.flapsEntered && handle != t.flapsEnteredValue ==> !TakeoffConfigNormal(t.(flapsHandle := handle))
  {
  }

  /**
    The conditions are also sufficient: with both generators on line, no
    hydraulic system at low pressure, both pumps in AUTO, V1 <= VR <= V2,
    doors shut and locked, brakes not hot, no speed brake command and the
    handle at any entered flaps, pressing the button with T.O. MEMO shown
    writes T.O. CONFIG NORMAL and raises no T.O. CONFIG failure.
   */
  lemma TakeoffConfigPasses(t: TakeoffInputs)
    requires t.generator1 && t.generator2 && t.pump1Auto && t.pump2Auto
    requires !t.greenLowPressure && !t.yellowLowPressure && !t.blueLowPressure
    requires t.v1 <= t.vr <= t.v2
    requires t.cabinDoor == 0 && t.cateringDoor == 0 && t.fwdCargoLocked && t.aftCargoLocked
    requires !t.brakesHot && !t.speedBrakeCommand
    requires t.flapsEntered ==> t.flapsHandle == t.flapsEnteredValue
    ensures TakeoffConfigNormal(t)
    ensures ToConfigCheck(true, true, t) == TakeoffCheck(false, Some(true))
  {
  }

  /**
    The outcome of the test: `fail` is the T.O. CONFIG failure flag read by
    SLATS/FLAPS NOT IN T.O. CONFIG, `written` the value written to the
    T.O. CONFIG NORMAL variable, if any.
   */
  datatype TakeoffCheck = TakeoffCheck(fail: bool, written: Option<bool>)

  function ToConfigCheck(toMemo: bool, button: bool, t: TakeoffInputs): (r: TakeoffCheck)
    ensures r.written.Some? <==> toMemo && button
    ensures r.fail <==> r.written == Some(false)
    ensures r.written == Some(true) ==>
      t.v1 <= t.vr <= t.v2 && !t.brakesHot && !t.speedBrakeCommand && t.cabinDoor == 0
      && (t.flapsEntered ==> t.flapsHandle == t.flapsEnteredValue)
    ensures r.written.Some? ==> (r.written.value <==> TakeoffConfigNormal(t))
  {
    if toMemo && button then
      if TakeoffConfigNormal(t) then TakeoffCheck(false, Some(true)) else TakeoffCheck(true, Some(false))
    else TakeoffCheck(false, None)
  }

  // ---------------------------------------------------------------------
  // Portable devices setting (source lines 708, 1398-1417)

  /** JavaScript truthiness of a string: every string but the empty one. */
  predicate Truthy(s: string)
  {
    s != []
  }

  /** NO SMOKING and PORTABLE DEVICES as written: the stored setting is read for its truthiness. */
  function NoSmokingMemosAsWritten(noSmoking: int, setting: string): (r: (bool, bool))
    ensures r.0 ==> setting == []
    ensures !(r.0 && r.1)
  {
    (noSmoking == 1 && !Truthy(setting), noSmoking == 1 && Truthy(setting))
  }

  /** NO SMOKING and PORTABLE DEVICES as evidently intended: the setting is "1" when portable devices are in use. */
  function NoSmokingMemos(noSmoking: int, setting: string): (r: (bool, bool))
    ensures r.0 || r.1 <==> noSmoking == 1
    ensures !(r.0 && r.1)
    ensures r.1 ==> setting == "1"
  {
    (noSmoking == 1 && setting != "1", noSmoking == 1 && setting == "1")
  }

  /** The NO SMOKING and PORTABLE DEVICES activity the given build computes. */
  function NoSmokingMemosOf(b: Build, noSmoking: int, setting: string): (bool, bool)
  {
    if b == AsWritten then NoSmokingMemosAsWritten(noSmoking, setting) else NoSmokingMemos(noSmoking, setting)
  }

  /**
    The setting is stored as "0" or "1" and both are truthy: as written, NO
    SMOKING can never show and PORTABLE DEVICES shows whenever the signs are
    on, even with the setting off; the corrected test shows NO SMOKING then.
   */
  lemma PortableDevicesSettingOff()
    ensures NoSmokingMemosAsWritten(1, "0") == (false, true)
    ensures forall s :: s == "0" || s == "1" ==> !NoSmokingMemosAsWritten(1, s).0
    ensures NoSmokingMemos(1, "0") == (true, false)
  {
  }
}

=== FILE: flightcontrols.dfy ===
/**
  Flight-control fault conditions computed from the discrete words of the
  two flight control data concentrators (FCDC 1 and FCDC 2), source lines
  596-677.

  Every condition ORs the same bit of both concentrators, so one valid
  FCDC is enough; a word that is not in normal operation reads as 0. The
  ground phases 1 and 10 suppress the law and elevator conditions and,
  together with the relevant test bit of word 3, the ELAC and SEC faults.
 */
module FlightControls {
  import opened Arinc429

  /** Discrete words 1 to 4 of one concentrator. */
  datatype Fcdc = Fcdc(word1: Word, word2: Word, word3: Word, word4: Word)

  /** What the conditions read besides the two concentrators. */
  datatype Status = Status(
    phase: int,
    dcEssPowered: bool,
    dc2Powered: bool,
    /**
      The ELAC hydraulic confirm nodes' outputs as they were at the end of
      the previous tick: the fault conditions read them before this tick's
      write (source lines 607-609 and 612).
     */
    elac1HydLow: bool,
    elac2HydLow: bool
  )

  /** Phases 1 and 10 (`[1, 10].includes(phase)`). */
  predicate GroundPhase(phase: int)
  {
    phase == 1 || phase == 10
  }

  predicate Word1Bit(f1: Fcdc, f2: Fcdc, bit: nat)
  {
    GetBitValueOr(f1.word1, bit, false) || GetBitValueOr(f2.word1, bit, false)
  }

  predicate Word3Bit(f1: Fcdc, f2: Fcdc, bit: nat)
  {
    GetBitValueOr(f1.word3, bit, false) || GetBitValueOr(f2.word3, bit, false)
  }

  predicate Word4Bit(f1: Fcdc, f2: Fcdc, bit: nat)
  {
    GetBitValueOr(f1.word4, bit, false) || GetBitValueOr(f2.word4, bit, false)
  }

  /** No word of either concentrator is in normal operation. */
  predicate NoValidData(f1: Fcdc, f2: Fcdc)
  {
    !IsNormalOperation(f1.word1) && !IsNormalOperation(f1.word2) && !IsNormalOperation(f1.word3) && !IsNormalOperation(f1.word4)
    && !IsNormalOperation(f2.word1) && !IsNormalOperation(f2.word2) && !IsNormalOperation(f2.word3) && !IsNormalOperation(f2.word4)
  }

  // ---------------------------------------------------------------------
  // ELAC and SEC faults

  /**
    An ELAC fault: the computer is powered, its word-3 bit `offBit` does not
    report it switched off in a ground phase, and either its fault bit is
    set or both servo-loop bits are set while its hydraulics were not low.
   */
  function ElacFault(f1: Fcdc, f2: Fcdc, phase: int, powered: bool, hydLow: bool, offBit: nat, faultBit: nat, loopA: nat, loopB: nat): (r: bool)
    ensures r ==> powered
    ensures r && GroundPhase(phase) ==> !Word3Bit(f1, f2, offBit)
    ensures r && !Word1Bit(f1, f2, faultBit) ==> !hydLow && Word1Bit(f1, f2, loopA) && Word1Bit(f1, f2, loopB)
    ensures powered && !GroundPhase(phase) && Word1Bit(f1, f2, faultBit) ==> r
  {
    var servo := Word1Bit(f1, f2, loopA) && Word1Bit(f1, f2, loopB);
    !(GroundPhase(phase) && Word3Bit(f1, f2, offBit)) && powered && (Word1Bit(f1, f2, faultBit) || (!hydLow && servo))
  }

  /** Lines 2-4 of an ELAC fault: shown when the fault bit itself is set and the ELAC is not off. */
  function ElacLines123(f1: Fcdc, f2: Fcdc, offBit: nat, faultBit: nat): (r: bool)
    ensures r ==> Word1Bit(f1, f2, faultBit) && !Word3Bit(f1, f2, offBit)
    ensures Word1Bit(f1, f2, faultBit) && !Word3Bit(f1, f2, offBit) ==> r
  {
    !Word3Bit(f1, f2, offBit) && Word1Bit(f1, f2, faultBit)
  }

  function Elac1Fault(f1: Fcdc, f2: Fcdc, st: Status): bool
  {
    ElacFault(f1, f2, st.phase, st.dcEssPowered, st.elac1HydLow, 19, 23, 19, 20)
  }

  function Elac1Lines123(f1: Fcdc, f2: Fcdc): bool
  {
    ElacLines123(f1, f2, 19, 23)
  }

  function Elac2Fault(f1: Fcdc, f2: Fcdc, st: Status): bool
  {
    ElacFault(f1, f2, st.phase, st.dc2Powered, st.elac2HydLow, 20, 24, 21, 22)
  }

  function Elac2Lines123(f1: Fcdc, f2: Fcdc): bool
  {
    ElacLines123(f1, f2, 20, 24)
  }

  /** A SEC fault: powered, fault bit set, and not reported off in a ground phase. */
  function SecFault(f1: Fcdc, f2: Fcdc, phase: int, powered: bool, offBit: nat, faultBit: nat): (r: bool)
    ensures r ==> powered && Word1Bit(f1, f2, faultBit)
    ensures r && GroundPhase(phase) ==> !Word3Bit(f1, f2, offBit)
    ensures powered && !GroundPhase(phase) && Word1Bit(f1, f2, faultBit) ==> r
  {
    !(GroundPhase(phase) && Word3Bit(f1, f2, offBit)) && powered && Word1Bit(f1, f2, faultBit)
  }

  function Sec1Fault(f1: Fcdc, f2: Fcdc, st: Status): bool
  {
    SecFault(f1, f2, st.phase, st.dcEssPowered, 27, 25)
  }

  function Sec2Fault(f1: Fcdc, f2: Fcdc, st: Status): bool
  {
    SecFault(f1, f2, st.phase, st.dc2Powered, 28, 26)
  }

  function Sec3Fault(f1: Fcdc, f2: Fcdc, st: Status): bool
  {
    SecFault(f1, f2, st.phase, st.dc2Powered, 29, 29)
  }

  /** Lines 2-4 of a SEC fault: shown unless the SEC is reported off. */
  function SecLines123(f1: Fcdc, f2: Fcdc, offBit: nat): bool
  {
    !Word3Bit(f1, f2, offBit)
  }

  // ---------------------------------------------------------------------
  // FCDC faults

  /** Words 1 to 3 of a concentrator all report failure warning. */
  predicate FcdcFailed(f: Fcdc)
  {
    IsFailureWarning(f.word1) && IsFailureWarning(f.word2) && IsFailureWarning(f.word3)
  }

  datatype FcdcFaults = FcdcFaults(both: bool, first: bool, second: bool)

  /**
    FCDC 1+2 FAULT, FCDC 1 FAULT and FCDC 2 FAULT. At most one of the three
    is raised: a single-FCDC fault gives way to the double fault, and FCDC 2
    FAULT (like the double fault) needs DC bus 2.
   */
  function FcdcFaultsOf(f1: Fcdc, f2: Fcdc, dc2Powered: bool): (r: FcdcFaults)
    ensures r.both <==> FcdcFailed(f1) && FcdcFailed(f2) && dc2Powered
    ensures r.first <==> FcdcFailed(f1) && !FcdcFailed(f2)
    ensures r.second <==> FcdcFailed(f2) && !FcdcFailed(f1) && dc2Powered
    ensures !(r.both && r.first) && !(r.both && r.second) && !(r.first && r.second)
  {
    var s1 := FcdcFailed(f1);
    var s2 := FcdcFailed(f2);
    var s12 := s1 && s2;
    FcdcFaults(s12 && dc2Powered, s1 && !s12, s2 && !(s12 || !dc2Powered))
  }

  // ---------------------------------------------------------------------
  // Control laws and elevators

  /** The input of the ALTN 1 law confirm node (bit 12 of word 1, outside the ground phases). */
  function Altn1Input(f1: Fcdc, f2: Fcdc, phase: int): (r: bool)
    ensures r <==> !GroundPhase(phase) && Word1Bit(f1, f2, 12)
  {
    Word1Bit(f1, f2, 12) && !GroundPhase(phase)
  }

  /** The input of the ALTN 2 law confirm node (bit 13 of word 1, outside the ground phases). */
  function Altn2Input(f1: Fcdc, f2: Fcdc, phase: int): (r: bool)
    ensures r <==> !GroundPhase(phase) && Word1Bit(f1, f2, 13)
  {
    Word1Bit(f1, f2, 13) && !GroundPhase(phase)
  }

  /** DIRECT LAW: bit 15 of word 1 outside the ground phases; the FCDC double fault does not contribute. */
  function DirectLaw(f1: Fcdc, f2: Fcdc, phase: int): (r: bool)
    ensures r <==> !GroundPhase(phase) && Word1Bit(f1, f2, 15)
  {
    var doubleFault := FcdcFailed(f1) && FcdcFailed(f2);
    ((false && doubleFault) || Word1Bit(f1, f2, 15)) && !GroundPhase(phase)
  }

  /** One elevator actuator channel is reported lost by a valid word 3 of either concentrator. */
  predicate ChannelLost(f1: Fcdc, f2: Fcdc, bit: nat)
  {
    (IsNormalOperation(f1.word3) && !GetBitValueOr(f1.word3, bit, false))
    || (IsNormalOperation(f2.word3) && !GetBitValueOr(f2.word3, bit, false))
  }

  /** L+R ELEV FAULT: all four elevator channels (bits 15 to 18 of word 3) lost, outside the ground phases. */
  function LrElevFault(f1: Fcdc, f2: Fcdc, phase: int): (r: bool)
    ensures r ==> !GroundPhase(phase)
    ensures r ==> IsNormalOperation(f1.word3) || IsNormalOperation(f2.word3)
    ensures r ==> forall b :: 15 <= b <= 18 ==> ChannelLost(f1, f2, b)
    ensures !GroundPhase(phase) && (forall b :: 15 <= b <= 18 ==> ChannelLost(f1, f2, b)) ==> r
  {
    ChannelLost(f1, f2, 15) && ChannelLost(f1, f2, 16) && ChannelLost(f1, f2, 17) && ChannelLost(f1, f2, 18)
    && !GroundPhase(phase)
  }

  /** SPLR ARMED: bit 27 of word 4. */
  function SpoilersArmed(f1: Fcdc, f2: Fcdc): bool
  {
    Word4Bit(f1, f2, 27)
  }

  /** SPEED BRK: bit 28 of word 4. */
  function SpeedBrakeCommand(f1: Fcdc, f2: Fcdc): bool
  {
    Word4Bit(f1, f2, 28)
  }

  // ---------------------------------------------------------------------
  // Properties

  /** In the ground phases no control-law or elevator condition is raised. */
  lemma GroundPhasesSuppressLaws(f1: Fcdc, f2: Fcdc, phase: int)
    requires GroundPhase(phase)
    ensures !Altn1Input(f1, f2, phase) && !Altn2Input(f1, f2, phase)
    ensures !DirectLaw(f1, f2, phase) && !LrElevFault(f1, f2, phase)
  {
  }

  /**
    Without a single valid word from either concentrator the computer raises
    no ELAC, SEC, law or elevator condition and reports neither spoilers armed
    nor speed brakes: the only flight-control warnings left are the FCDC
    faults, which are raised from the failure-warning status itself.
   */
  lemma NoDataRaisesOnlyFcdcFaults(f1: Fcdc, f2: Fcdc, st: Status)
    requires NoValidData(f1, f2)
    ensures !Elac1Fault(f1, f2, st) && !Elac2Fault(f1, f2, st)
    ensures !Sec1Fault(f1, f2, st) && !Sec2Fault(f1, f2, st) && !Sec3Fault(f1, f2, st)
    ensures !Altn1Input(f1, f2, st.phase) && !Altn2Input(f1, f2, st.phase) && !DirectLaw(f1, f2, st.phase)
    ensures !LrElevFault(f1, f2, st.phase)
    ensures !SpoilersArmed(f1, f2) && !SpeedBrakeCommand(f1, f2)
    ensures FcdcFailed(f1) && FcdcFailed(f2) ==> FcdcFaultsOf(f1, f2, st.dc2Powered).both == st.dc2Powered
  {
  }

  /**
    Lines 2-4 of an ELAC fault never show without the fault, given bus power:
    they need the fault bit, which raises the fault by itself. In flight the
    OFF bit hides those lines but not the fault.
   */
  lemma ElacLinesRaiseFault(f1: Fcdc, f2: Fcdc, st: Status)
    ensures Elac1Lines123(f1, f2) && st.dcEssPowered ==> Elac1Fault(f1, f2, st)
    ensures Elac2Lines123(f1, f2) && st.dc2Powered ==> Elac2Fault(f1, f2, st)
    ensures !GroundPhase(st.phase) && st.dcEssPowered && Word1Bit(f1, f2, 23) && Word3Bit(f1, f2, 19) ==>
      Elac1Fault(f1, f2, st) && !Elac1Lines123(f1, f2)
    ensures !GroundPhase(st.phase) && st.dc2Powered && Word1Bit(f1, f2, 24) && Word3Bit(f1, f2, 20) ==>
      Elac2Fault(f1, f2, st) && !Elac2Lines123(f1, f2)
  {
  }

  /**
    The law conditions read word 1 of each concentrator and nothing else of
    them, and L+R ELEV FAULT reads word 3 only: in particular the FCDC
    failure status plays no part in DIRECT LAW, whose double-fault term is
    switched off, and a double FCDC fault never raises any of them.
   */
  lemma LawsReadOnlyTheirWords(f1: Fcdc, f2: Fcdc, g1: Fcdc, g2: Fcdc, phase: int)
    ensures f1.word1 == g1.word1 && f2.word1 == g2.word1 ==>
      && Altn1Input(f1, f2, phase) == Altn1Input(g1, g2, phase)
      && Altn2Input(f1, f2, phase) == Altn2Input(g1, g2, phase)
      && DirectLaw(f1, f2, phase) == DirectLaw(g1, g2, phase)
    ensures f1.word3 == g1.word3 && f2.word3 == g2.word3 ==> LrElevFault(f1, f2, phase) == LrElevFault(g1, g2, phase)
    ensures FcdcFailed(f1) && FcdcFailed(f2) ==>
      !Altn1Input(f1, f2, phase) && !Altn2Input(f1, f2, phase) && !DirectLaw(f1, f2, phase) && !LrElevFault(f1, f2, phase)
  {
  }

  /** The two concentrators play the same part in every law and elevator condition. */
  lemma ConcentratorsInterchangeable(f1: Fcdc, f2: Fcdc, phase: int)
    ensures Altn1Input(f1, f2, phase) == Altn1Input(f2, f1, phase)
    ensures Altn2Input(f1, f2, phase) == Altn2Input(f2, f1, phase)
    ensures DirectLaw(f1, f2, phase) == DirectLaw(f2, f1, phase)
    ensures LrElevFault(f1, f2, phase) == LrElevFault(f2, f1, phase)
  {
  }

  /**
    Low hydraulic pressure on the previous tick masks the servo-loop
    detection of an ELAC fault: only the fault bit itself can raise it then.
   */
  lemma HydraulicLowMasksServoLoop(f1: Fcdc, f2: Fcdc, st: Status)
    requires st.elac1HydLow
    ensures Elac1Fault(f1, f2, st) <==>
      st.dcEssPowered && !(GroundPhase(st.phase) && Word3Bit(f1, f2, 19)) && Word1Bit(f1, f2, 23)
  {
  }

  /**
    One concentrator with valid word 3 reporting all four elevator channels
    available is enough to rule out L+R ELEV FAULT, when the other
    concentrator's word 3 is invalid.
   */
  lemma OneValidFcdcRulesOutElevatorFault(f1: Fcdc, f2: Fcdc, phase: int)
    requires IsNormalOperation(f1.word3) && !IsNormalOperation(f2.word3)
    requires forall b :: 15 <= b <= 18 ==> b in f1.word3.bits
    ensures !LrElevFault(f1, f2, phase)
  {
    assert 15 in f1.word3.bits;
  }
}

=== FILE: fwc.dfy ===
/**
  One `onUpdate` call of the flight-warning computer (source lines 445-936):
  read the snapshot, derive the engine, dual-failure, flight-control and
  T.O. CONFIG values, evaluate both catalogs, and arbitrate.

  A few subjects are read before the tick updates them: `aircraftOnGround`
  and the two engine fire buttons in the dual engine failure (set at lines
  554 and 686-687, read at 519-524), and the ELAC hydraulic confirm-node
  outputs in the ELAC fault conditions (written just after being read, at
  lines 612 and 624). The state carries those values to the next tick.

  `Step(AsWritten, s, r)` is the tick as the code stands; `Step(Corrected, s, r)`
  is the same tick with the four defects of the code mended (`Build`).
 */
module Fwc {
  import opened Codes
  import opened Ordering
  import opened Messages
  import opened Arbitration
  import opened FlightControls
  import opened Conditions
  import opened Readings
  import opened Catalog

  /** What the computer keeps between ticks. */
  datatype FwcState = FwcState(
    arb: State,
    /** `aircraftOnGround`, `fireButton1` and `fireButton2` as the previous tick set them. */
    onGround: bool,
    fireButton1: bool,
    fireButton2: bool,
    /** The ELAC hydraulic confirm-node outputs of the previous tick. */
    elac1HydLow: bool,
    elac2HydLow: bool
  )

  /**
    What a tick writes besides the display: the T.O. CONFIG NORMAL variable
    (when the test runs), the cabin-ready variable (set to 1 when `cabinReady`),
    and the inputs fed to the ELAC fault and ALTN law confirm nodes.
   */
  datatype Effects = Effects(
    toConfigNormal: Option<bool>,
    cabinReady: bool,
    elac1Fault: bool,
    elac2Fault: bool,
    altn1Law: bool,
    altn2Law: bool
  )

  /** The result of a tick; no effects when both computers have failed. */
  datatype StepOutcome = StepOutcome(next: FwcState, display: Display, effects: Option<Effects>)

  /** A cabin call push button is pressed (lines 712-717). */
  predicate CabinCall(r: Snapshot)
  {
    r.cabin.callAft || r.cabin.callAll || r.cabin.callFwd
  }

  /** The T.O. CONFIG test of this tick (lines 732-764). */
  function TakeoffTest(r: Snapshot): TakeoffCheck
  {
    ToConfigCheck(r.memo.toMemo, r.takeoff.toConfigButton, TakeoffOf(r, SpeedBrakeCommand(r.fcdc1, r.fcdc2)))
  }

  /** Phase, bus power and the previous tick's hydraulic confirm-node outputs, as the flight-control conditions read them. */
  function StatusOf(s: FwcState, r: Snapshot): Status
  {
    Status(r.phase, r.power.dcEssPowered, r.power.dc2Powered, s.elac1HydLow, s.elac2HydLow)
  }

  /** The values the given build computes before the catalogs are evaluated. */
  function DerivedOf(b: Build, s: FwcState, r: Snapshot): Derived
  {
    var engines := EngineStatesOf(b, r.eng.engineStateRaw1, r.eng.engineStateRaw2);
    var test := TakeoffTest(r);
    Derived(
      engines,
      DualEngineFault(s.onGround, s.fireButton1, s.fireButton2, r.eng.valve1, r.eng.valve2, engines, r.eng.n1AboveIdle1, r.eng.n1AboveIdle2),
      StatusOf(s, r),
      test.fail,
      if test.written.Some? then test.written.value else r.takeoff.toConfigNormal,
      CabinCall(r) || r.cabin.cabinReady,
      NoSmokingMemosOf(b, r.memo.noSmoking, r.cabin.portableDevices))
  }

  /** The arbitration inputs of this tick. */
  function InputsOf(b: Build, r: Snapshot, d: Derived): Inputs
  {
    Inputs(r.fwc1Normal, r.fwc2Normal, r.phase,
      r.cabin.cautionLeft || r.cabin.cautionRight,
      r.cabin.warningLeft || r.cabin.warningRight,
      r.fire.eng1FireTest || r.fire.eng2FireTest || r.fire.apuFireTest || r.fire.cargoFireTest,
      Failures(b, r, d), Memos(b, r, d))
  }

  /** The arbitration inputs the given build evaluates on this tick. */
  function TickInputs(b: Build, s: FwcState, r: Snapshot): Inputs
  {
    InputsOf(b, r, DerivedOf(b, s, r))
  }

  predicate Normal(r: Snapshot)
  {
    r.fwc1Normal || r.fwc2Normal
  }

  /** The writes and confirm-node inputs of a normal tick (lines 596-677, 712-764). */
  function EffectsOf(s: FwcState, r: Snapshot): Effects
  {
    var st := StatusOf(s, r);
    Effects(TakeoffTest(r).written, CabinCall(r),
      Elac1Fault(r.fcdc1, r.fcdc2, st), Elac2Fault(r.fcdc1, r.fcdc2, st),
      Altn1Input(r.fcdc1, r.fcdc2, r.phase), Altn2Input(r.fcdc1, r.fcdc2, r.phase))
  }

  /**
    One `onUpdate` call over the arbitration inputs `t` the tick evaluates:
    the total-loss return when neither computer is normal, otherwise the
    arbitration tick together with this tick's writes.
   */
  function StepOn(s: FwcState, r: Snapshot, t: Inputs): (o: StepOutcome)
    requires t.fwc1Normal == r.fwc1Normal && t.fwc2Normal == r.fwc2Normal
    ensures !Normal(r) ==>
      o.display == Display(LossLeft, LossRight) && o.next == s.(arb := s.arb.(recall := [])) && o.effects.None?
    ensures Normal(r) ==>
      && o.next.arb == Tick(s.arb, t).next && o.display == Tick(s.arb, t).display
      && o.next.onGround == r.gear.onGround
      && o.next.fireButton1 == r.fire.fireButton1 && o.next.fireButton2 == r.fire.fireButton2
      && o.next.elac1HydLow == r.nodes.elac1HydLowConfirmed && o.next.elac2HydLow == r.nodes.elac2HydLowConfirmed
      && o.effects == Some(EffectsOf(s, r))
    ensures forall k :: k in o.next.arb.recall ==> k in s.arb.recall
  {
    if !Normal(r) then
      StepOutcome(s.(arb := s.arb.(recall := [])), Display(LossLeft, LossRight), None)
    else
      var o := Tick(s.arb, t);
      StepOutcome(
        FwcState(o.next, r.gear.onGround, r.fire.fireButton1, r.fire.fireButton2,
          r.nodes.elac1HydLowConfirmed, r.nodes.elac2HydLowConfirmed),
        o.display,
        Some(EffectsOf(s, r)))
  }

  /** One `onUpdate` call of the given build. */
  function Step(b: Build, s: FwcState, r: Snapshot): (o: StepOutcome)
    ensures !Normal(r) ==>
      o.display == Display(LossLeft, LossRight) && o.next == s.(arb := s.arb.(recall := [])) && o.effects.None?
    ensures Normal(r) ==>
      && o.next.onGround == r.gear.onGround
      && o.next.fireButton1 == r.fire.fireButton1 && o.next.fireButton2 == r.fire.fireButton2
      && o.next.elac1HydLow == r.nodes.elac1HydLowConfirmed && o.next.elac2HydLow == r.nodes.elac2HydLowConfirmed
      && o.effects == Some(EffectsOf(s, r))
    ensures forall k :: k in o.next.arb.recall ==> k in s.arb.recall
  {
    StepOn(s, r, TickInputs(b, s, r))
  }

  /**
    What the arbitration relies on from this computer's catalogs: the failures
    are all left-side and in ascending key order, no line code of either
    catalog is `Undefined`, the memos request no system page, and at least one
    failure entry is not live on any tick.
   */
  predicate Catalogs(t: Inputs)
  {
    && FailureCatalog(t.failures)
    && CodesDefined(t.memos)
    && (forall i :: 0 <= i < |t.memos| ==> t.memos[i].sysPage == -1)
    && (exists i :: 0 <= i < |t.failures| && !Live(t.failures[i], t.phase))
  }

  /**
    The inputs each build evaluates meet what the arbitration relies on. In
    either build every entry but ENG 2 FIRE and AUTOBRAKE selects only lines
    it has; in the corrected build every entry does.
   */
  lemma InputsWellFormed(b: Build, s: FwcState, r: Snapshot)
    ensures Catalogs(TickInputs(b, s, r))
    ensures SelectableExcept(TickInputs(b, s, r).failures, 2600020) && SelectableExcept(TickInputs(b, s, r).memos, 22)
    ensures b == Corrected ==> Selectable(TickInputs(b, s, r).failures) && Selectable(TickInputs(b, s, r).memos)
  {
    var d := DerivedOf(b, s, r);
    MemoCatalogShape(Memos(b, r, d), r.memo.toMemo || r.memo.ldgMemo);
    SomeFailureAlwaysDropped(b, r, d);
  }

  /** A normal `Step` is the arbitration tick over the inputs its build evaluates. */
  lemma StepArbitrates(b: Build, s: FwcState, r: Snapshot)
    requires Normal(r)
    ensures Step(b, s, r).next.arb == Tick(s.arb, TickInputs(b, s, r)).next
    ensures Step(b, s, r).display == Tick(s.arb, TickInputs(b, s, r)).display
  {
  }

  /** Every failure is a left-side failure, so no failure is pending on the right. */
  lemma NoRightFailures(s: State, t: Inputs)
    requires Catalogs(t)
    ensures !Failing(s, t, Right)
  {
  }

  /**
    In the corrected build no entry selects outside its line list, so neither
    pane ever shows `Undefined`, and the right pane, which holds only memos,
    is sorted by memo catalog position.
   */
  lemma CorrectedShowsNoUndefined(s: FwcState, r: Snapshot)
    requires Normal(r)
    ensures var d := Tick(s.arb, TickInputs(Corrected, s, r)).display; Undefined !in d.left && Undefined !in d.right
    ensures SortedBy(Order(TickInputs(Corrected, s, r).memos, Right), Tick(s.arb, TickInputs(Corrected, s, r)).display.right)
  {
    var t := TickInputs(Corrected, s, r);
    InputsWellFormed(Corrected, s, r);
    NoRightFailures(s.arb, t);
    SelectableShowsNoUndefined(s.arb, t);
  }

  /** AUTOBRAKE is the thirty-fourth memo of the tick, shown in flight phases 7 and 8. */
  lemma AutobrakeInput(b: Build, s: FwcState, r: Snapshot)
    ensures var t := TickInputs(b, s, r);
      && |t.memos| == 38 && t.memos[33] == AutobrakeOf(b, r) && t.memos[33].side == Right
      && (Shown(t.memos[33], t.phase) <==> r.phase == 7 || r.phase == 8)
  {
    AutobrakePosition(b, r, DerivedOf(b, s, r));
  }

  /**
    As written, AUTOBRAKE shown in flight phase 7 or 8 with no mode from 1 to
    4 armed puts `Undefined` on the lower-right pane, as its last line.
   */
  lemma AutobrakeAsWrittenShowsUndefined(s: FwcState, r: Snapshot)
    requires Normal(r) && (r.phase == 7 || r.phase == 8) && !(1 <= r.memo.autoBrake <= 4)
    ensures var d := Tick(s.arb, TickInputs(AsWritten, s, r)).display.right; Undefined in d && d[|d| - 1] == Undefined
  {
    var t := TickInputs(AsWritten, s, r);
    AutobrakeInput(AsWritten, s, r);
    InputsWellFormed(AsWritten, s, r);
    NoRightFailures(s.arb, t);
    UndefinedOnRight(s.arb, t, 33);
  }

  /** ENG 2 FIRE is the second failure of the tick, live whenever its test or fire button is on. */
  lemma Eng2FireInput(b: Build, s: FwcState, r: Snapshot)
    ensures var t := TickInputs(b, s, r);
      && |t.failures| == 24 && t.failures[1] == Eng2FireOf(b, r) && t.failures[1].side == Left && t.failures[1].key == 2600020
      && (Live(t.failures[1], t.phase) <==> r.fire.eng2FireTest || r.fire.fireButton2)
  {
    FailurePositions(b, r, DerivedOf(b, s, r));
  }

  /**
    As written, ENG 2 FIRE live and not recalled while its second agent is
    due and not yet discharged puts `Undefined` at the end of the lower-left
    pane, after every failure line.
   */
  lemma Eng2FireAsWrittenShowsUndefined(s: FwcState, r: Snapshot)
    requires Normal(r) && (r.fire.eng2FireTest || r.fire.fireButton2) && 2600020 !in s.arb.recall
    requires (r.nodes.agent2Eng2Discharge == 1 || r.nodes.agent2Eng2Discharge == 2) && !r.fire.eng2Agent2
    ensures Failing(s.arb, TickInputs(AsWritten, s, r), Left)
    ensures var d := Tick(s.arb, TickInputs(AsWritten, s, r)).display.left; Undefined in d && d[|d| - 1] == Undefined
  {
    var t := TickInputs(AsWritten, s, r);
    Eng2FireInput(AsWritten, s, r);
    InputsWellFormed(AsWritten, s, r);
    UndefinedOnLeft(s.arb, t, 1);
  }

  /**
    The two builds part on the engine states: in flight, with engine 1 above
    idle and its fuel valve open and at most one fire button pushed on the
    previous tick, the code as written raises DUAL ENGINE FAILURE exactly
    when engine 2 reads 0, and the corrected code never does while engine 1
    reads non-zero.
   */
  lemma DualFaultByBuild(s: FwcState, r: Snapshot)
    requires r.eng.valve1 && r.eng.n1AboveIdle1 && !(s.fireButton1 && s.fireButton2)
    ensures DerivedOf(AsWritten, s, r).dualFault <==> !s.onGround && r.eng.engineStateRaw2 == 0
    ensures r.eng.engineStateRaw1 != 0 ==> !DerivedOf(Corrected, s, r).dualFault
  {
    OneEngineRunningAsWritten(s.onGround, s.fireButton1, s.fireButton2, r.eng.valve2,
      r.eng.engineStateRaw1, r.eng.engineStateRaw2, r.eng.n1AboveIdle2);
    if r.eng.engineStateRaw1 != 0 {
      OneEngineRunningNoDualFault(s.onGround, s.fireButton1, s.fireButton2, r.eng.valve2,
        r.eng.engineStateRaw1, r.eng.engineStateRaw2, r.eng.n1AboveIdle2);
    }
  }

  /** The twenty-fourth failure of the tick, DUAL ENGINE FAILURE, is active exactly when the build computes a dual engine fault. */
  lemma DualFaultRaisesWarning(b: Build, s: FwcState, r: Snapshot)
    ensures TickInputs(b, s, r).failures[23].key == 7700027
    ensures TickInputs(b, s, r).failures[23].active <==> DerivedOf(b, s, r).dualFault
  {
    FailurePositions(b, r, DerivedOf(b, s, r));
  }

  /**
    The two builds part on the portable-devices setting: with the signs on
    and the setting stored as "0", the code as written shows PORTABLE DEVICES
    and not NO SMOKING; the corrected code shows NO SMOKING.
   */
  lemma SmokingByBuild(s: FwcState, r: Snapshot)
    requires r.memo.noSmoking == 1 && r.cabin.portableDevices == "0"
    ensures DerivedOf(AsWritten, s, r).smoking == (false, true)
    ensures DerivedOf(Corrected, s, r).smoking == (true, false)
  {
    PortableDevicesSettingOff();
  }

  /**
    Every failure is a left-side failure, so the lower-right pane only ever
    shows memos: the right memo lines that no later memo clears, in memo
    catalog order.
   */
  lemma RightPaneShowsOnlyMemos(s: State, t: Inputs)
    requires Catalogs(t) && (t.fwc1Normal || t.fwc2Normal)
    ensures OrderedBy(Order(t.memos, Right), Tick(s, t).display.right, Undefined)
    ensures forall x :: x in Tick(s, t).display.right <==> exists i :: 0 <= i < |t.memos| && Survives(t.phase, t.memos, i, x)
  {
    RightPane(s, t);
    assert !Failing(s, t, Right);
    forall i, x | 0 <= i < |t.failures|
      ensures !Contributes(CtxOf(s, t), t.failures[i], Right, x)
    {
    }
  }

  /**
    No memo has a system page, so the system-page request of a tick comes from
    the failures alone: none while no live, unrecalled failure has a page,
    otherwise the page of the last live failure that has one.
   */
  lemma SystemPageFromFailures(s: State, t: Inputs)
    requires Catalogs(t) && (t.fwc1Normal || t.fwc2Normal)
    ensures Tick(s, t).next.sfail == -1 <==> forall i :: 0 <= i < |t.failures| ==> !CountsPage(CtxOf(s, t), t.failures[i])
    ensures Tick(s, t).next.sfail != -1 ==>
      exists i :: 0 <= i < |t.failures| && WritesPage(CtxOf(s, t), t.failures[i])
        && Tick(s, t).next.sfail == t.failures[i].sysPage
        && forall j :: i < j < |t.failures| ==> !WritesPage(CtxOf(s, t), t.failures[j])
  {
    assert forall i :: 0 <= i < |t.memos| ==> !MemoWritesPage(t.phase, t.memos[i]);
    SystemPage(s, t);
  }

  /**
    Some failure entry is always dropped by the reconciliation, so the tracked
    left failures carry over: a key stays tracked while every entry with that
    key stays live, and new live left failures are added.
   */
  lemma TrackingCarriesOver(s: State, t: Inputs, k: Key)
    requires Catalogs(t) && (t.fwc1Normal || t.fwc2Normal)
    ensures k in Tick(s, t).next.failuresLeft <==>
      (k in s.failuresLeft && forall i :: 0 <= i < |t.failures| && t.failures[i].key == k ==> Live(t.failures[i], t.phase))
      || (exists i :: 0 <= i < |t.failures| && Live(t.failures[i], t.phase) && t.failures[i].side == Left
            && IsNew(CtxOf(s, t), t.failures[i]) && t.failures[i].key == k)
  {
    assert LastDropped(t.failures, t.phase).Some?;
    TrackedAfter(s, t, k);
  }

  /**
    The dual engine failure lags the ground signal by one tick: on the tick
    the aircraft leaves the ground it cannot be raised, and on the tick it
    lands it is still raised with both engines shut down.
   */
  lemma DualFaultLagsGroundSignal(b: Build, s: FwcState, r: Snapshot)
    ensures s.onGround ==> !DerivedOf(b, s, r).dualFault
    ensures !s.onGround && r.eng.engineStateRaw1 == 0 && r.eng.engineStateRaw2 == 0 ==> DerivedOf(b, s, r).dualFault
  {
  }

  /**
    The T.O. CONFIG test runs while T.O. MEMO shows and the button is
    pressed and writes whether the aircraft is in take-off configuration.
    With a simulator variable write visible to the reads later in the same
    tick, the T.O. MEMO line reads the written value.
   */
  lemma TakeoffConfigTest(b: Build, s: FwcState, r: Snapshot)
    ensures EffectsOf(s, r).toConfigNormal.Some? <==> r.memo.toMemo && r.takeoff.toConfigButton
    ensures EffectsOf(s, r).toConfigNormal.Some? ==>
      (EffectsOf(s, r).toConfigNormal.value <==> TakeoffConfigNormal(TakeoffOf(r, SpeedBrakeCommand(r.fcdc1, r.fcdc2))))
    ensures EffectsOf(s, r).toConfigNormal.Some? ==>
      DerivedOf(b, s, r).toConfigNormal == EffectsOf(s, r).toConfigNormal.value
    ensures EffectsOf(s, r).toConfigNormal.None? ==> DerivedOf(b, s, r).toConfigNormal == r.takeoff.toConfigNormal
  {
  }

  /** A cabin call sets cabin ready; with writes visible to later reads in the tick, the memos see it set at once. */
  lemma CabinCallSetsCabinReady(b: Build, s: FwcState, r: Snapshot)
    ensures EffectsOf(s, r).cabinReady <==> CabinCall(r)
    ensures DerivedOf(b, s, r).cabinReady <==> CabinCall(r) || r.cabin.cabinReady
  {
  }

  /**
    The ELAC fault conditions read the hydraulic confirm-node outputs of the
    previous tick: with a servo-loop failure reported and no channel fault
    bit, a low hydraulic pressure confirmed last tick masks ELAC 1 FAULT.
   */
  lemma ElacFaultReadsPreviousHydraulics(s: FwcState, r: Snapshot)
    requires s.elac1HydLow && !Word1Bit(r.fcdc1, r.fcdc2, 23)
    ensures !EffectsOf(s, r).elac1Fault
  {
  }
}

=== FILE: messages.dfy ===
/**
  Catalog entries of the flight-warning computer, as the arbitration sees
  them on one tick.

  In the source each entry of `ewdMessageFailures` and `ewdMessageMemos`
  holds a fixed part (key, side, severity, system page, inhibited flight
  phases, line codes) and three live parts evaluated on every tick
  (`simVarIsActive`, `whichCodeToReturn`, `memoInhibit`). An `Entry` is the
  fixed part together with the values the live parts have on the current
  tick; the catalog module computes those values from the inputs.
 */
module Messages {
  import opened Codes

  datatype Option<T> = None | Some(value: T)

  /** Lower-left (warnings, cautions, left memos) or lower-right display. */
  datatype Side = Left | Right

  /**
    The dictionary key of an entry as a number: 2600010 for the failure key
    2600010, 140 for the memo key '0000140'. Every key has seven digits when
    zero-padded, so equal numbers are equal keys.
   */
  type Key = nat

  datatype Entry = Entry(
    key: Key,
    side: Side,
    /** The `failure` level: 3 raises MASTER WARNING, 2 raises MASTER CAUTION. */
    severity: int,
    /** The system page to call up, or -1 for none. */
    sysPage: int,
    /** Flight phases in which the entry is suppressed. */
    inhibit: seq<int>,
    /** `codesToReturn`: the entry's line codes. */
    lines: seq<Code>,
    /** `simVarIsActive` on this tick. */
    active: bool,
    /** `whichCodeToReturn()` on this tick: line indices, `None` for `null`. */
    select: seq<Option<int>>,
    /** `memoInhibit()` on this tick (always false for failures). */
    memoInhibit: bool
  )

  predicate Inhibited(e: Entry, phase: int)
  {
    phase in e.inhibit
  }

  /** A failure takes part in the tick: active and not inhibited in this phase. */
  predicate Live(e: Entry, phase: int)
  {
    e.active && !Inhibited(e, phase)
  }

  /** A memo is shown: active, not memo-inhibited, not inhibited in this phase. */
  predicate Shown(e: Entry, phase: int)
  {
    e.active && !e.memoInhibit && !Inhibited(e, phase)
  }

  /** Every selected line index names one of the entry's lines. */
  predicate ValidSelection(e: Entry)
  {
    forall k :: 0 <= k < |e.select| && e.select[k].Some? ==> 0 <= e.select[k].value < |e.lines|
  }

  predicate Selectable(cat: seq<Entry>)
  {
    forall i :: 0 <= i < |cat| ==> ValidSelection(cat[i])
  }

  /** No line code of the catalog is `Undefined`: an entry shows `Undefined` only through an index out of range. */
  predicate CodesDefined(cat: seq<Entry>)
  {
    forall i :: 0 <= i < |cat| ==> Undefined !in cat[i].lines
  }

  /** Dictionary keys are unique. */
  predicate DistinctKeys(cat: seq<Entry>)
  {
    forall i, j :: 0 <= i < j < |cat| ==> cat[i].key != cat[j].key
  }

  /** `codesToReturn[i]`: line `i`, or `undefined` when `i` is outside the list. */
  function LineAt(lines: seq<Code>, i: int): Code
  {
    if 0 <= i < |lines| then lines[i] else Undefined
  }

  /** `sel` picks `x` from `lines` at some non-null index. */
  ghost predicate Selects(lines: seq<Code>, sel: seq<Option<int>>, x: Code)
  {
    exists k :: 0 <= k < |sel| && sel[k].Some? && LineAt(lines, sel[k].value) == x
  }

  /**
    The line codes selected by `sel`, nulls dropped, in selection order
    (`whichCodeToReturn().filter((e) => e !== null)` mapped through
    `codesToReturn`); an index outside the list yields `Undefined`.
   */
  function PickFrom(lines: seq<Code>, sel: seq<Option<int>>): (r: seq<Code>)
    ensures |r| <= |sel|
    ensures forall x :: x in r <==> Selects(lines, sel, x)
    ensures (forall k :: 0 <= k < |sel| ==> sel[k].None?) ==> r == []
    decreases |sel|
  {
    if sel == [] then []
    else
      var rest := PickFrom(lines, sel[1..]);
      assert forall x :: Selects(lines, sel[1..], x) ==> Selects(lines, sel, x) by {
        forall x | Selects(lines, sel[1..], x)
          ensures Selects(lines, sel, x)
        {
          var k :| 0 <= k < |sel[1..]| && sel[1..][k].Some? && LineAt(lines, sel[1..][k].value) == x;
          assert sel[k + 1] == sel[1..][k];
        }
      }
      assert forall x :: Selects(lines, sel, x) ==> (sel[0].Some? && LineAt(lines, sel[0].value) == x) || Selects(lines, sel[1..], x) by {
        forall x | Selects(lines, sel, x)
          ensures (sel[0].Some? && LineAt(lines, sel[0].value) == x) || Selects(lines, sel[1..], x)
        {
          var k :| 0 <= k < |sel| && sel[k].Some? && LineAt(lines, sel[k].value) == x;
          if k > 0 {
            assert sel[1..][k - 1] == sel[k];
          }
        }
      }
      match sel[0]
      case None => rest
      case Some(i) => [LineAt(lines, i)] + rest
  }

  /** The codes an entry puts on the display this tick. */
  function Picked(e: Entry): (r: seq<Code>)
    ensures forall x :: x in r <==> Selects(e.lines, e.select, x)
  {
    PickFrom(e.lines, e.select)
  }

  /**
    An entry shows only its own lines when every index is in range, and,
    when none of its lines is `Undefined`, shows `Undefined` exactly when
    some index is not.
   */
  lemma PickedLines(e: Entry)
    ensures ValidSelection(e) ==> forall x :: x in Picked(e) ==> x in e.lines
    ensures Undefined !in e.lines ==> (Undefined in Picked(e) <==> !ValidSelection(e))
  {
    if !ValidSelection(e) {
      var k :| 0 <= k < |e.select| && e.select[k].Some? && !(0 <= e.select[k].value < |e.lines|);
      assert LineAt(e.lines, e.select[k].value) == Undefined;
    }
  }

  /** The codes of every entry on `side`, in catalog order: the order list `mapOrder` sorts by. */
  function Order(cat: seq<Entry>, side: Side): (r: seq<Code>)
    ensures forall x :: x in r <==> exists i :: 0 <= i < |cat| && cat[i].side == side && x in cat[i].lines
    decreases |cat|
  {
    if cat == [] then []
    else
      var rest := Order(cat[..|cat| - 1], side);
      var last := cat[|cat| - 1];
      assert forall i :: 0 <= i < |cat| - 1 ==> cat[..|cat| - 1][i] == cat[i];
      if last.side == side then rest + last.lines else rest
  }
}

=== FILE: ordering.dfy ===
/**
  `mapOrder`: the catalog-order sort applied to each side's failure and memo
  codes before they are displayed.

  The source sorts the array in place with `Array.prototype.sort` and the
  comparator `(a, b) => order.indexOf(a) > order.indexOf(b) ? 1 : -1`. That
  comparator never answers 0 and gives every code missing from `order` the
  position -1, so it is a consistent comparator only between codes at
  distinct positions (`CompareConsistency`). `Array.prototype.sort` never
  hands `undefined` to the comparator: it moves every `undefined` element to
  the end and sorts the rest. The model does the same, with `u` standing
  for `undefined`, and sorts the rest by position with a stable insertion
  sort. Whenever every other element is present in the order list, any
  ordered permutation is this one (`OrderedPermutationUnique`), so the
  choice of sort algorithm is irrelevant there (`MapOrderCanonical`).
 */
module Ordering {

  /** `Array.prototype.indexOf`: first position of `x` in `order`, or -1. */
  function IndexOf<T(==)>(order: seq<T>, x: T): (r: int)
    ensures -1 <= r < |order|
    ensures r == -1 <==> x !in order
    ensures 0 <= r ==> order[r] == x && forall j :: 0 <= j < r ==> order[j] != x
    decreases |order|
  {
    if |order| == 0 then -1
    else if order[0] == x then 0
    else
      var k := IndexOf(order[1..], x);
      if k == -1 then -1 else k + 1
  }

  /** The comparator `mapOrder` hands to the sort (source line 373). */
  function Compare<T(==)>(order: seq<T>, a: T, b: T): int
  {
    if IndexOf(order, a) > IndexOf(order, b) then 1 else -1
  }

  /** The comparator is antisymmetric on a pair exactly when the pair's positions differ. */
  lemma CompareConsistency<T>(order: seq<T>, a: T, b: T)
    ensures Compare(order, a, b) == -Compare(order, b, a) <==> IndexOf(order, a) != IndexOf(order, b)
    ensures a !in order && b !in order ==> Compare(order, a, b) == Compare(order, b, a) == -1
  {
  }

  /** Positions in `order` never decrease along `s`. */
  predicate SortedBy<T(==)>(order: seq<T>, s: seq<T>)
  {
    forall i, j :: 0 <= i < j < |s| ==> IndexOf(order, s[i]) <= IndexOf(order, s[j])
  }

  /** Every element of `s` occurs in `order`. */
  predicate Within<T(==)>(s: seq<T>, order: seq<T>)
  {
    forall i :: 0 <= i < |s| ==> s[i] in order
  }

  predicate Distinct<T(==)>(s: seq<T>)
  {
    forall i, j :: 0 <= i < j < |s| ==> s[i] != s[j]
  }

  /**
    How `Array.prototype.sort` leaves `s` when `u` is `undefined`: every
    other element in catalog order, and every `u` after all of them.
   */
  predicate OrderedBy<T(==)>(order: seq<T>, s: seq<T>, u: T)
  {
    && (forall i, j :: 0 <= i < j < |s| && s[i] == u ==> s[j] == u)
    && (forall i, j :: 0 <= i < j < |s| && s[j] != u ==> IndexOf(order, s[i]) <= IndexOf(order, s[j]))
  }

  /** Without `u`, being ordered is being sorted by position. */
  lemma OrderedBySorted<T>(order: seq<T>, s: seq<T>, u: T)
    requires u !in s
    ensures OrderedBy(order, s, u) <==> SortedBy(order, s)
  {
  }

  /** Prepending an element other than `u`, at a position no later than any other element, keeps a sequence ordered. */
  lemma OrderedCons<T>(order: seq<T>, h: T, t: seq<T>, u: T)
    requires h != u && OrderedBy(order, t, u)
    requires forall i :: 0 <= i < |t| && t[i] != u ==> IndexOf(order, h) <= IndexOf(order, t[i])
    ensures OrderedBy(order, [h] + t, u)
  {
    var r := [h] + t;
    forall i, j | 0 <= i < j < |r| && r[j] != u
      ensures IndexOf(order, r[i]) <= IndexOf(order, r[j])
    {
      assert r[j] == t[j - 1];
      if i > 0 {
        assert r[i] == t[i - 1];
      }
    }
    forall i, j | 0 <= i < j < |r| && r[i] == u
      ensures r[j] == u
    {
      assert r[i] == t[i - 1] && r[j] == t[j - 1];
    }
  }

  lemma OrderedTail<T>(order: seq<T>, s: seq<T>, u: T)
    requires s != [] && OrderedBy(order, s, u)
    ensures OrderedBy(order, s[1..], u)
  {
    forall i, j | 0 <= i < j < |s[1..]|
      ensures s[1..][i] == s[i + 1] && s[1..][j] == s[j + 1]
    {
    }
  }

  /** Appending `u` keeps a sequence ordered. */
  lemma OrderedSnoc<T>(order: seq<T>, s: seq<T>, u: T)
    requires OrderedBy(order, s, u)
    ensures OrderedBy(order, s + [u], u)
  {
    var r := s + [u];
    forall i, j | 0 <= i < j < |r| && r[i] == u
      ensures r[j] == u
    {
      if j < |s| {
        assert r[i] == s[i] && r[j] == s[j];
      }
    }
    forall i, j | 0 <= i < j < |r| && r[j] != u
      ensures IndexOf(order, r[i]) <= IndexOf(order, r[j])
    {
      assert r[i] == s[i] && r[j] == s[j];
    }
  }

  /** Places `x`, which is not `u`, into ordered `s` ahead of every `u` and every element not strictly before it. */
  function Place<T(==)>(order: seq<T>, x: T, s: seq<T>, u: T): (r: seq<T>)
    requires x != u && OrderedBy(order, s, u)
    ensures multiset(r) == multiset(s) + multiset{x}
    ensures OrderedBy(order, r, u)
    decreases |s|
  {
    if s == [] || s[0] == u || IndexOf(order, x) <= IndexOf(order, s[0]) then
      OrderedCons(order, x, s, u);
      [x] + s
    else
      OrderedTail(order, s, u);
      var rest := Place(order, x, s[1..], u);
      assert s == [s[0]] + s[1..];
      PlaceBound(order, s, x, rest, u);
      OrderedCons(order, s[0], rest, u);
      [s[0]] + rest
  }

  /** Every element of the recursive placement other than `u` is positioned no earlier than the head of `s`. */
  lemma PlaceBound<T>(order: seq<T>, s: seq<T>, x: T, rest: seq<T>, u: T)
    requires s != [] && s[0] != u && OrderedBy(order, s, u)
    requires IndexOf(order, s[0]) < IndexOf(order, x)
    requires multiset(rest) == multiset(s[1..]) + multiset{x}
    ensures forall i :: 0 <= i < |rest| && rest[i] != u ==> IndexOf(order, s[0]) <= IndexOf(order, rest[i])
  {
    forall i | 0 <= i < |rest| && rest[i] != u
      ensures IndexOf(order, s[0]) <= IndexOf(order, rest[i])
    {
      assert rest[i] in multiset(rest);
      if rest[i] != x {
        assert rest[i] in multiset(s[1..]);
        var k :| 0 <= k < |s[1..]| && s[1..][k] == rest[i];
        assert s[k + 1] == rest[i];
      }
    }
  }

  /**
    `mapOrder(array, order)` (source lines 371-379), where `u` is the value
    the array may hold besides codes (`undefined`): the sort keeps every
    element, puts each `u` last and the rest in catalog order.
   */
  function MapOrder<T(==)>(xs: seq<T>, order: seq<T>, u: T): (r: seq<T>)
    ensures multiset(r) == multiset(xs)
    ensures |r| == |xs|
    ensures OrderedBy(order, r, u)
    decreases |xs|
  {
    if xs == [] then []
    else
      assert xs == [xs[0]] + xs[1..];
      var rest := MapOrder(xs[1..], order, u);
      if xs[0] == u then
        OrderedSnoc(order, rest, u);
        rest + [u]
      else Place(order, xs[0], rest, u)
  }

  /** Elements present in `order` are determined by their position. */
  lemma SamePositionSameElement<T>(order: seq<T>, x: T, y: T)
    requires x in order && y in order
    requires IndexOf(order, x) == IndexOf(order, y)
    ensures x == y
  {
  }

  /** Distinct elements present in `order` have distinct positions. */
  lemma DistinctElementsDistinctPositions<T>(order: seq<T>, x: T, y: T)
    requires x in order && y in order && x != y
    ensures IndexOf(order, x) != IndexOf(order, y)
  {
  }

  /**
    Two ordered permutations whose elements other than `u` all occur in
    `order` are the same sequence: the catalog position alone fixes the result.
   */
  lemma {:induction false} OrderedPermutationUnique<T>(order: seq<T>, a: seq<T>, b: seq<T>, u: T)
    requires multiset(a) == multiset(b)
    requires OrderedBy(order, a, u) && OrderedBy(order, b, u)
    requires forall i :: 0 <= i < |a| && a[i] != u ==> a[i] in order
    ensures a == b
    decreases |a|
  {
    assert |a| == |multiset(a)| == |multiset(b)| == |b|;
    if a != [] {
      OrderedHeadsEqual(order, a, b, u);
      assert a == [a[0]] + a[1..];
      assert b == [b[0]] + b[1..];
      assert multiset(a[1..]) == multiset(a) - multiset{a[0]};
      assert multiset(b[1..]) == multiset(b) - multiset{b[0]};
      OrderedTail(order, a, u);
      OrderedTail(order, b, u);
      assert forall i :: 0 <= i < |a[1..]| ==> a[1..][i] == a[i + 1];
      OrderedPermutationUnique(order, a[1..], b[1..], u);
    }
  }

  /** Two nonempty ordered permutations whose other elements occur in `order` start with the same element. */
  lemma OrderedHeadsEqual<T>(order: seq<T>, a: seq<T>, b: seq<T>, u: T)
    requires multiset(a) == multiset(b) && a != [] && b != []
    requires OrderedBy(order, a, u) && OrderedBy(order, b, u)
    requires forall i :: 0 <= i < |a| && a[i] != u ==> a[i] in order
    ensures a[0] == b[0]
  {
    assert a[0] in multiset(b);
    var k :| 0 <= k < |b| && b[k] == a[0];
    assert b[0] in multiset(a);
    var m :| 0 <= m < |a| && a[m] == b[0];
    if a[0] == u {
      if m > 0 {
        assert a[m] == u;
      }
    } else if b[0] == u {
      assert false;
    } else {
      assert IndexOf(order, a[0]) <= IndexOf(order, a[m]) by {
        if m > 0 {
          assert 0 < m < |a| && a[m] != u;
        }
      }
      assert IndexOf(order, b[0]) <= IndexOf(order, b[k]) by {
        if k > 0 {
          assert 0 < k < |b| && b[k] != u;
        }
      }
      SamePositionSameElement(order, a[0], a[m]);
    }
  }

  lemma WithinPermutation<T>(a: seq<T>, b: seq<T>, order: seq<T>)
    requires multiset(a) == multiset(b)
    requires Within(a, order)
    ensures Within(b, order)
  {
    forall i | 0 <= i < |b|
      ensures b[i] in order
    {
      assert b[i] in multiset(a);
      var k :| 0 <= k < |a| && a[k] == b[i];
    }
  }

  /**
    When every element other than `u` is in the order list, the result
    depends only on which elements are present and not on the order they
    were collected in.
   */
  lemma {:induction false} MapOrderCanonical<T>(xs: seq<T>, ys: seq<T>, order: seq<T>, u: T)
    requires multiset(xs) == multiset(ys)
    requires forall i :: 0 <= i < |xs| && xs[i] != u ==> xs[i] in order
    ensures MapOrder(xs, order, u) == MapOrder(ys, order, u)
  {
    var a := MapOrder(xs, order, u);
    forall i | 0 <= i < |a| && a[i] != u
      ensures a[i] in order
    {
      assert a[i] in multiset(xs);
      var k :| 0 <= k < |xs| && xs[k] == a[i];
    }
    OrderedPermutationUnique(order, a, MapOrder(ys, order, u), u);
  }

  /** Sorting a sequence that is already ordered changes nothing. */
  lemma {:induction false} MapOrderOfSorted<T>(xs: seq<T>, order: seq<T>, u: T)
    requires OrderedBy(order, xs, u)
    requires forall i :: 0 <= i < |xs| && xs[i] != u ==> xs[i] in order
    ensures MapOrder(xs, order, u) == xs
  {
    var a := MapOrder(xs, order, u);
    forall i | 0 <= i < |a| && a[i] != u
      ensures a[i] in order
    {
      assert a[i] in multiset(xs);
      var k :| 0 <= k < |xs| && xs[k] == a[i];
    }
    OrderedPermutationUnique(order, a, xs, u);
  }

  lemma {:induction false} DistinctPermutation<T>(a: seq<T>, b: seq<T>)
    requires multiset(a) == multiset(b)
    requires Distinct(a)
    ensures Distinct(b)
  {
    forall i, j | 0 <= i < j < |b|
      ensures b[i] != b[j]
    {
      if b[i] == b[j] {
        assert b == b[..i] + [b[i]] + b[i + 1..j] + [b[j]] + b[j + 1..];
        assert multiset(b)[b[i]] >= 2;
        assert multiset(a)[b[i]] >= 2;
        DistinctCount(a, b[i]);
        assert false;
      }
    }
  }

  lemma {:induction false} DistinctCount<T>(a: seq<T>, x: T)
    requires Distinct(a)
    ensures multiset(a)[x] <= 1
    decreases |a|
  {
    if a != [] {
      assert a == [a[0]] + a[1..];
      assert Distinct(a[1..]) by {
        forall i, j | 0 <= i < j < |a[1..]|
          ensures a[1..][i] != a[1..][j]
        {
          assert a[1..][i] == a[i + 1] && a[1..][j] == a[j + 1];
        }
      }
      DistinctCount(a[1..], x);
      if a[0] == x {
        assert x !in a[1..] by {
          forall k | 0 <= k < |a[1..]|
            ensures a[1..][k] != x
          {
            assert a[1..][k] == a[k + 1];
          }
        }
      }
    }
  }

  /**
    For distinct codes present in the order list, the output lists codes at
    strictly increasing catalog positions, so every pair appears in the order
    the source comparator asks for.
   */
  lemma MapOrderFollowsCatalog<T>(xs: seq<T>, order: seq<T>, u: T)
    requires Distinct(xs) && Within(xs, order) && u !in xs
    ensures var r := MapOrder(xs, order, u);
      forall i, j :: 0 <= i < j < |r| ==>
        IndexOf(order, r[i]) < IndexOf(order, r[j])
        && Compare(order, r[i], r[j]) == -1
        && Compare(order, r[j], r[i]) == 1
  {
    var r := MapOrder(xs, order, u);
    WithinPermutation(xs, r, order);
    DistinctPermutation(xs, r);
    assert u !in r by {
      assert multiset(r)[u] == 0;
    }
    forall i, j | 0 <= i < j < |r|
      ensures IndexOf(order, r[i]) < IndexOf(order, r[j])
    {
      DistinctElementsDistinctPositions(order, r[i], r[j]);
    }
  }
}

=== FILE: readings.dfy ===
/**
  Everything one tick of the flight-warning computer reads: simulation
  variables, the stored settings, and the outputs of its timing nodes,
  grouped by the system or panel they come from.

  Floating-point readings (speeds, angles, altitude, throttle positions,
  percentages) are taken as whole numbers. `Math.floor(N1) > idleN1` is taken
  as the two booleans `n1AboveIdle1`/`n1AboveIdle2`. The confirm and clock
  nodes' timing is not part of this model: their outputs on this tick are
  readings like any other.
 */
module Readings {
  import opened FlightControls
  import opened Conditions

  datatype Snapshot = Snapshot(
    fwc1Normal: bool,
    fwc2Normal: bool,
    phase: int,
    nodes: NodeOutputs,
    aero: AeroReadings,
    eng: EngineReadings,
    power: PowerReadings,
    memo: MemoSources,
    hyd: HydraulicReadings,
    adirs: AdirsReadings,
    gear: GearReadings,
    panel: PanelReadings,
    fcdc1: Fcdc,
    fcdc2: Fcdc,
    fire: FirePanel,
    cabin: CabinReadings,
    takeoff: TakeoffReadings
  )

  /** The outputs of the confirm and clock nodes on this tick. */
  datatype NodeOutputs = NodeOutputs(
    showTakeoffInhibit: bool,
    showLandingInhibit: bool,
    altn1LawConfirmed: bool,
    altn2LawConfirmed: bool,
    elac1FaultConfirmed: bool,
    elac2FaultConfirmed: bool,
    elac1HydLowConfirmed: bool,
    elac2HydLowConfirmed: bool,
    /** Agent discharge timers: 1 once the first delay has run out, 2 after the second. */
    agent1Eng1Discharge: int,
    agent2Eng1Discharge: int,
    agent1Eng2Discharge: int,
    agent2Eng2Discharge: int,
    agentApuDischarge: int
  )

  datatype AeroReadings = AeroReadings(
    flapsIndex: int,
    /** `Math.round(CAS / 2) * 2`. */
    airspeedToNearest2: int,
    flapsAngle: int,
    slatsAngle: int,
    flapsHandle: int,
    flapsEntered: bool,
    flapsEnteredValue: int,
    radioAltitude: int,
    fac1Failed: int
  )

  datatype EngineReadings = EngineReadings(
    engineStateRaw1: int,
    engineStateRaw2: int,
    n1AboveIdle1: bool,
    n1AboveIdle2: bool,
    throttle1: int,
    throttle2: int,
    valve1: bool,
    valve2: bool,
    engineModeSelector: int,
    eng1AntiIce: bool,
    eng2AntiIce: bool
  )

  datatype PowerReadings = PowerReadings(
    generator1: bool,
    generator2: bool,
    emergencyGeneratorPotential: int,
    apuMasterSwitch: int,
    apuAvail: int,
    apuBleedValveOpen: bool,
    dcEssPowered: bool,
    dc2Powered: bool
  )

  datatype MemoSources = MemoSources(
    toMemo: bool,
    ldgMemo: bool,
    autoBrake: int,
    refuelPanel: int,
    refuelStartedByUser: bool,
    seatBelts: bool,
    noSmoking: int,
    noSmokingSwitch: int,
    strobe: int,
    gearHandleDown: bool
  )

  datatype HydraulicReadings = HydraulicReadings(
    blueLowPressure: bool,
    greenLowPressure: bool,
    yellowLowPressure: bool,
    pump1Auto: bool,
    pump2Auto: bool,
    ptuOn: bool,
    ratStowPosition: int
  )

  datatype AdirsReadings = AdirsReadings(
    /** Remaining alignment time in seconds. */
    alignTime: int,
    adiru1State: int,
    adiru2State: int,
    adiru3State: int
  )

  datatype GearReadings = GearReadings(
    onGround: bool,
    brakeFan: bool,
    landingLight2Retracted: bool,
    landingLight3Retracted: bool,
    parkBrake: bool,
    nwSteeringDisc: bool
  )

  datatype PanelReadings = PanelReadings(
    airKnob: int,
    attKnob: int,
    companyMessages: int,
    dmcKnob: int,
    manLandingElevation: int,
    ndXfrKnob: int,
    gpwsFlaps3: bool,
    gpwsFlapMode: bool,
    gpwsTerrOff: bool,
    predictiveWindshearOn: bool,
    tcasSensitivity: int,
    wingAntiIce: bool,
    vhf3Frequency: int,
    leftOuterInnerValve: bool,
    rightOuterInnerValve: bool,
    fuelCrossFeed: bool
  )

  datatype FirePanel = FirePanel(
    fireButton1: bool,
    fireButton2: bool,
    fireButtonApu: bool,
    eng1FireTest: bool,
    eng2FireTest: bool,
    apuFireTest: bool,
    cargoFireTest: bool,
    eng1Agent1: bool,
    eng1Agent2: bool,
    eng2Agent1: bool,
    eng2Agent2: bool,
    apuAgent: bool
  )

  datatype CabinReadings = CabinReadings(
    /** The stored portable-devices setting, "0" or "1". */
    portableDevices: string,
    callAft: bool,
    callAll: bool,
    callFwd: bool,
    /** The cabin-ready variable before this tick writes it. */
    cabinReady: bool,
    cautionLeft: bool,
    cautionRight: bool,
    warningLeft: bool,
    warningRight: bool
  )

  datatype TakeoffReadings = TakeoffReadings(
    toConfigButton: bool,
    v1: int,
    vr: int,
    v2: int,
    cabinDoor: int,
    cateringDoor: int,
    fwdCargoLocked: bool,
    aftCargoLocked: bool,
    brakesHot: bool,
    /** The T.O. CONFIG NORMAL variable before this tick writes it. */
    toConfigNormal: bool
  )

  /** What the T.O. CONFIG test reads, taken from the snapshot. */
  function TakeoffOf(r: Snapshot, speedBrakeCommand: bool): TakeoffInputs
  {
    TakeoffInputs(
      r.power.generator1, r.power.generator2, r.hyd.greenLowPressure, r.hyd.yellowLowPressure, r.hyd.blueLowPressure,
      r.hyd.pump1Auto, r.hyd.pump2Auto, r.takeoff.v1, r.takeoff.vr, r.takeoff.v2, r.takeoff.cabinDoor, r.takeoff.cateringDoor,
      r.takeoff.fwdCargoLocked, r.takeoff.aftCargoLocked, r.takeoff.brakesHot,
      r.aero.flapsEntered, r.aero.flapsHandle, r.aero.flapsEnteredValue, speedBrakeCommand)
  }
}
